=== FILE: README.md ===
# microsat in Dafny

A model of the DPLL SAT solver `microsat` and proofs about it. The solver is written in Rust; the model is written in Dafny. It covers these pieces of the solver:

- **Literals and clauses** (`Cnf`). A literal is a signed integer, and its variable is the literal's magnitude. A clause is a vector of literals. `insert_checked` appends only literals that are not there yet. `remove` swap-removes the first occurrence of a literal. The `Action` alphabet of the undo log is defined here too.
- **The undo-log stack** (`Stacks`).
- **The formula state machine** (`Expressions`, `Invariants`). It holds:
  - the clause vector and the variable set;
  - the literal-to-clause index;
  - the unit-clause and pure-literal sets;
  - the active and empty clause counters;
  - the assignments;
  - the undo log.

  `assign_variable` does three things:
  - it soft-removes every clause indexed under the now-true literal;
  - it deletes the now-false literal from the clauses indexed under it, inside a `Start … End(l)` log block;
  - it logs everything it does.

  `restore_action_state` pops the log back to a saved length and undoes each entry on the way. `Invariants` holds the representation invariant `Wf` and proves that every operation keeps it.
- **Backtracking** (`Backtrack`, `LogShape`):
  - After any run of assignments of unassigned variables, restoring to the saved log length returns to an equivalent state. The state has the same clauses (as multisets), index, counters, assignments and log (`RunRestores`).
  - On a log made of whole entries, restoring to an entry boundary never hits a stray block entry. It either panics or cuts the log back to exactly that length (`RestoreCuts`).
- **The search** (`Heuristics`, `Dpll`):
  - the three branch heuristics;
  - the inference loop, which drains unit clauses and then pure literals;
  - the terminal checks;
  - two-way branching, with the log restored between the attempts and on every `None` return.
- **Model checking and the top-level solve** (`Solver`): `verify_assignment` and its unit tests, and `solve` with the optional check.
- **DIMACS reading** (`DimacsParser`), applied to lines that have already been read:
  - comment and blank lines are skipped, and so are problem lines;
  - every other line becomes one clause;
  - each token is parsed as an `i16`, and a token that does not parse is a panic;
  - a line's tokens are read up to the first `0`.

Hash-map and hash-set iteration order decides which clause ids are visited and which unit clause or pure literal is taken. It also decides how heuristic ties break. This order is an explicit parameter (`Enumerates(o, s)`: the sequence `o` lists the set `s` once). In the search methods it is an arbitrary choice. A panic of the source is the `Failure` of a `Result`, or the `Panic` outcome of the search. A search that does not return is `OutOfFuel`. In `solve` the search runs in a thread of its own, so its panic is not a panic of `solve`: `Solver.Receive` says what `recv` makes of the searches' outcomes.

### Behaviour of the code as written

The model follows the code, not its comments. The differences that matter:

- **`remove_clause` never prunes the index** (src/expression.rs:94-120). Its doc comment says it drops the clause from `literal_to_clause`, but the code only updates the pure set. `remove_literal_from_clauses` also leaves the index entry in place. So a clause that is already removed is still found under its other literals, and `remove_clauses_with_literal` removes it again. Each repeat lowers the active counter once more. `Dpll.DoubleRemoval` exhibits this on the formula `(1 or 2)`:
  - literal 1 is pure, and making it true removes the clause;
  - literal 2 is still pure, and making it true removes the same clause again;
  - the active counter goes 1, 0, -1 (the source's `u16` underflows here);
  - afterwards the formula is neither satisfied nor unsatisfiable, no inference is possible, and every variable is assigned, so the branch heuristic panics.

  Because of this, backtracking fidelity is proved under two conditions: each step assigns an unassigned variable, and the index entries of unassigned literals still occur in their clauses (`Expressions.Inv`).
- **A zero active counter is not satisfaction.** Because of the repeated removals, the counter can reach zero while a clause is still unsatisfied. `Dpll.PrematureSatisfied` exhibits this on `(1 or 2 or 5) and (-3 or -4) and (3 or 4)`. The pure literals 1, 2 and 5 all sit in the first clause, and taking each of them removes that clause once more. The counter reaches zero, the search reports the formula satisfied, and `construct_assignment` sets 3 and 4 to `true`, which falsifies `(-3 or -4)`.
- **The unit loop can run forever.** A removed clause stays in the index, so unit propagation can make it unit again and assign a variable that is already assigned. `Dpll.ReassignedRestore` traces this on `(-1 or 2) and (-2 or 1)` when the search branches 1 true:
  - the branch makes `(2)` unit;
  - propagating 2 removes `(2)` and makes the removed clause `(1)` unit again;
  - propagating that assigns 1 a second time, removes `(1)` once more and drives the active counter to -1, which underflows the source's `u16`;
  - the same step "deletes" the absent `-1` from `(2)`, which therefore becomes unit again.

  From there on the two clauses take turns: `Dpll.UnitCycle` shows that each `remove_unit_clause` returns `Some`, leaves the clauses as they are, makes the other clause unit and lowers the counter once more. The loop `while cnf.remove_unit_clause().is_some() {}` (src/dpll.rs:13) has no other exit. A debug build panics on the underflow, and a release build loops forever with a growing log. The search never reaches the restore that would follow a conflict. `Dpll.ReassignedRestore` also states what the model's `Restore` would make of that state if it were restored to the log length right after the branch: 1 becomes unassigned although the branch assigned it, and `-1` is appended to `(2)` again.
- **With one thread, a panicking search hangs `solve`.** `solve` clones the sender and moves the clone into a thread only when two threads run (src/solver.rs:35, 46-55). With one thread the clone stays alive in `solve`, so after the search thread panics, `recv` (src/solver.rs:57) waits for ever instead of failing (`Solver.OneThreadPanicBlocks`). With two threads, a panicking search just never answers, and the other's answer is taken (`Solver.OtherThreadAnswers`). `recv` fails only when both panic. `Dpll.DoubleRemoval` gives such a panic on `(1 or 2)`.
- **An empty clause is not detected.** `add_clause` does not count empty clauses, so a formula with an empty clause is not reported unsatisfiable when it is built.
- **Pure literals are not restored on backtrack.** The unit and pure sets are therefore left out of the state equivalence that backtracking restores.
- **`remove_clause` tests the wrong polarity.** Its purity update adds a negation to the pure set when the negation has no instances. Under the representation invariant that branch is never reached (`Expressions.RemoveClauseKeepsPurity`).

## Model

| member | source | states |
|---|---|---|
| Cnf.NewClause | src/cnf.rs:54-58 | A new clause is empty, with length zero. |
| Cnf.InsertChecked | src/cnf.rs:61-65 | The literal is present afterwards. A literal already present leaves the clause unchanged. Otherwise the literal is appended after the old literals. A duplicate-free clause stays duplicate-free. The members are exactly the old ones plus the literal. |
| Cnf.Insert | src/cnf.rs:68-70 | The length grows by exactly one. The literal is appended after the unchanged old literals. The multiset of literals gains that one literal. |
| Cnf.LenCounts | src/cnf.rs:73-75 | `len` counts every stored literal, repeats included, and is zero exactly when the clause contains no literal. |
| Cnf.ContainsAt | src/cnf.rs:83-85 | `contains` is true exactly when some position of the clause holds the literal. |
| Cnf.IsEmpty | src/cnf.rs:78-80 | Empty exactly when the length is zero. |
| Cnf.Get | src/cnf.rs:93-96 | The unchecked read needs an in-bounds index and returns a literal of the clause. |
| Cnf.FirstIndex | src/cnf.rs:102-103 | The scan stops at the first occurrence of the literal, and runs to the end exactly when the literal is absent. |
| Cnf.SwapRemove | src/cnf.rs:104 | `swap_remove`: one element fewer. The earlier elements stay in place, and the last element moves into the hole. The multiset loses exactly the removed element. |
| Cnf.Remove | src/cnf.rs:101-108 | An absent literal leaves the clause unchanged. A present one is swap-removed at its first occurrence. |
| Cnf.RemoveFromFirst | src/cnf.rs:101-108 | The source's scanning loop, started past positions without the literal, does exactly what `Remove` describes. |
| Cnf.RemoveProperties | src/cnf.rs:101-108 | Removing a present literal shortens the clause by one and removes one copy of it from the multiset. Removing an absent literal changes nothing. |
| Cnf.RemoveMembership | src/cnf.rs:101-108 | Removal adds no literal and keeps every other literal. |
| Cnf.RemoveInsertMultiset | src/cnf.rs:101-108 | Re-inserting a removed literal restores the clause's multiset and its length; backtracking relies on this. |
| Cnf.ToVariable | src/cnf.rs:112-114 | The variable is the literal's magnitude. |
| Cnf.Negate | src/cnf.rs:117-119 | The negation has the same variable, and it differs from the literal exactly when the literal is nonzero. |
| Cnf.NegateInvolution | src/cnf.rs:117-119 | Negating twice gives the literal back. |
| Cnf.NegateI16 | src/cnf.rs:117-119 | The negation of an `i16` literal stays in range exactly when the literal is not `i16::MIN`. |
| Cnf.ToPositive | src/cnf.rs:122-128 | The result is non-negative and equals the literal's variable. |
| Stacks.New | src/stack.rs:9-13 | A new stack is empty and has length zero. |
| Stacks.IsEmpty | src/stack.rs:35-37 | Empty exactly when the length is zero. |
| Stacks.LenCounts | src/stack.rs:29-31 | `len` counts every item, and is zero exactly when the stack contains no value. |
| Stacks.Push | src/stack.rs:17-19 | The length grows by one, the old items stay below, and `peek` returns the pushed value. |
| Stacks.Peek | src/stack.rs:41-43 | A non-empty stack's top is its last item. |
| Stacks.Pop | src/stack.rs:23-25 | On an empty stack: `None`, and the stack is unchanged. Otherwise: `Some(top)`, and the stack below, which pushing the top back restores. |
| Stacks.Contains | src/stack.rs:47-52 | True exactly when some item equals the value. |
| Stacks.PopAfterPush | src/stack.rs:17-25 | Popping right after pushing `v` gives `Some(v)` and the previous stack. |
| Stacks.ContainsAfterPush | src/stack.rs:47-52 | After pushing `v`, the stack contains `v`, and contains any other value exactly when it did before. |
| Stacks.PopEmpty | src/stack.rs:23-25 | Popping an empty stack gives `None` and leaves it empty. |
| Expressions.New | src/expression.rs:53-68 | The new expression has no clauses, no variables, no assignments, an empty index and log, and zero counters. |
| Expressions.CheckPureLiteral | src/expression.rs:196-215 | Afterwards `l` is pure exactly when it has instances and its negation has none, and the same holds for the negation. They are never both pure. No other literal's purity changes, and nothing else changes. |
| Expressions.IndexLiteralsAt | src/expression.rs:396-412 | Indexing a clause's literals creates entries for exactly those literals and their negations. It records the clause id under exactly the clause's literals. |
| Expressions.AddClause | src/expression.rs:393-428 | The clause is appended under the next id. The variables grow by the clause's variables. The active counter grows by one. A length-1 clause becomes unit. The maximum clause length is the running maximum. Assignments and log are unchanged. |
| Expressions.AddClauseIndexAt | src/expression.rs:393-412 | After `add_clause`, a literal is indexed exactly when it was before or it or its negation is in the clause. Its entry gains the new id exactly when it is in the clause. |
| Expressions.AddClausePurity | src/expression.rs:393-428 | After `add_clause`, each literal of the clause is pure exactly when it has instances and its negation has none. |
| Expressions.AddClauseWf | src/expression.rs:393-428 | `add_clause` of a clause without literal zero keeps the representation invariant. |
| Expressions.AddClauseInv | src/expression.rs:393-428 | `add_clause` keeps every indexed literal of an unassigned variable inside its clause. |
| Expressions.FromClauses | src/expression.rs:70-77 | The clause vector is the given clauses, empty ones included. The active counter is their number, and the empty-clause counter is zero. There are no assignments and no log. |
| Expressions.FromClausesWf | src/expression.rs:70-77 | Clauses without literal zero build a well-formed expression. |
| Expressions.FromClausesInv | src/expression.rs:70-77 | In a freshly built expression, every index entry points at a clause that holds the literal. |
| Expressions.RemoveClause | src/expression.rs:94-120 | Soft removal: the active counter drops by one, and the clause leaves the unit set. `RemoveClause(c)` is logged. The index, the clauses and the other counters are unchanged, and the pure set only grows. |
| Expressions.RemoveClauseKeepsPurity | src/expression.rs:94-120 | While every literal of the clause is indexed under it, `remove_clause` leaves the pure set as it is. |
| Expressions.RemoveClauses | src/expression.rs:191-193 | Removing the listed clauses lowers the active counter by their number, repeats included. They leave the unit set, and one `RemoveClause` entry is logged per clause. Everything else is unchanged. |
| Expressions.RemoveClausesWithLiteral | src/expression.rs:180-194 | An unindexed literal changes nothing. Otherwise every clause recorded under the literal is removed in one iteration order, including clauses removed earlier. |
| Expressions.RemoveLiteralStep | src/expression.rs:160-174 | The literal is removed from the clause, and the removal is logged. A clause left with one literal becomes unit. A clause left empty leaves the unit set and raises the empty counter by one. Index, assignments and active counter are unchanged. |
| Expressions.RemoveLiteralLoop | src/expression.rs:160-174 | Clauses outside the order are unchanged. One entry is logged per visited clause, and the empty counter never drops. The exact effect is `RemoveLiteralLoopEffect`. |
| Expressions.RemoveLiteralLoopEffect | src/expression.rs:160-174 | Over distinct clause ids, each visited clause becomes exactly the clause with the literal removed. The empty counter grows by exactly the number of visited clauses left empty. |
| Expressions.RemoveLiteralFromClauses | src/expression.rs:148-177 | An unindexed literal changes nothing. Otherwise the removals are logged between `Start` and `End(l)`. The index, the assignments and the active counter are unchanged, and the empty counter never drops. The exact effect is `RemoveLiteralFromClausesEffect`. |
| Expressions.RemoveLiteralFromClausesEffect | src/expression.rs:148-177 | Every clause recorded under the literal loses it, and every other clause is unchanged. The empty counter grows by exactly the number of those clauses left empty. |
| Expressions.RecordAssignment | src/expression.rs:219-223 | The value is recorded and `AssignVariable(v)` is logged; nothing else changes. |
| Expressions.AssignVariable | src/expression.rs:217-235 | The value is recorded. The index and the variables are unchanged. The number of clauses is kept, and the empty counter never drops. The exact effect on the clauses is `AssignVariableClauses`. |
| Expressions.AssignVariableClauses | src/expression.rs:217-235 | Each clause recorded under the false literal loses that literal, and every other clause is unchanged. The empty counter grows by exactly the number of those clauses left empty. |
| Expressions.AssignVariableLog | src/expression.rs:217-235 | The log grows by the assignment. Then one removal is logged per clause indexed under the true literal, then the removal block of the false literal. |
| Expressions.AssignVariableCounters | src/expression.rs:217-235 | The active counter drops once per clause indexed under the true literal, whether or not that clause was already removed. Neither polarity of the variable stays pure. |
| Expressions.UnassignVariable | src/expression.rs:237-239 | The variable becomes unassigned. Every other variable stays assigned or unassigned as before, with the same value. Nothing else in the expression changes. |
| Expressions.GetActionState | src/expression.rs:495-497 | The action state is the log length. |
| Expressions.EnableLiteralsAt | src/expression.rs:131-144 | Re-enabling records the clause id under exactly the clause's literals. |
| Expressions.EnableClause | src/expression.rs:123-145 | The active counter grows by one, and a length-1 clause becomes unit again. The clauses, log, assignments, index keys and empty counter are unchanged. |
| Expressions.EnableClauseAt | src/expression.rs:123-145 | Each index entry gains the clause id exactly when the literal is in the clause. |
| Expressions.ReinsertLiteral | src/expression.rs:515-527 | The literal is appended to the clause again. A clause going from empty to one literal lowers the empty counter and becomes unit. A clause going from one to two literals stops being unit. The literal's index entry gains the clause. |
| Expressions.UndoBlock | src/expression.rs:506-533 | A successful block undo shortens the log to an initial part. It keeps the assignments, the number of clauses and the index keys. |
| Expressions.Restore | src/expression.rs:499-541 | A completed restore leaves at most the saved length. Unless it panics, the result's log is an initial part of the old one. A log already within the saved length is left alone. |
| Expressions.RestoreAtRemove | src/expression.rs:503-505 | One-step unfolding used by the backtracking proofs: a `RemoveClause` entry is undone by `enable_clause` before restoring continues. |
| Expressions.RestoreAtBlockEnd | src/expression.rs:506-533 | One-step unfolding used by the backtracking proofs: a block-end entry is undone by undoing the whole block before restoring continues. |
| Expressions.RestoreAtAssign | src/expression.rs:535-537 | One-step unfolding used by the backtracking proofs: an `AssignVariable` entry is undone by unassigning before restoring continues. |
| Expressions.UndoBlockAtRemoval | src/expression.rs:515-527 | One-step unfolding used by the backtracking proofs: inside a block, each literal-removal entry is undone by re-inserting the literal. |
| Expressions.StartCounters | src/expression.rs:472-479 | A freshly built expression is satisfied (`is_satisfied`) exactly when it has no clause. It is never unsatisfiable (`is_unsatisfiable`), even with an empty clause. Inference is possible only when it has a clause. |
| Expressions.RemoveLeavesEmpty | src/expression.rs:160-170 | Deleting a literal leaves a clause with no literal exactly when the clause is that literal alone or already empty. |
| Expressions.EmptiedPositive | src/expression.rs:160-170 | The number of visited clauses counted as emptied is positive exactly when some visited clause is the literal alone or already empty. An already empty clause is counted again. |
| Expressions.ConflictOnAssign | src/expression.rs:217-235 | After `assign_variable`, `is_unsatisfiable` holds exactly when it held before, or when some clause recorded under the false literal is that literal alone or already empty. |
| Expressions.RemoveUnitClause | src/expression.rs:430-441 | With no unit clause: `None`, and nothing changes. Otherwise the chosen unit clause's first literal is made true, and the clause id is returned. The read panics exactly when that clause is empty. |
| Expressions.RemovePureLiteral | src/expression.rs:443-452 | With no pure literal: `None`, and nothing changes. Otherwise the chosen pure literal is made true and returned. |
| Expressions.ConstructAssignment | src/expression.rs:454-469 | The assignment is defined on the assigned variables and all variables. It agrees with the assignments, and every unassigned variable gets `true`. |
| Expressions.ClauseSatisfiedBy | src/expression.rs:251-262 | A clause passes exactly when one of its literals is made true by the assignment. Unassigned variables are skipped. |
| Expressions.IsSatisfiedBy | src/expression.rs:248-270 | True exactly when the partial assignment satisfies every clause (the reference `Satisfies`). |
| Expressions.SatisfiedFrom | src/expression.rs:249-267 | The outer loop from clause `i` is true exactly when every later clause is satisfied. |
| Invariants.RemoveClausesWf | src/expression.rs:191-193 | Removing clauses keeps the representation invariant. |
| Invariants.RemoveLiteralStepWf | src/expression.rs:160-174 | One literal removal keeps the representation invariant. |
| Invariants.RemoveLiteralFromClausesWf | src/expression.rs:148-177 | Removing a literal from its clauses keeps the representation invariant. |
| Invariants.AssignVariableWf | src/expression.rs:217-235 | `assign_variable` keeps the representation invariant. |
| Invariants.EnableClauseWf | src/expression.rs:123-145 | `enable_clause` keeps the representation invariant. |
| Invariants.ReinsertLiteralWf | src/expression.rs:515-527 | Undoing one literal removal keeps the representation invariant. |
| Invariants.UndoBlockWf | src/expression.rs:506-533 | A successful block undo keeps the representation invariant. |
| Invariants.RestoreWf | src/expression.rs:499-541 | `restore_action_state` keeps the representation invariant unless it panics. |
| Invariants.RemoveLiteralLoopKeeps | src/expression.rs:160-174 | Removing one literal keeps every other literal in every clause. |
| Invariants.AssignVariableKeeps | src/expression.rs:217-235 | Assigning `v` keeps every literal of another variable in place. |
| Invariants.AssignVariableInv | src/expression.rs:217-235 | Assigning an unassigned variable keeps every indexed literal of the other unassigned variables inside its clause. |
| Invariants.RemoveUnitClauseSucceeds | src/expression.rs:430-441 | Under the invariant the unit clause's literal read never panics, and the result is well formed. |
| Backtrack.RestoreCongruent | src/expression.rs:499-541 | Restoring equivalent states gives equivalent outcomes. |
| Backtrack.UndoBlockCongruent | src/expression.rs:506-533 | Undoing a block on equivalent states succeeds on both or on neither, with equivalent results. |
| Backtrack.RestoreSplit | src/expression.rs:499-541 | Restoring to `n` passes through the state of restoring to any `m >= n`. |
| Backtrack.EnableAfterRemove | src/expression.rs:123-145 | `enable_clause` right after `remove_clause` gives back an equivalent state. |
| Backtrack.UndoOneRemoval | src/expression.rs:515-527 | Re-inserting a literal right after removing it gives back an equivalent state. |
| Backtrack.UndoLoop | src/expression.rs:506-533 | Undoing the block of a literal-removal loop succeeds, and gives back the state before the loop. |
| Backtrack.RemoveClausesUndo | src/expression.rs:499-541 | Restoring after clause removals gives the same as restoring without them. |
| Backtrack.BlockUndo | src/expression.rs:499-541 | Restoring after `remove_literal_from_clauses` gives the same as restoring without it. |
| Backtrack.RecordUndo | src/expression.rs:535-537 | Restoring right after recording the assignment of an unassigned variable gives the state before it. |
| Backtrack.FalsifiedUndo | src/expression.rs:499-541 | Restoring after the literal-removal half of an assignment gives the same as restoring without it. |
| Backtrack.AssignUndo | src/expression.rs:499-541 | Restoring to the saved length after assigning an unassigned variable completes, and gives back an equivalent state. |
| Backtrack.UndoSingleBlock | src/expression.rs:506-533 | Undoing a block that removed a literal from one clause appends the literal to that clause again and cuts the log back to the block's start. The assignments are kept, and the clause id is added to the literal's index entry. |
| Backtrack.ReassignUndo | src/expression.rs:499-541 | Restoring over an assignment whose literals are each recorded under one clause completes, whether or not the variable was assigned before. It drops the variable from the assignments and appends the false literal to its clause, even when the assignment had not removed it. The log and the index keys are back to their earlier values. |
| Backtrack.SingleClauseAssignUndo | src/expression.rs:499-541 | Restoring over a logged assignment that removed one clause and deleted the false literal from one other clause completes. The literal is appended to that clause again, the variable is dropped from the assignments, and the log is cut back. |
| Backtrack.AssignVariablePrefix | src/expression.rs:217-235 | The log before `assign_variable` is an initial part of the log after. |
| Backtrack.Run | src/dpll.rs:36-49 | A run of assignments keeps the invariant, and each log is an initial part of the next. |
| Backtrack.RunInv | src/dpll.rs:36-49 | Every state of a run keeps the literal-occurrence invariant. |
| Backtrack.RunRestores | src/expression.rs:495-541 | After any run of assignments of unassigned variables, restoring to the saved action state completes. The assignments, counters, clauses (as multisets), index and log are back to their earlier values. |
| LogShape.ParsesEntry | src/expression.rs:114-119 | Appending a clause-removal or assignment entry keeps the log made of whole entries. |
| LogShape.ParsesRemovals | src/expression.rs:191-193 | Appending clause-removal entries keeps the log made of whole entries. |
| LogShape.ParsesBlock | src/expression.rs:157-176 | Appending a `Start … End(l)` block keeps the log made of whole entries. |
| LogShape.AssignVariableParses | src/expression.rs:217-235 | `assign_variable` appends only whole entries. |
| LogShape.ParsesLast | src/expression.rs:506-533 | A log of whole entries never ends inside a block. |
| LogShape.UndoBlockCuts | src/expression.rs:506-533 | Undoing a block cuts the log back to its `Start` entry. |
| LogShape.BoundaryBeforeBlock | src/expression.rs:499-502 | A saved length that is an entry boundary cannot fall strictly inside the block that ends the log. |
| LogShape.RestoreCutsBlock | src/expression.rs:506-533 | The block-end case of `RestoreCuts`. |
| LogShape.RestoreCuts | src/expression.rs:499-541 | Restoring a log of whole entries to an entry boundary never stops at a stray entry. Unless it panics, it cuts the log back to exactly the saved length. |
| Heuristics.WfEntries | src/expression.rs:308-309 | Under the invariant, both index reads of every unassigned variable succeed, and no variable is zero. |
| Heuristics.MostLiteralOccurrences | src/expression.rs:272-295 | The literal found is unassigned, indexed and recorded under some clause, and no eligible literal has more clauses. When literal zero is not indexed, the function panics exactly when no literal is eligible. |
| Heuristics.MostVariableOccurrences | src/expression.rs:297-324 | The result is an unassigned nonzero variable with the most occurrences of both polarities, tried true first. A missing index entry panics. When all entries are present, it panics exactly when every unassigned variable has no occurrences. |
| Heuristics.MinimizeClauseLength | src/expression.rs:328-389 | The result is an unassigned variable, tried true first exactly when its positive literal has more clauses. It panics exactly when an index entry is missing or every variable is assigned. |
| Heuristics.GetBranchVariable | src/expression.rs:481-489 | On a well-formed expression, the branch variable is an unassigned variable of the formula. With every variable assigned it panics. |
| Dpll.Assign | src/expression.rs:491-493 | `branch_variable` records the value and keeps the variables and index. The state stays well formed with a log of whole entries, and the log is extended. |
| Dpll.AssignGood | src/expression.rs:217-235 | `assign_variable` keeps the search state good. |
| Dpll.Unwind | src/dpll.rs:17-19 | Restoring before `None` either panics or leaves a well-formed state whose log is cut back to exactly the saved length. |
| Dpll.DrainUnits | src/dpll.rs:13 | When the loop ends, no unit clause is left, and the state stays good. |
| Dpll.DrainPure | src/dpll.rs:22 | When the loop ends, no pure literal is left, and the state stays good. |
| Dpll.Propagate | src/dpll.rs:11-23 | The loop ends either on a conflict (some empty clause) or when no inference is possible. |
| Dpll.SolveDpll | src/dpll.rs:6-58 | `Some` is returned only when the active counter is zero, and its value is `construct_assignment`. `None` leaves a well-formed state whose log is exactly the log on entry. |
| Dpll.Branch | src/dpll.rs:34-57 | After both attempts, `Some` comes only with a zero active counter and the constructed assignment. `None` leaves a well-formed state whose log is cut back to exactly its length on entry. |
| Dpll.BranchShrinks | src/dpll.rs:36-39 | Branching on an unassigned variable leaves exactly one unassigned variable fewer. |
| Dpll.AssignNoFalsified | src/expression.rs:148-177 | Making a literal true whose negation is under no clause deletes no literal. |
| Dpll.OneClauseFormula | src/expression.rs:393-428 | `(1 or 2)` as built: both literals are pure and recorded under clause 0, and their negations under nothing. |
| Dpll.FirstPure | src/expression.rs:443-452 | On `(1 or 2)`, making pure literal 1 true removes the clause, and 2 stays pure. |
| Dpll.DoubleRemoval | src/expression.rs:180-194 | On `(1 or 2)`, making the still-pure 2 true removes the same clause again. The active counter goes 1, 0, -1. The search then can neither infer, nor finish, nor branch. |
| Dpll.PureStepTo | src/expression.rs:443-452 | Taking a pure positive literal recorded under clause 0 only makes it true and drops it from the pure set. The other pure literals stay pure, the clauses and index are unchanged, and the active counter drops by one. |
| Dpll.PrematureSatisfied | src/dpll.rs:11-27 | On `(1 or 2 or 5) and (-3 or -4) and (3 or 4)` as built, 1, 2 and 5 are pure and no clause is unit. Taking the pure literals 1, 2, 5 in turn removes clause 0 three times, and the active counter goes 3, 2, 1, 0. The search then finds the formula satisfied, with no conflict and no inference left. Yet `construct_assignment` sets 3 and 4 true, which falsifies `(-3 or -4)`. |
| Dpll.CrossedAssign | src/expression.rs:217-235 | When the true literal is recorded under clause `d` only and the false one under clause `c` only, assigning deletes the false literal from `c` and changes no other clause. A clause left with one literal becomes unit. |
| Dpll.ReassignedRestore | src/dpll.rs:8-19 | On `(-1 or 2) and (-2 or 1)`: branching 1 true makes clause 0 the unit `(2)`. Propagating it makes the removed clause 1 the unit `(1)`, and propagating that assigns 1 again. The state is then in the shape of `Dpll.UnitCycle`: the active counter is -1 and `(2)` is unit again, so the unit loop does not exit. The model's `Restore` of that state to the log length right after the branch would complete, but with 1 unassigned and `-1` appended to clause 0, giving `(2 or -1)`. The search itself never reaches that restore. |
| Dpll.UnitCycle | src/dpll.rs:13 | On the clauses `(2)` and `(1)`, with every literal still recorded under its original clause, whichever unit clause `remove_unit_clause` takes, it returns `Some`. The clauses are unchanged, the other clause is unit, and the active counter drops by one. The shape is kept, so the unit loop never finds the unit set empty. |
| Dpll.CrossedNoop | src/expression.rs:217-235 | Making true a literal recorded under one clause, when its negation is recorded only under a one-literal clause that does not hold it, changes no clause. It marks that clause unit and lowers the active counter by one. |
| Solver.CheckClause | src/solver.rs:9-20 | If it returns, the result is true exactly when some literal is made true. It panics only at a variable missing from the assignment, and never when all are present. |
| Solver.CheckFrom | src/solver.rs:7-25 | If it returns, the result is true exactly when every clause from `i` on is satisfied. It never panics when the assignment covers them. |
| Solver.VerifyAssignment | src/solver.rs:6-28 | If it returns, the result is true exactly when every clause has a literal `l` with `assignment[abs(l)] == (l > 0)`. An assignment covering all variables never panics. |
| Solver.VerifyEmpty | src/solver.rs:6-28 | Any assignment verifies against a formula with no clauses. |
| Solver.TwoLiterals | src/cnf.rs:61-65 | Two different literals inserted with `insert_checked` give the clause of both, in order. |
| Solver.VerifySatisfied | src/solver.rs:77-89 | `(1 or -2)` under `{1: true, 2: false}` verifies. |
| Solver.VerifyUnsatisfied | src/solver.rs:92-104 | `(1 or 2)` under `{1: false, 2: false}` fails. |
| Solver.VerifyUnsatisfiedMultiple | src/solver.rs:107-126 | `(1 or 2) and (-3 or -4)` under `{1, 2: false; 3, 4: true}` fails. |
| Solver.VerifySatisfiedMultiple | src/solver.rs:129-148 | `(1 or -2) and (3 or -4)` under `{1, 3: true; 2, 4: false}` verifies. |
| Solver.Receive | src/solver.rs:34-57 | `recv` gives an answer exactly when some search answered, and only a search's own answer; an answer is taken when the other search has none. It panics exactly when two searches both panicked. With one thread a panicked search leaves it waiting for ever, because `solve` still holds the second sender. |
| Solver.OneThreadPanicBlocks | src/solver.rs:35-57 | With one thread, a panic of the search makes `solve` wait for ever instead of panicking. |
| Solver.OtherThreadAnswers | src/solver.rs:37-57 | With two threads, when one search panics, `solve` receives the other's answer. |
| Solver.Solve | src/solver.rs:30-66 | With `verify`, a returned `Some` satisfies every clause of the input, because an invalid one panics. Without `verify`, `solve` panics only with two threads, both of whose searches panicked. With one thread, it panics only in the check. |
| DimacsParser.SplitFrom | src/dimacs_parser.rs:27 | Every token is non-empty and has no whitespace. |
| DimacsParser.Tokens | src/dimacs_parser.rs:27 | Every token of `split_whitespace` is non-empty and has no whitespace. |
| DimacsParser.SplitSeparated | src/dimacs_parser.rs:27 | A whitespace character splits the line into two independently split halves. |
| DimacsParser.SplitWord | src/dimacs_parser.rs:27 | A run without whitespace is one token. |
| DimacsParser.TokensJoin | src/dimacs_parser.rs:27 | Splitting tokens joined with single spaces gives back the tokens. |
| DimacsParser.ParseLiteral | src/dimacs_parser.rs:28 | A token parses only when it is an optional sign followed by decimal digits, with a value in `i16`. The empty token panics. |
| DimacsParser.Decimal | src/dimacs_parser.rs:28 | The decimal text of a number is non-empty and all digits. |
| DimacsParser.LiteralText | src/dimacs_parser.rs:28 | A literal's text is one token, starting with `-` or a digit. |
| DimacsParser.DecimalValue | src/dimacs_parser.rs:28 | The digits of a number read back as the number. |
| DimacsParser.ParseLiteralText | src/dimacs_parser.rs:28 | Every `i16` literal written in decimal parses back to itself. |
| DimacsParser.ParseLiteralRange | src/dimacs_parser.rs:28 | Values outside the `i16` range panic. |
| DimacsParser.ClauseOfTokens | src/dimacs_parser.rs:26-33 | The parsed clause extends the start clause, stays duplicate-free, and holds only nonzero `i16` literals. |
| DimacsParser.InsertAll | src/dimacs_parser.rs:32 | Inserting in turn keeps the clause duplicate-free and adds exactly the given literals. |
| DimacsParser.Texts | src/dimacs_parser.rs:27-28 | Each written literal is one token. |
| DimacsParser.ClauseOfTexts | src/dimacs_parser.rs:27-33 | Nonzero `i16` literals, written out, parse to the clause that inserts them one by one with repeats dropped. |
| DimacsParser.ClauseOfTextsZero | src/dimacs_parser.rs:27-33 | The same with a closing `0`, which ends the clause. |
| DimacsParser.ClauseStopsAtZero | src/dimacs_parser.rs:29-31 | Tokens after the first `0` are ignored, even ones that would not parse. |
| DimacsParser.ClauseBadToken | src/dimacs_parser.rs:28 | A bad token before any `0` panics. |
| DimacsParser.ParseLine | src/dimacs_parser.rs:11-36 | Empty lines and lines starting with `c` or `p` give no clause. Every other line gives exactly one duplicate-free clause of nonzero `i16` literals, or panics. |
| DimacsParser.SkipExactly | src/dimacs_parser.rs:13-23 | A line yields neither a clause nor a panic exactly when it is blank, a comment, or the problem line. |
| DimacsParser.ParseLineText | src/dimacs_parser.rs:26-35 | A line written from literals and a closing `0`, with anything after it, reads back as the clause of those literals. |
| DimacsParser.ParseZeroLine | src/dimacs_parser.rs:26-35 | The line `0` is the empty clause. |
| DimacsParser.ParseBlankLine | src/dimacs_parser.rs:13-35 | A line of blanks is not skipped; it is the empty clause. |
| DimacsParser.BlankTokens | src/dimacs_parser.rs:27 | A run of whitespace has no tokens. |
| DimacsParser.ClausesOf | src/dimacs_parser.rs:11-36 | The lines' clauses are all duplicate-free with nonzero `i16` literals. |
| DimacsParser.ClausesOfCount | src/dimacs_parser.rs:11-36 | Every clause line adds exactly one clause, and no other line adds one. |
| DimacsParser.ClausesOfAppend | src/dimacs_parser.rs:11-36 | Lines are read independently: the clauses of two blocks of lines are the clauses of each, in order. A bad line anywhere panics. |
| DimacsParser.ParseDimacs | src/dimacs_parser.rs:4-39 | The expression holds the clauses of the lines, in order. It is well formed, with no assignments and an empty log, ready for the search. |

## Left out

- Threads and the `mpsc` race in `solve`: the searches run one after the other. When both answer, `Solver.Solve` makes an arbitrary choice between them. A search that runs out of fuel counts as one that has not answered, so the other's answer is taken even where, with more fuel, the slow search might have answered first.
- The `Arc<RwLock<…>>` around the undo log: the log is a plain value.
- Reading the file in `parse_dimacs`, and the example programs: the parser starts from the file's lines.
- `optimize` and the capacity argument of `Stack::new`: they only pre-allocate.
- `Clone`, `Default` and `Debug` implementations, and `Stack`'s iterators: plumbing.
- Hash iteration order: it is a parameter, or an arbitrary choice in the search.
- Heuristics.MinimizeClauseLength: the lexicographic scoring is left out. The variable it ends with is a parameter, constrained only to be unassigned.
- `u16`/`i16` widths: literals, variables and counters are unbounded integers.
  - The active counter's underflow shows as a negative value; in the source a debug build panics on it and a release build wraps.
  - `Cnf.NegateI16` states where `i16` negation stays in range.
  - The parser checks the `i16` range exactly.
- Dpll.SolveDpll: a `Some` answer is proved to come with a zero active counter, not to satisfy the clauses. Because removals are counted twice (see `Dpll.DoubleRemoval`), a zero counter does not mean every clause is removed, and `Dpll.PrematureSatisfied` shows such a `Some` whose assignment falsifies a clause. Only `Solver.Solve` with `verify` guarantees a satisfying answer.
- Dpll.SolveDpll: the recursion and its loops take a fuel bound and return `OutOfFuel` when it runs out. The source does not always terminate: `Dpll.UnitCycle` gives a state, reached by `Dpll.ReassignedRestore`, from which the unit loop never exits. Fuel is therefore part of the model, not only a bound for the proofs. Branching alone would terminate, since each branch assigns one more variable (`Dpll.BranchShrinks`).
- Dpll.Branch: a `Some` answer is proved to come with a zero active counter and the constructed assignment, not to satisfy the clauses; `Dpll.PrematureSatisfied` shows it need not.
- Dpll.Branch: the contract does not say that the second attempt uses the negated value, or that the log is restored between the attempts. The body does both, but only the log cut on `None` is stated.
- Backtrack.RunRestores: restores everything except the unit and pure sets, because the source does not restore them.
- Backtrack.RunRestores: is stated for runs of assignments of unassigned variables only. Unit propagation can pick up a removed clause that became unit again and re-assign its variable. The model's `Restore` over such a re-assignment does not give the earlier state back, as `Dpll.ReassignedRestore` shows, so no general equivalence is claimed there.
- `split_whitespace` splits on the Unicode `White_Space` characters; `lines()` is replaced by the given line sequence.
- Panic messages are kept only as text; they are not compared with the source's.

=== FILE: backtrack.dfy ===
/** Backtracking is faithful: after any run of assignments of unassigned
    variables, `restore_action_state` to the saved log length gives back
    the assignments, the counters, the index and every clause's literals
    (as a multiset: undoing appends a literal that `swap_remove` took from
    the middle). The unit and pure candidate sets are not part of this
    promise. */
module Backtrack {
  import opened Wrappers
  import opened Cnf
  import opened Expressions
  import opened Invariants

  /** Same number of clauses, each with the same literals counted with
      multiplicity. */
  ghost predicate SameClauses(a: seq<Clause>, b: seq<Clause>) {
    |a| == |b| && forall c | 0 <= c < |a| :: multiset(a[c].literals) == multiset(b[c].literals)
  }

  /** The state backtracking restores. */
  ghost predicate Equiv(a: Expression, b: Expression) {
    && a.actions == b.actions
    && a.assignments == b.assignments
    && a.literalToClause == b.literalToClause
    && a.variables == b.variables
    && a.numActiveClauses == b.numActiveClauses
    && a.numEmptyClauses == b.numEmptyClauses
    && SameClauses(a.clauses, b.clauses)
  }

  /** Two outcomes of `restore_action_state` agree up to `Equiv`. */
  ghost predicate Corr(r1: Restored, r2: Restored) {
    || (r1.Restored? && r2.Restored? && Equiv(r1.e, r2.e))
    || (r1.Halted? && r2.Halted? && Equiv(r1.e, r2.e))
    || (r1.Panicked? && r2.Panicked?)
  }

  lemma EquivSymmetric(a: Expression, b: Expression)
    requires Equiv(a, b)
    ensures Equiv(b, a)
  {
  }

  lemma EquivTransitive(a: Expression, b: Expression, c: Expression)
    requires Equiv(a, b) && Equiv(b, c)
    ensures Equiv(a, c)
  {
  }

  lemma CorrTransitive(r1: Restored, r2: Restored, r3: Restored)
    requires Corr(r1, r2) && Corr(r2, r3)
    ensures Corr(r1, r3)
  {
  }

  lemma SameMembers(a: seq<Literal>, b: seq<Literal>)
    requires multiset(a) == multiset(b)
    ensures forall k :: k in a <==> k in b
  {
    forall k
      ensures k in a <==> k in b
    {
      assert k in a <==> multiset(a)[k] > 0;
      assert k in b <==> multiset(b)[k] > 0;
    }
  }

  /** An index is determined by its keys and its entries. */
  lemma IndexExtensional(m1: map<Literal, set<ClauseId>>, m2: map<Literal, set<ClauseId>>)
    requires m1.Keys == m2.Keys
    requires forall k :: Entry(m1, k) == Entry(m2, k)
    ensures m1 == m2
  {
    forall k | k in m1
      ensures m1[k] == m2[k]
    {
      assert Entry(m1, k) == Entry(m2, k);
    }
  }

  lemma EnableClauseCongruent(a: Expression, b: Expression, c: ClauseId)
    requires Equiv(a, b) && EnableOk(a, c)
    ensures EnableOk(b, c)
    ensures Equiv(EnableClause(a, c), EnableClause(b, c))
  {
    SameMembers(a.clauses[c].literals, b.clauses[c].literals);
    var ra := EnableClause(a, c);
    var rb := EnableClause(b, c);
    forall k
      ensures Entry(ra.literalToClause, k) == Entry(rb.literalToClause, k)
    {
      EnableClauseAt(a, c, k);
      EnableClauseAt(b, c, k);
    }
    IndexExtensional(ra.literalToClause, rb.literalToClause);
  }

  lemma ReinsertLiteralCongruent(a: Expression, b: Expression, l: Literal, c: ClauseId)
    requires Equiv(a, b) && ReinsertOk(a, l, c)
    ensures ReinsertOk(b, l, c)
    ensures Equiv(ReinsertLiteral(a, l, c), ReinsertLiteral(b, l, c))
  {
    assert |multiset(a.clauses[c].literals)| == |multiset(b.clauses[c].literals)|;
    var ra := ReinsertLiteral(a, l, c);
    var rb := ReinsertLiteral(b, l, c);
    forall k
      ensures Entry(ra.literalToClause, k) == Entry(rb.literalToClause, k)
    {
    }
    IndexExtensional(ra.literalToClause, rb.literalToClause);
  }

  lemma PopCongruent(a: Expression, b: Expression)
    requires Equiv(a, b) && |Log(a)| > 0
    ensures Equiv(PopAction(a), PopAction(b))
  {
  }

  /** Undoing a literal-removal block does the same on equivalent states. */
  lemma {:induction false} UndoBlockCongruent(a: Expression, b: Expression, l: Literal)
    requires Equiv(a, b) && l in a.literalToClause
    ensures UndoBlock(a, l).Success? <==> UndoBlock(b, l).Success?
    ensures UndoBlock(a, l).Success? ==> Equiv(UndoBlock(a, l).value, UndoBlock(b, l).value)
    decreases |Log(a)|
  {
    if !Stacks.IsEmpty(a.actions) {
      var a1 := PopAction(a);
      var b1 := PopAction(b);
      PopCongruent(a, b);
      match Stacks.Peek(a.actions)
      case RemoveLiteralFromClause(c) =>
        if ReinsertOk(a1, l, c) {
          ReinsertLiteralCongruent(a1, b1, l, c);
          UndoBlockCongruent(ReinsertLiteral(a1, l, c), ReinsertLiteral(b1, l, c), l);
        } else {
          assert !ReinsertOk(b1, l, c) by {
            if ReinsertOk(b1, l, c) {
              EquivSymmetric(a1, b1);
              ReinsertLiteralCongruent(b1, a1, l, c);
            }
          }
        }
      case _ =>
    }
  }

  /** `restore_action_state` does the same on equivalent states. */
  lemma {:induction false} RestoreCongruent(a: Expression, b: Expression, state: ActionState)
    requires Equiv(a, b)
    ensures Corr(Restore(a, state), Restore(b, state))
    decreases |Log(a)|
  {
    if Stacks.Len(a.actions) > state {
      var a1 := PopAction(a);
      var b1 := PopAction(b);
      PopCongruent(a, b);
      match Stacks.Peek(a.actions)
      case RemoveClause(c) =>
        if EnableOk(a1, c) {
          EnableClauseCongruent(a1, b1, c);
          RestoreCongruent(EnableClause(a1, c), EnableClause(b1, c), state);
        } else {
          assert !EnableOk(b1, c) by {
            if EnableOk(b1, c) {
              EquivSymmetric(a1, b1);
              EnableClauseCongruent(b1, a1, c);
            }
          }
        }
      case RemoveLiteralFromClausesEnd(l) =>
        if l in a1.literalToClause {
          UndoBlockCongruent(a1, b1, l);
          if UndoBlock(a1, l).Success? {
            RestoreCongruent(UndoBlock(a1, l).value, UndoBlock(b1, l).value, state);
          }
        }
      case AssignVariable(v) =>
        RestoreCongruent(UnassignVariable(a1, v), UnassignVariable(b1, v), state);
      case _ =>
    }
  }

  /** Restoring to a saved length passes through the state that restoring
      to any larger saved length reaches exactly. */
  lemma {:induction false} RestoreSplit(x: Expression, m: ActionState, n: ActionState)
    requires Restore(x, m).Restored? && |Log(Restore(x, m).e)| == m && n <= m
    ensures Restore(x, n) == Restore(Restore(x, m).e, n)
    decreases |Log(x)|
  {
    if Stacks.Len(x.actions) > m {
      var x1 := PopAction(x);
      match Stacks.Peek(x.actions)
      case RemoveClause(c) =>
        RestoreSplit(EnableClause(x1, c), m, n);
      case RemoveLiteralFromClausesEnd(l) =>
        RestoreSplit(UndoBlock(x1, l).value, m, n);
      case AssignVariable(v) =>
        RestoreSplit(UnassignVariable(x1, v), m, n);
    }
  }

  /** The premises under which a logged literal removal is undone exactly:
      the literal was really in the clause, and the clause is indexed under it. */
  ghost predicate RealRemoval(x: Expression, n: Literal, c: ClauseId) {
    c < |x.clauses| && n in x.literalToClause && c in x.literalToClause[n] && n in x.clauses[c].literals
  }

  /** Putting a removed literal back at the end of its clause keeps the
      clause's literals as a multiset. */
  lemma ReinsertSameClauses(cs: seq<Clause>, n: Literal, c: ClauseId)
    requires c < |cs| && Contains(cs[c], n)
    ensures SameClauses(cs[c := Insert(Remove(cs[c], n), n)], cs)
  {
    RemoveInsertMultiset(cs[c], n);
    var ds := cs[c := Insert(Remove(cs[c], n), n)];
    forall i | 0 <= i < |ds|
      ensures multiset(ds[i].literals) == multiset(cs[i].literals)
    {
    }
  }

  lemma UndoOneRemovalOk(x: Expression, n: Literal, c: ClauseId)
    requires RealRemoval(x, n, c)
    ensures ReinsertOk(PopAction(RemoveLiteralStep(x, n, c)), n, c)
    ensures var p := PopAction(RemoveLiteralStep(x, n, c));
      && p.clauses == x.clauses[c := Remove(x.clauses[c], n)]
      && Len(p.clauses[c]) + 1 == Len(x.clauses[c])
      && p.numEmptyClauses == if Len(p.clauses[c]) == 0 then x.numEmptyClauses + 1 else x.numEmptyClauses
  {
    RemoveProperties(x.clauses[c], n);
  }

  lemma UndoOneRemovalClauses(x: Expression, n: Literal, c: ClauseId)
    requires RealRemoval(x, n, c)
    ensures ReinsertOk(PopAction(RemoveLiteralStep(x, n, c)), n, c)
    ensures var q := ReinsertLiteral(PopAction(RemoveLiteralStep(x, n, c)), n, c);
      q.numEmptyClauses == x.numEmptyClauses && SameClauses(q.clauses, x.clauses)
  {
    UndoOneRemovalOk(x, n, c);
    ReinsertSameClauses(x.clauses, n, c);
    var removed := Remove(x.clauses[c], n);
    UpdateTwice(x.clauses, c, removed, Insert(removed, n));
  }

  lemma UpdateTwice<T>(s: seq<T>, i: nat, a: T, b: T)
    requires i < |s|
    ensures s[i := a][i := b] == s[i := b]
  {
  }

  lemma UndoOneRemovalLog(x: Expression, n: Literal, c: ClauseId)
    requires RealRemoval(x, n, c)
    ensures ReinsertOk(PopAction(RemoveLiteralStep(x, n, c)), n, c)
    ensures ReinsertLiteral(PopAction(RemoveLiteralStep(x, n, c)), n, c).actions == x.actions
  {
    UndoOneRemovalClauses(x, n, c);
    var p := PopAction(RemoveLiteralStep(x, n, c));
    assert Log(p) == Log(x);
  }

  lemma UndoOneRemovalIndex(x: Expression, n: Literal, c: ClauseId)
    requires RealRemoval(x, n, c)
    ensures ReinsertOk(PopAction(RemoveLiteralStep(x, n, c)), n, c)
    ensures ReinsertLiteral(PopAction(RemoveLiteralStep(x, n, c)), n, c).literalToClause == x.literalToClause
  {
    UndoOneRemovalClauses(x, n, c);
    var p := PopAction(RemoveLiteralStep(x, n, c));
    assert p.literalToClause == x.literalToClause;
    RecordAgain(x.literalToClause, n, c);
  }

  lemma RecordAgain(m: map<Literal, set<ClauseId>>, n: Literal, c: ClauseId)
    requires n in m && c in m[n]
    ensures m[n := m[n] + {c}] == m
  {
    assert m[n] + {c} == m[n];
  }

  /** Undoing one real literal removal gives back an equivalent state. */
  lemma UndoOneRemoval(x: Expression, n: Literal, c: ClauseId)
    requires RealRemoval(x, n, c)
    ensures ReinsertOk(PopAction(RemoveLiteralStep(x, n, c)), n, c)
    ensures Equiv(ReinsertLiteral(PopAction(RemoveLiteralStep(x, n, c)), n, c), x)
  {
    UndoOneRemovalClauses(x, n, c);
    UndoOneRemovalLog(x, n, c);
    UndoOneRemovalIndex(x, n, c);
  }

  /** The premises under which a whole literal-removal loop is undone
      exactly: distinct clauses, each indexed under the literal and really
      holding it. */
  ghost predicate LoopPremises(w: Expression, n: Literal, o: seq<ClauseId>) {
    && n in w.literalToClause
    && (forall i, j | 0 <= i < j < |o| :: o[i] != o[j])
    && (forall i | 0 <= i < |o| :: RealRemoval(w, n, o[i]))
  }

  /** Undoing the block that `remove_literal_from_clauses` logged gives
      back the state before its start entry. */
  lemma {:induction false} UndoLoop(w: Expression, n: Literal, o: seq<ClauseId>)
    requires |Log(w)| > 0 && Stacks.Peek(w.actions) == RemoveLiteralFromClausesStart
    requires LoopPremises(w, n, o)
    ensures UndoBlock(RemoveLiteralLoop(w, n, o), n).Success?
    ensures Equiv(UndoBlock(RemoveLiteralLoop(w, n, o), n).value, PopAction(w))
    decreases |o|
  {
    if |o| > 0 {
      var o' := o[..|o| - 1];
      var c := o[|o| - 1];
      var r' := RemoveLiteralLoop(w, n, o');
      UndoLoop(w, n, o');
      assert c !in o';
      assert RealRemoval(r', n, c);
      UndoLastRemoval(r', n, c);
      UndoBlockCongruent(ReinsertLiteral(PopAction(RemoveLiteralStep(r', n, c)), n, c), r', n);
    }
  }

  /** The last step of `UndoLoop`: undoing the block after one more real
      removal is undoing it from the state that removal started from. */
  lemma UndoLastRemoval(x: Expression, n: Literal, c: ClauseId)
    requires RealRemoval(x, n, c)
    ensures ReinsertOk(PopAction(RemoveLiteralStep(x, n, c)), n, c)
    ensures var q := ReinsertLiteral(PopAction(RemoveLiteralStep(x, n, c)), n, c);
      UndoBlock(RemoveLiteralStep(x, n, c), n) == UndoBlock(q, n) && Equiv(q, x)
  {
    UndoOneRemoval(x, n, c);
    var r := RemoveLiteralStep(x, n, c);
    assert Stacks.Peek(r.actions) == RemoveLiteralFromClause(c);
    UndoBlockAtRemoval(r, n, c);
  }

  /** Re-enabling a clause right after removing it gives back an
      equivalent state: the clause is still recorded under its literals. */
  lemma EnableAfterRemove(y: Expression, c: ClauseId)
    requires ClausesIndexed(y) && c < |y.clauses|
    ensures EnableOk(PopAction(Expressions.RemoveClause(y, c)), c)
    ensures Equiv(EnableClause(PopAction(Expressions.RemoveClause(y, c)), c), y)
  {
    var p := PopAction(Expressions.RemoveClause(y, c));
    assert Log(p) == Log(y);
    var z := EnableClause(p, c);
    forall k
      ensures Entry(z.literalToClause, k) == Entry(y.literalToClause, k)
    {
      EnableClauseAt(p, c, k);
    }
    IndexExtensional(z.literalToClause, y.literalToClause);
  }

  /** Undoing the removals of `remove_clauses_with_literal` gives back an
      equivalent state. */
  lemma {:induction false} RemoveClausesUndo(y: Expression, o: seq<ClauseId>, state: ActionState)
    requires ClausesIndexed(y) && |Log(y)| >= state
    requires forall i | 0 <= i < |o| :: o[i] < |y.clauses|
    ensures Corr(Restore(RemoveClauses(y, o), state), Restore(y, state))
    decreases |o|
  {
    if |o| == 0 {
      RestoreCongruent(y, y, state);
    } else {
      var o' := o[..|o| - 1];
      var c := o[|o| - 1];
      var y' := RemoveClauses(y, o');
      var r := Expressions.RemoveClause(y', c);
      EnableAfterRemove(y', c);
      var z := EnableClause(PopAction(r), c);
      assert Stacks.Peek(r.actions) == Action.RemoveClause(c);
      assert Restore(r, state) == Restore(z, state);
      RestoreCongruent(z, y', state);
      RemoveClausesUndo(y, o', state);
      CorrTransitive(Restore(r, state), Restore(y', state), Restore(y, state));
    }
  }

  lemma BlockPremises(y: Expression, n: Literal, o: seq<ClauseId>)
    requires IndexInRange(y) && n in y.literalToClause && Enumerates(o, y.literalToClause[n])
    requires forall i | 0 <= i < |o| :: n in y.clauses[o[i]].literals
    ensures LoopPremises(y.(actions := Stacks.Push(y.actions, RemoveLiteralFromClausesStart)), n, o)
  {
  }

  /** Undoing the block that `remove_literal_from_clauses` logged gives back
      an equivalent state, when every clause indexed under the literal
      really holds it. */
  lemma BlockUndo(y: Expression, n: Literal, o: seq<ClauseId>, state: ActionState)
    requires IndexInRange(y) && n in y.literalToClause && Enumerates(o, y.literalToClause[n])
    requires forall i | 0 <= i < |o| :: n in y.clauses[o[i]].literals
    requires state <= |Log(y)|
    ensures Corr(Restore(RemoveLiteralFromClauses(y, n, o), state), Restore(y, state))
  {
    var w := y.(actions := Stacks.Push(y.actions, RemoveLiteralFromClausesStart));
    var x2 := RemoveLiteralLoop(w, n, o);
    var x3 := RemoveLiteralFromClauses(y, n, o);
    Stacks.PopAfterPush(x2.actions, RemoveLiteralFromClausesEnd(n));
    assert PopAction(x3) == x2;
    Stacks.PopAfterPush(y.actions, RemoveLiteralFromClausesStart);
    assert PopAction(w) == y;
    BlockPremises(y, n, o);
    UndoLoop(w, n, o);
    var u := UndoBlock(x2, n).value;
    RestoreAtBlockEnd(x3, n, state);
    RestoreCongruent(u, y, state);
  }

  lemma UpdateRemove(m: map<Variable, bool>, v: Variable, b: bool)
    requires v !in m
    ensures m[v := b] - {v} == m
  {
  }

  /** Undoing the record of an assignment of an unassigned variable gives
      back exactly the state before it. */
  lemma RecordUndo(x: Expression, v: Variable, value: bool)
    requires v !in x.assignments
    ensures Restore(RecordAssignment(x, v, value), |Log(x)|) == Restored(x)
  {
    var x1 := RecordAssignment(x, v, value);
    Stacks.PopAfterPush(x.actions, Action.AssignVariable(v));
    UpdateRemove(x.assignments, v, value);
    assert UnassignVariable(PopAction(x1), v) == x;
    RestoreAtAssign(x1, v, |Log(x)|);
  }

  /** The literal-removal part of an assignment is undone exactly: under
      the invariant, the falsified literal of an unassigned variable is
      still in every clause indexed under it. */
  lemma FalsifiedUndo(x: Expression, v: Variable, value: bool, o1: seq<ClauseId>, o2: seq<ClauseId>, state: ActionState)
    requires Wf(x) && Inv(x) && v !in x.assignments && AssignOrders(x, v, value, o1, o2)
    requires state <= |Log(x)|
    ensures var x2 := RemoveClausesWithLiteral(RecordAssignment(x, v, value), LiteralOf(v, value), o1);
      Corr(Restore(RemoveLiteralFromClauses(x2, Negate(LiteralOf(v, value)), o2), state), Restore(x2, state))
  {
    var lit := LiteralOf(v, value);
    var n := Negate(lit);
    var x1 := RecordAssignment(x, v, value);
    var x2 := RemoveClausesWithLiteral(x1, lit, o1);
    assert x2.clauses == x.clauses && x2.literalToClause == x.literalToClause;
    if n in x.literalToClause {
      forall i | 0 <= i < |o2|
        ensures n in x2.clauses[o2[i]].literals
      {
        assert o2[i] in x.literalToClause[n];
      }
      BlockUndo(x2, n, o2, state);
    } else {
      RestoreCongruent(x2, x2, state);
    }
  }

  /** Backtracking over one assignment of an unassigned variable: restoring
      to the log length before `assign_variable` gives back an equivalent
      state. */
  lemma AssignUndo(x: Expression, v: Variable, value: bool, o1: seq<ClauseId>, o2: seq<ClauseId>)
    requires Wf(x) && Inv(x) && v !in x.assignments && AssignOrders(x, v, value, o1, o2)
    ensures Restore(Expressions.AssignVariable(x, v, value, o1, o2), |Log(x)|).Restored?
    ensures Equiv(Restore(Expressions.AssignVariable(x, v, value, o1, o2), |Log(x)|).e, x)
  {
    var state := |Log(x)|;
    var lit := LiteralOf(v, value);
    var x1 := RecordAssignment(x, v, value);
    var x2 := RemoveClausesWithLiteral(x1, lit, o1);
    var x3 := RemoveLiteralFromClauses(x2, Negate(lit), o2);
    var x4 := Expressions.AssignVariable(x, v, value, o1, o2);
    assert Equiv(x4, x3);
    RestoreCongruent(x4, x3, state);
    FalsifiedUndo(x, v, value, o1, o2, state);
    if lit in x.literalToClause {
      RemoveClausesUndo(x1, o1, state);
    } else {
      RestoreCongruent(x1, x1, state);
    }
    RecordUndo(x, v, value);
    CorrTransitive(Restore(x4, state), Restore(x3, state), Restore(x2, state));
    CorrTransitive(Restore(x4, state), Restore(x2, state), Restore(x1, state));
  }

  /** Undoing a block that removed `n` from the single clause `c`: the
      literal is appended to the clause again and the log is cut back to
      the block's `Start` entry. Nothing checks that `n` was really there. */
  lemma UndoSingleBlock(p: Expression, n: Literal, c: ClauseId, log: seq<Action>)
    requires Log(p) == log + [RemoveLiteralFromClausesStart, RemoveLiteralFromClause(c)]
    requires n in p.literalToClause && c < |p.clauses|
    requires Len(p.clauses[c]) == 0 ==> p.numEmptyClauses > 0
    ensures UndoBlock(p, n).Success?
    ensures var y := UndoBlock(p, n).value;
      && Log(y) == log && y.assignments == p.assignments
      && y.clauses == p.clauses[c := Insert(p.clauses[c], n)]
      && y.literalToClause == p.literalToClause[n := p.literalToClause[n] + {c}]
  {
    assert Stacks.Peek(p.actions) == RemoveLiteralFromClause(c);
    UndoBlockAtRemoval(p, n, c);
    var q := ReinsertLiteral(PopAction(p), n, c);
    assert Log(q) == log + [RemoveLiteralFromClausesStart];
    assert Stacks.Peek(q.actions) == RemoveLiteralFromClausesStart;
  }

  /** Restoring over one assignment whose true literal is recorded under
      the single clause `d` and whose false literal under the single clause
      `c`. Nothing here asks the variable to be unassigned or the false
      literal to be in `c`: the restore still completes, it drops the
      variable from the assignments whatever value it had before, and it
      appends the false literal to `c` whether or not the assignment had
      removed it. */
  lemma ReassignUndo(e: Expression, v: Variable, value: bool, d: ClauseId, c: ClauseId)
    requires Wf(e)
    requires LiteralOf(v, value) in e.literalToClause && e.literalToClause[LiteralOf(v, value)] == {d}
    requires Negate(LiteralOf(v, value)) in e.literalToClause && e.literalToClause[Negate(LiteralOf(v, value))] == {c}
    ensures AssignOrders(e, v, value, [d], [c])
    ensures var r := Restore(Expressions.AssignVariable(e, v, value, [d], [c]), |Log(e)|);
      var nl := Negate(LiteralOf(v, value));
      && r.Restored?
      && r.e.assignments == e.assignments - {v}
      && r.e.clauses == e.clauses[c := Insert(Remove(e.clauses[c], nl), nl)]
      && Log(r.e) == Log(e) && r.e.literalToClause.Keys == e.literalToClause.Keys
  {
    var nl := Negate(LiteralOf(v, value));
    assert AssignOrders(e, v, value, [d], [c]);
    ReassignBlock(e, v, value, d, c);
    var y := UndoBlock(PopAction(Expressions.AssignVariable(e, v, value, [d], [c])), nl).value;
    ReassignEnableOk(e, LiteralOf(v, value), nl, d, c, y);
    RestoreRemoveAssign(y, v, d, Log(e));
    UpdateThenRemove(e.assignments, v, value);
  }

  lemma UpdateThenRemove(m: map<Variable, bool>, v: Variable, b: bool)
    ensures m[v := b] - {v} == m - {v}
  {
  }

  /** The first step of `ReassignUndo`: the literal-removal block is undone. */
  lemma ReassignBlock(e: Expression, v: Variable, value: bool, d: ClauseId, c: ClauseId)
    requires Wf(e)
    requires LiteralOf(v, value) in e.literalToClause && e.literalToClause[LiteralOf(v, value)] == {d}
    requires Negate(LiteralOf(v, value)) in e.literalToClause && e.literalToClause[Negate(LiteralOf(v, value))] == {c}
    requires AssignOrders(e, v, value, [d], [c])
    ensures var x := Expressions.AssignVariable(e, v, value, [d], [c]);
      var nl := Negate(LiteralOf(v, value));
      && |Log(x)| > |Log(e)| && nl in PopAction(x).literalToClause
      && UndoBlock(PopAction(x), nl).Success?
      && Restore(x, |Log(e)|) == Restore(UndoBlock(PopAction(x), nl).value, |Log(e)|)
      && var y := UndoBlock(PopAction(x), nl).value;
        && Log(y) == Log(e) + [Action.AssignVariable(v), Action.RemoveClause(d)]
        && y.assignments == e.assignments[v := value]
        && y.clauses == e.clauses[c := Insert(Remove(e.clauses[c], nl), nl)]
        && y.literalToClause == e.literalToClause
  {
    var nl := Negate(LiteralOf(v, value));
    var x := Expressions.AssignVariable(e, v, value, [d], [c]);
    ReassignLog(e, v, value, d, c);
    ReassignClauses(e, v, value, d, c);
    UndoBlockAtEnd(x, nl, c, Log(e) + [Action.AssignVariable(v), Action.RemoveClause(d)], |Log(e)|);
    RecordAgain(e.literalToClause, nl, c);
    UpdateTwice(e.clauses, c, Remove(e.clauses[c], nl), Insert(Remove(e.clauses[c], nl), nl));
  }

  /** Undoing a literal-removal block over the one clause `c` on top of the
      log puts the literal back into that clause. */
  lemma UndoBlockAtEnd(x: Expression, n: Literal, c: ClauseId, pre: seq<Action>, state: ActionState)
    requires Log(x) == pre + [RemoveLiteralFromClausesStart, RemoveLiteralFromClause(c), RemoveLiteralFromClausesEnd(n)]
    requires state <= |pre|
    requires n in x.literalToClause && c < |x.clauses|
    requires Len(x.clauses[c]) == 0 ==> x.numEmptyClauses > 0
    ensures |Log(x)| > state && n in PopAction(x).literalToClause
    ensures UndoBlock(PopAction(x), n).Success?
    ensures Restore(x, state) == Restore(UndoBlock(PopAction(x), n).value, state)
    ensures var y := UndoBlock(PopAction(x), n).value;
      && Log(y) == pre && y.assignments == x.assignments
      && y.clauses == x.clauses[c := Insert(x.clauses[c], n)]
      && y.literalToClause == x.literalToClause[n := x.literalToClause[n] + {c}]
  {
    var p := PopAction(x);
    assert Stacks.Peek(x.actions) == RemoveLiteralFromClausesEnd(n);
    assert Log(p) == pre + [RemoveLiteralFromClausesStart, RemoveLiteralFromClause(c)];
    UndoSingleBlock(p, n, c, pre);
    RestoreAtBlockEnd(x, n, state);
  }

  /** The last two steps of `ReassignUndo`: the clause removal and the
      assignment are undone. */
  lemma RestoreRemoveAssign(y: Expression, v: Variable, d: ClauseId, log: seq<Action>)
    requires Log(y) == log + [Action.AssignVariable(v), Action.RemoveClause(d)]
    requires EnableOk(PopAction(y), d)
    ensures var r := Restore(y, |log|);
      && r.Restored? && r.e.assignments == y.assignments - {v} && r.e.clauses == y.clauses
      && Log(r.e) == log && r.e.literalToClause.Keys == y.literalToClause.Keys
  {
    assert Stacks.Peek(y.actions) == Action.RemoveClause(d);
    RestoreAtRemove(y, d, |log|);
    var z := EnableClause(PopAction(y), d);
    assert Log(z) == log + [Action.AssignVariable(v)];
    assert Stacks.Peek(z.actions) == Action.AssignVariable(v);
    RestoreAtAssign(z, v, |log|);
  }

  /** The log of the single-clause assignment of `ReassignUndo`. */
  lemma ReassignLog(e: Expression, v: Variable, value: bool, d: ClauseId, c: ClauseId)
    requires Wf(e)
    requires LiteralOf(v, value) in e.literalToClause && e.literalToClause[LiteralOf(v, value)] == {d}
    requires Negate(LiteralOf(v, value)) in e.literalToClause && e.literalToClause[Negate(LiteralOf(v, value))] == {c}
    requires AssignOrders(e, v, value, [d], [c])
    ensures Log(Expressions.AssignVariable(e, v, value, [d], [c]))
      == Log(e) + [Action.AssignVariable(v), Action.RemoveClause(d), RemoveLiteralFromClausesStart,
                   RemoveLiteralFromClause(c), RemoveLiteralFromClausesEnd(Negate(LiteralOf(v, value)))]
  {
    AssignVariableLog(e, v, value, [d], [c]);
    SingleEntries(Log(e), v, d, Negate(LiteralOf(v, value)), c);
  }

  /** The entries of an assignment over the single clauses `d` and `c`. */
  lemma SingleEntries(log: seq<Action>, v: Variable, d: ClauseId, nl: Literal, c: ClauseId)
    ensures log + [Action.AssignVariable(v)] + RemoveClauseEntries([d]) + BlockEntries(nl, [c])
      == log + [Action.AssignVariable(v), Action.RemoveClause(d), RemoveLiteralFromClausesStart,
                RemoveLiteralFromClause(c), RemoveLiteralFromClausesEnd(nl)]
  {
    var a := RemoveClauseEntries([d]);
    assert a == [Action.RemoveClause(d)];
    var b := BlockEntries(nl, [c]);
    assert b[1..2] == RemoveLiteralEntries([c]);
    assert b == [RemoveLiteralFromClausesStart, RemoveLiteralFromClause(c), RemoveLiteralFromClausesEnd(nl)];
  }

  /** The clauses and the empty counter after the single-clause assignment
      of `ReassignUndo`. */
  lemma ReassignClauses(e: Expression, v: Variable, value: bool, d: ClauseId, c: ClauseId)
    requires Wf(e)
    requires Negate(LiteralOf(v, value)) in e.literalToClause && e.literalToClause[Negate(LiteralOf(v, value))] == {c}
    requires AssignOrders(e, v, value, [d], [c])
    ensures var nl := Negate(LiteralOf(v, value));
      var x := Expressions.AssignVariable(e, v, value, [d], [c]);
      && c < |e.clauses|
      && x.clauses == e.clauses[c := Remove(e.clauses[c], nl)]
      && (Len(x.clauses[c]) == 0 ==> x.numEmptyClauses > 0)
      && x.assignments == e.assignments[v := value] && x.literalToClause == e.literalToClause
  {
    var nl := Negate(LiteralOf(v, value));
    var x := Expressions.AssignVariable(e, v, value, [d], [c]);
    AssignVariableClauses(e, v, value, [d], [c]);
    assert [c][..0] == [];
    assert x.clauses == e.clauses[c := Remove(e.clauses[c], nl)];
  }

  /** The clause `d` can be enabled again once the block is undone: every
      literal of it, including the appended one, is indexed. */
  lemma ReassignEnableOk(e: Expression, lit: Literal, nl: Literal, d: ClauseId, c: ClauseId, y: Expression)
    requires Wf(e) && nl in e.literalToClause && c < |e.clauses|
    requires lit in e.literalToClause && d in e.literalToClause[lit]
    requires |Log(y)| > 0
    requires y.clauses == e.clauses[c := Insert(Remove(e.clauses[c], nl), nl)]
    requires y.literalToClause == e.literalToClause
    ensures EnableOk(PopAction(y), d)
  {
    assert d < |e.clauses|;
    forall k | k in y.clauses[d].literals
      ensures k in e.literalToClause
    {
      if d == c && k != nl {
        InsertMember(Remove(e.clauses[c], nl), nl, k);
        RemoveMembership(e.clauses[c], nl, k);
      }
    }
  }

  /** A literal of a clause after appending `l` is `l` or was there before. */
  lemma InsertMember(c: Clause, l: Literal, k: Literal)
    requires k in Insert(c, l).literals && k != l
    ensures Contains(c, k)
  {
    assert k in multiset(Insert(c, l).literals);
  }

  /** Restoring over a logged assignment that removed the single clause `d`
      and the false literal `n` from the single clause `c`: the literal is
      appended to `c` again, the variable is dropped from the assignments,
      and the log is cut back. */
  lemma SingleClauseAssignUndo(y: Expression, v: Variable, d: ClauseId, n: Literal, c: ClauseId, log: seq<Action>)
    requires Log(y) == log + [Action.AssignVariable(v), Action.RemoveClause(d), RemoveLiteralFromClausesStart,
                              RemoveLiteralFromClause(c), RemoveLiteralFromClausesEnd(n)]
    requires n in y.literalToClause && c < |y.clauses| && d < |y.clauses| && d != c
    requires Len(y.clauses[c]) == 0 ==> y.numEmptyClauses > 0
    requires forall l | l in y.clauses[d].literals :: l in y.literalToClause
    ensures var r := Restore(y, |log|);
      && r.Restored? && r.e.assignments == y.assignments - {v}
      && r.e.clauses == y.clauses[c := Insert(y.clauses[c], n)] && Log(r.e) == log
  {
    var p := PopAction(y);
    assert Log(p) == log + [Action.AssignVariable(v), Action.RemoveClause(d), RemoveLiteralFromClausesStart,
                            RemoveLiteralFromClause(c)];
    UndoSingleBlock(p, n, c, log + [Action.AssignVariable(v), Action.RemoveClause(d)]);
    var z := UndoBlock(p, n).value;
    assert Stacks.Peek(y.actions) == RemoveLiteralFromClausesEnd(n);
    RestoreAtBlockEnd(y, n, |log|);
    assert z.clauses[d] == y.clauses[d];
    RestoreRemoveAssign(z, v, d, log);
  }

  /** The log before `assign_variable` is an initial part of the log after. */
  lemma AssignVariablePrefix(e: Expression, v: Variable, value: bool, o1: seq<ClauseId>, o2: seq<ClauseId>)
    requires Wf(e) && AssignOrders(e, v, value, o1, o2)
    ensures IsPrefix(Log(e), Log(Expressions.AssignVariable(e, v, value, o1, o2)))
  {
    AssignVariableLog(e, v, value, o1, o2);
  }

  /** One assignment the search makes: the variable, its value, and the
      iteration orders of the two index entries it visits. */
  datatype Step = Step(variable: Variable, value: bool, o1: seq<ClauseId>, o2: seq<ClauseId>)

  /** The step assigns a variable that is still unassigned, visiting the
      index entries in orders that enumerate them. */
  predicate StepOk(e: Expression, s: Step) {
    s.variable !in e.assignments && AssignOrders(e, s.variable, s.value, s.o1, s.o2)
  }

  /** A run of the search without backtracking: the steps in order, or
      `None` once a step assigns an assigned variable. */
  function Run(x: Expression, steps: seq<Step>): (r: Option<Expression>)
    requires Wf(x)
    ensures r.Some? ==> Wf(r.value) && IsPrefix(Log(x), Log(r.value))
    decreases |steps|
  {
    if |steps| == 0 then Some(x)
    else
      var p := Run(x, steps[..|steps| - 1]);
      var s := steps[|steps| - 1];
      if p.None? || !StepOk(p.value, s) then None
      else
        AssignVariableWf(p.value, s.variable, s.value, s.o1, s.o2);
        AssignVariablePrefix(p.value, s.variable, s.value, s.o1, s.o2);
        PrefixTransitive(Log(x), Log(p.value), Log(Expressions.AssignVariable(p.value, s.variable, s.value, s.o1, s.o2)));
        Some(Expressions.AssignVariable(p.value, s.variable, s.value, s.o1, s.o2))
  }

  /** Every state of a run keeps the literal-occurrence invariant. */
  lemma {:induction false} RunInv(x: Expression, steps: seq<Step>)
    requires Wf(x) && Inv(x) && Run(x, steps).Some?
    ensures Inv(Run(x, steps).value)
    decreases |steps|
  {
    if |steps| > 0 {
      var p := Run(x, steps[..|steps| - 1]);
      var s := steps[|steps| - 1];
      RunInv(x, steps[..|steps| - 1]);
      AssignVariableInv(p.value, s.variable, s.value, s.o1, s.o2);
    }
  }

  /** Backtracking is faithful: after any run of assignments of unassigned
      variables, restoring to the log length saved before the run gives
      back the assignments, the counters, the index and every clause's
      literals. */
  lemma {:induction false} RunRestores(x: Expression, steps: seq<Step>)
    requires Wf(x) && Inv(x) && Run(x, steps).Some?
    ensures Restore(Run(x, steps).value, |Log(x)|).Restored?
    ensures Equiv(Restore(Run(x, steps).value, |Log(x)|).e, x)
    decreases |steps|
  {
    var state := |Log(x)|;
    if |steps| > 0 {
      var y := Run(x, steps[..|steps| - 1]).value;
      var s := steps[|steps| - 1];
      var z := Run(x, steps).value;
      RunRestores(x, steps[..|steps| - 1]);
      RunInv(x, steps[..|steps| - 1]);
      AssignUndo(y, s.variable, s.value, s.o1, s.o2);
      var y' := Restore(z, |Log(y)|).e;
      RestoreSplit(z, |Log(y)|, state);
      RestoreCongruent(y', y, state);
      CorrTransitive(Restore(z, state), Restore(y, state), Restored(x));
    }
  }
}

=== FILE: cnf.dfy ===
/** Literals, variables, clauses and the undo-log alphabet of the solver. */
module Cnf {

  /** A literal is a signed variable number; positive asserts the variable,
      negative asserts its negation. The source stores it as an `i16`. */
  type Literal = int
  /** A variable is the magnitude of a literal (`u16` in the source). */
  type Variable = nat
  /** The position of a clause in the expression's clause vector. */
  type ClauseId = nat
  /** A saved length of the undo log. */
  type ActionState = nat

  const I16_MIN: int := -32768
  const I16_MAX: int := 32767

  predicate InI16(x: int) {
    I16_MIN <= x <= I16_MAX
  }

  /** One entry of the undo log. A literal removal is logged as a block
      `RemoveLiteralFromClausesStart, RemoveLiteralFromClause(c)*,
      RemoveLiteralFromClausesEnd(l)`. */
  datatype Action =
    | RemoveClause(clauseId: ClauseId)
    | RemoveLiteralFromClausesStart
    | RemoveLiteralFromClause(clauseId: ClauseId)
    | RemoveLiteralFromClausesEnd(literal: Literal)
    | AssignVariable(variable: Variable)

  /** A clause is the disjunction of its literals, kept in a vector. */
  datatype Clause = Clause(literals: seq<Literal>)

  predicate NoDuplicates(s: seq<Literal>) {
    forall i, j | 0 <= i < j < |s| :: s[i] != s[j]
  }

  function NewClause(): (c: Clause)
    ensures Len(c) == 0 && IsEmpty(c)
  {
    Clause([])
  }

  function Len(c: Clause): nat {
    |c.literals|
  }

  function Contains(c: Clause, l: Literal): bool {
    l in c.literals
  }

  /** `len` counts every stored literal, repeats included, and is zero
      exactly when the clause holds no literal at all. */
  lemma LenCounts(c: Clause)
    ensures Len(c) == |multiset(c.literals)|
    ensures Len(c) == 0 <==> forall k :: !Contains(c, k)
  {
    if Len(c) > 0 {
      assert Contains(c, c.literals[0]);
    }
  }

  /** `contains` is true exactly when some position of the clause holds
      the literal. */
  lemma ContainsAt(c: Clause, l: Literal)
    ensures Contains(c, l) <==> exists i :: 0 <= i < Len(c) && Get(c, i) == l
  {
    if Contains(c, l) {
      var i :| 0 <= i < |c.literals| && c.literals[i] == l;
      assert Get(c, i) == l;
    }
  }

  /** Appends `l` only when the clause does not hold it yet. */
  function InsertChecked(c: Clause, l: Literal): (r: Clause)
    ensures Contains(r, l)
    ensures Contains(c, l) ==> r == c
    ensures !Contains(c, l) ==> Len(r) == Len(c) + 1 && r.literals[..Len(c)] == c.literals
    ensures NoDuplicates(c.literals) ==> NoDuplicates(r.literals)
    ensures forall k :: Contains(r, k) <==> Contains(c, k) || k == l
  {
    if l in c.literals then c else Clause(c.literals + [l])
  }

  /** Appends `l` unconditionally. */
  function Insert(c: Clause, l: Literal): (r: Clause)
    ensures Len(r) == Len(c) + 1
    ensures r.literals[..Len(c)] == c.literals && r.literals[Len(c)] == l
    ensures multiset(r.literals) == multiset(c.literals) + multiset{l}
  {
    Clause(c.literals + [l])
  }

  function IsEmpty(c: Clause): (b: bool)
    ensures b <==> Len(c) == 0
  {
    |c.literals| == 0
  }

  function Get(c: Clause, i: nat): (l: Literal)
    requires i < Len(c)
    ensures Contains(c, l)
  {
    c.literals[i]
  }

  /** The index of the first occurrence of `l` in `s`, or `|s|`. */
  function FirstIndex(s: seq<Literal>, l: Literal): (i: nat)
    ensures i <= |s|
    ensures i < |s| <==> l in s
    ensures i < |s| ==> s[i] == l
    ensures l !in s[..i]
  {
    if |s| == 0 then 0
    else if s[0] == l then 0
    else
      assert s[1..][..FirstIndex(s[1..], l)] == s[1..FirstIndex(s[1..], l) + 1];
      1 + FirstIndex(s[1..], l)
  }

  /** Rust's `Vec::swap_remove`: the last element takes the place of the
      removed one. */
  function SwapRemove(s: seq<Literal>, i: nat): (r: seq<Literal>)
    requires i < |s|
    ensures |r| == |s| - 1
    ensures r[..i] == s[..i]
    ensures i < |s| - 1 ==> r[i] == s[|s| - 1] && r[i + 1..] == s[i + 1..|s| - 1]
    ensures multiset(r) == multiset(s) - multiset{s[i]}
  {
    if i == |s| - 1 then
      assert s == s[..i] + [s[i]];
      s[..i]
    else
      var r := s[..i] + [s[|s| - 1]] + s[i + 1..|s| - 1];
      assert s == s[..i] + [s[i]] + s[i + 1..|s| - 1] + [s[|s| - 1]];
      r
  }

  /** Scans from index `i` for `l` and swap-removes the first hit. */
  function RemoveFrom(s: seq<Literal>, l: Literal, i: nat): (r: seq<Literal>)
    requires i <= |s|
    decreases |s| - i
  {
    if i == |s| then s
    else if s[i] == l then SwapRemove(s, i)
    else RemoveFrom(s, l, i + 1)
  }

  /** Removes the first occurrence of `l`, if any, by `swap_remove`. */
  function Remove(c: Clause, l: Literal): (r: Clause)
    ensures !Contains(c, l) ==> r == c
    ensures Contains(c, l) ==> r.literals == SwapRemove(c.literals, FirstIndex(c.literals, l))
  {
    RemoveFromFirst(c.literals, l, 0);
    Clause(RemoveFrom(c.literals, l, 0))
  }

  lemma {:induction false} RemoveFromFirst(s: seq<Literal>, l: Literal, i: nat)
    requires i <= |s|
    requires l !in s[..i]
    ensures l !in s ==> RemoveFrom(s, l, i) == s
    ensures l in s ==> RemoveFrom(s, l, i) == SwapRemove(s, FirstIndex(s, l))
    decreases |s| - i
  {
    if i == |s| {
      assert s[..i] == s;
    } else if s[i] == l {
      assert FirstIndex(s, l) == i;
    } else {
      assert s[..i + 1] == s[..i] + [s[i]];
      RemoveFromFirst(s, l, i + 1);
    }
  }

  /** What `Remove` promises a caller: one fewer literal, the other
      literals kept (as a multiset), and an absent literal changes nothing. */
  lemma RemoveProperties(c: Clause, l: Literal)
    ensures !Contains(c, l) ==> Remove(c, l) == c
    ensures Contains(c, l) ==> Len(Remove(c, l)) == Len(c) - 1
    ensures Contains(c, l) ==> multiset(Remove(c, l).literals) == multiset(c.literals) - multiset{l}
  {
  }

  /** `Remove` deletes no literal other than `l` and adds none. */
  lemma RemoveMembership(c: Clause, l: Literal, k: Literal)
    ensures Contains(Remove(c, l), k) ==> Contains(c, k)
    ensures k != l && Contains(c, k) ==> Contains(Remove(c, l), k)
  {
    RemoveProperties(c, l);
    assert Contains(Remove(c, l), k) <==> multiset(Remove(c, l).literals)[k] > 0;
    assert Contains(c, k) <==> multiset(c.literals)[k] > 0;
  }

  /** Removing then re-appending a present literal restores the clause's
      multiset of literals (not its order). */
  lemma RemoveInsertMultiset(c: Clause, l: Literal)
    requires Contains(c, l)
    ensures multiset(Insert(Remove(c, l), l).literals) == multiset(c.literals)
    ensures Len(Insert(Remove(c, l), l)) == Len(c)
  {
    RemoveProperties(c, l);
  }

  /** `unsigned_abs`: the variable a literal refers to. */
  function ToVariable(l: Literal): (v: Variable)
    ensures v == l || v == -l
  {
    if l < 0 then -l else l
  }

  function Negate(l: Literal): (r: Literal)
    ensures ToVariable(r) == ToVariable(l)
    ensures r != l <==> l != 0
  {
    -l
  }

  /** `to_positive` is the magnitude, as a literal. */
  function ToPositive(l: Literal): (r: Literal)
    ensures r >= 0
    ensures r == ToVariable(l)
  {
    if l > 0 then l else -l
  }

  lemma NegateInvolution(l: Literal)
    ensures Negate(Negate(l)) == l
  {
  }

  /** Negation stays within `i16` except at `i16::MIN`, where the source
      overflows. */
  lemma NegateI16(l: Literal)
    requires InI16(l)
    ensures l != I16_MIN <==> InI16(Negate(l))
  {
  }

  /** A total or partial truth assignment to variables. */
  type Assignment = map<Variable, bool>

  /** `l` is made true by `a`: its variable is assigned, to true exactly
      when `l` is positive. */
  predicate LiteralTrue(a: Assignment, l: Literal) {
    ToVariable(l) in a && a[ToVariable(l)] == (l > 0)
  }

  /** Some literal of the clause is made true. */
  predicate SatisfiesClause(a: Assignment, c: Clause) {
    exists l :: l in c.literals && LiteralTrue(a, l)
  }

  /** Every clause is satisfied. */
  predicate Satisfies(a: Assignment, cs: seq<Clause>) {
    forall i | 0 <= i < |cs| :: SatisfiesClause(a, cs[i])
  }
}

=== FILE: dimacs_parser.dfy ===
/** The line rules of `parse_dimacs` over lines already read from a file:
    comment and problem lines are skipped, and every other line is one
    clause made of its whitespace-separated integers up to the first zero. */
module DimacsParser {
  import opened Wrappers
  import opened Cnf
  import opened Expressions

  /* ---------- Splitting on whitespace ---------- */

  /** The Unicode `White_Space` characters, which `split_whitespace`
      separates on. */
  predicate IsWhitespace(ch: char) {
    || ('\t' <= ch <= '\r') || ch == ' ' || ch == '\U{85}' || ch == '\U{A0}' || ch == '\U{1680}'
    || ('\U{2000}' <= ch <= '\U{200A}') || ch == '\U{2028}' || ch == '\U{2029}'
    || ch == '\U{202F}' || ch == '\U{205F}' || ch == '\U{3000}'
  }

  predicate NoWhitespace(s: string) {
    forall i | 0 <= i < |s| :: !IsWhitespace(s[i])
  }

  /** A token of `split_whitespace`: non-empty, without whitespace. */
  predicate IsWord(t: string) {
    |t| > 0 && NoWhitespace(t)
  }

  predicate AllWords(ts: seq<string>) {
    forall i | 0 <= i < |ts| :: IsWord(ts[i])
  }

  /** The tokens of `s`, given that the token being scanned so far is `cur`. */
  function SplitFrom(s: string, cur: string): (ts: seq<string>)
    requires NoWhitespace(cur)
    ensures AllWords(ts)
    decreases |s|
  {
    if |s| == 0 then (if cur == [] then [] else [cur])
    else if IsWhitespace(s[0]) then (if cur == [] then [] else [cur]) + SplitFrom(s[1..], [])
    else SplitFrom(s[1..], cur + [s[0]])
  }

  /** `split_whitespace`: the maximal runs of non-whitespace characters. */
  function Tokens(line: string): (ts: seq<string>)
    ensures AllWords(ts)
  {
    SplitFrom(line, [])
  }

  /** The tokens joined with single spaces. */
  function Join(ts: seq<string>): string
    decreases |ts|
  {
    if |ts| == 0 then []
    else if |ts| == 1 then ts[0]
    else ts[0] + " " + Join(ts[1..])
  }

  /** A whitespace character splits the scan into two independent scans. */
  lemma {:induction false} SplitSeparated(a: string, w: char, b: string, cur: string)
    requires NoWhitespace(cur) && IsWhitespace(w)
    ensures SplitFrom(a + [w] + b, cur) == SplitFrom(a, cur) + SplitFrom(b, [])
    decreases |a|
  {
    var s := a + [w] + b;
    if |a| == 0 {
      assert s[1..] == b;
    } else {
      assert s[1..] == a[1..] + [w] + b;
      if IsWhitespace(a[0]) {
        SplitSeparated(a[1..], w, b, []);
      } else {
        SplitSeparated(a[1..], w, b, cur + [a[0]]);
      }
    }
  }

  /** A run without whitespace continues the current token. */
  lemma {:induction false} SplitWord(t: string, cur: string)
    requires NoWhitespace(cur) && NoWhitespace(t) && |cur + t| > 0
    ensures SplitFrom(t, cur) == [cur + t]
    decreases |t|
  {
    if |t| == 0 {
      assert cur + t == cur;
    } else {
      assert !IsWhitespace(t[0]);
      assert cur + [t[0]] + t[1..] == cur + t;
      SplitWord(t[1..], cur + [t[0]]);
    }
  }

  /** Splitting undoes joining with single spaces. */
  lemma {:induction false} TokensJoin(ts: seq<string>)
    requires AllWords(ts)
    ensures Tokens(Join(ts)) == ts
    decreases |ts|
  {
    if |ts| == 1 {
      SplitWord(ts[0], []);
      assert [] + ts[0] == ts[0];
    } else if |ts| > 1 {
      SplitSeparated(ts[0], ' ', Join(ts[1..]), []);
      SplitWord(ts[0], []);
      assert [] + ts[0] == ts[0];
      TokensJoin(ts[1..]);
      assert ts == [ts[0]] + ts[1..];
    }
  }

  /* ---------- Parsing an `i16` ---------- */

  predicate IsDigit(ch: char) {
    '0' <= ch <= '9'
  }

  predicate AllDigits(s: string) {
    forall i | 0 <= i < |s| :: IsDigit(s[i])
  }

  /** The value of a string of decimal digits, most significant first. */
  function DigitsValue(ds: string): nat
    requires AllDigits(ds)
    decreases |ds|
  {
    if |ds| == 0 then 0
    else DigitsValue(ds[..|ds| - 1]) * 10 + ((ds[|ds| - 1] as int) - ('0' as int))
  }

  /** `str::parse::<i16>`: an optional `+` or `-`, then at least one decimal
      digit, with a value in the `i16` range; `unwrap` panics otherwise. */
  function ParseLiteral(tok: string): (r: Result<Literal>)
    ensures r.Success? ==> InI16(r.value)
    ensures r.Success? ==> |tok| > 0 && AllDigits(if tok[0] == '+' || tok[0] == '-' then tok[1..] else tok)
    ensures |tok| == 0 ==> r.Failure?
  {
    if |tok| == 0 then Failure("cannot parse integer from empty string")
    else
      var negative := tok[0] == '-';
      var digits := if tok[0] == '+' || tok[0] == '-' then tok[1..] else tok;
      if |digits| == 0 || !AllDigits(digits) then Failure("invalid digit found in string")
      else
        var magnitude: int := DigitsValue(digits);
        var v := if negative then -magnitude else magnitude;
        if v < I16_MIN then Failure("number too small to fit in target type")
        else if v > I16_MAX then Failure("number too large to fit in target type")
        else Success(v)
  }

  /** The decimal digits of `n`, without leading zeros. */
  function Decimal(n: nat): (s: string)
    ensures |s| > 0 && AllDigits(s)
    decreases n
  {
    if n < 10 then [('0' as int + n) as char]
    else Decimal(n / 10) + [('0' as int + n % 10) as char]
  }

  /** How a literal is written in a DIMACS file. */
  function LiteralText(l: Literal): (s: string)
    ensures IsWord(s)
    ensures s[0] == '-' || IsDigit(s[0])
  {
    var d := Decimal(if l < 0 then -l else l);
    assert NoWhitespace(d) by {
      forall i | 0 <= i < |d|
        ensures !IsWhitespace(d[i])
      {
        assert IsDigit(d[i]);
      }
    }
    if l < 0 then "-" + d else d
  }

  lemma {:induction false} DecimalValue(n: nat)
    ensures DigitsValue(Decimal(n)) == n
    decreases n
  {
    if n >= 10 {
      DecimalValue(n / 10);
      var s := Decimal(n);
      assert s[..|s| - 1] == Decimal(n / 10);
    }
  }

  /** Parsing reads back every `i16` literal as written. */
  lemma ParseLiteralText(l: Literal)
    requires InI16(l)
    ensures ParseLiteral(LiteralText(l)) == Success(l)
  {
    var d := Decimal(if l < 0 then -l else l);
    DecimalValue(if l < 0 then -l else l);
    if l < 0 {
      assert ("-" + d)[1..] == d;
    }
  }

  /** Values outside the `i16` range are rejected. */
  lemma ParseLiteralRange(n: nat)
    requires n > I16_MAX
    ensures ParseLiteral(Decimal(n)).Failure?
    ensures n > -I16_MIN ==> ParseLiteral("-" + Decimal(n)).Failure?
  {
    DecimalValue(n);
    assert ("-" + Decimal(n))[1..] == Decimal(n);
  }

  /* ---------- One clause line ---------- */

  /** Every literal a parsed clause can hold: a nonzero `i16`. */
  predicate ParsedLiterals(c: Clause) {
    forall i | 0 <= i < |c.literals| :: c.literals[i] != 0 && InI16(c.literals[i])
  }

  /** The token loop of a clause line, adding to `c`: each token is parsed
      (a bad token panics), a zero ends the clause, and every other value is
      added with `insert_checked`. */
  function ClauseOfTokens(ts: seq<string>, c: Clause): (r: Result<Clause>)
    ensures r.Success? ==> Len(c) <= Len(r.value) && r.value.literals[..Len(c)] == c.literals
    ensures r.Success? && NoDuplicates(c.literals) ==> NoDuplicates(r.value.literals)
    ensures r.Success? && ParsedLiterals(c) ==> ParsedLiterals(r.value)
    decreases |ts|
  {
    if |ts| == 0 then Success(c)
    else match ParseLiteral(ts[0])
      case Failure(m) => Failure(m)
      case Success(v) =>
        if v == 0 then Success(c)
        else
          var c' := InsertChecked(c, v);
          ParsedInsert(c, v);
          var r := ClauseOfTokens(ts[1..], c');
          assert r.Success? ==> r.value.literals[..Len(c)] == c.literals by {
            if r.Success? {
              assert r.value.literals[..Len(c)] == r.value.literals[..Len(c')][..Len(c)];
            }
          }
          r
  }

  /** Adding a parsed non-zero value keeps every literal parsed. */
  lemma ParsedInsert(c: Clause, v: Literal)
    requires v != 0 && InI16(v)
    ensures ParsedLiterals(c) ==> ParsedLiterals(InsertChecked(c, v))
  {
    if !Contains(c, v) {
      assert InsertChecked(c, v).literals == c.literals + [v];
    }
  }

  /** `insert_checked` of each literal in turn. */
  function InsertAll(c: Clause, ls: seq<Literal>): (r: Clause)
    ensures NoDuplicates(c.literals) ==> NoDuplicates(r.literals)
    ensures forall k :: Contains(r, k) <==> Contains(c, k) || k in ls
    decreases |ls|
  {
    if |ls| == 0 then c
    else
      assert forall k :: k in ls <==> k == ls[0] || k in ls[1..];
      InsertAll(InsertChecked(c, ls[0]), ls[1..])
  }

  /** Every literal written out. */
  function Texts(ls: seq<Literal>): (ts: seq<string>)
    ensures |ts| == |ls| && AllWords(ts)
    ensures forall i | 0 <= i < |ls| :: ts[i] == LiteralText(ls[i])
  {
    if |ls| == 0 then [] else [LiteralText(ls[0])] + Texts(ls[1..])
  }

  /** Nonzero `i16` literals, written out, parse to the clause that inserts
      them one by one. */
  lemma {:induction false} ClauseOfTexts(ls: seq<Literal>, c: Clause)
    requires forall i | 0 <= i < |ls| :: ls[i] != 0 && InI16(ls[i])
    ensures ClauseOfTokens(Texts(ls), c) == Success(InsertAll(c, ls))
    decreases |ls|
  {
    if |ls| > 0 {
      ParseLiteralText(ls[0]);
      assert Texts(ls)[1..] == Texts(ls[1..]);
      ClauseOfTexts(ls[1..], InsertChecked(c, ls[0]));
    }
  }

  /** Tokens after the first zero are never parsed. */
  lemma {:induction false} ClauseStopsAtZero(ts: seq<string>, rest: seq<string>, c: Clause)
    requires |ts| > 0 && ParseLiteral(ts[|ts| - 1]) == Success(0)
    ensures ClauseOfTokens(ts + rest, c) == ClauseOfTokens(ts, c)
    decreases |ts|
  {
    assert (ts + rest)[0] == ts[0];
    if |ts| > 1 && ParseLiteral(ts[0]).Success? && ParseLiteral(ts[0]).value != 0 {
      assert (ts + rest)[1..] == ts[1..] + rest;
      ClauseStopsAtZero(ts[1..], rest, InsertChecked(c, ParseLiteral(ts[0]).value));
    }
  }

  /** A bad token reached before any zero panics. */
  lemma {:induction false} ClauseBadToken(ts: seq<string>, i: nat, c: Clause)
    requires i < |ts| && ParseLiteral(ts[i]).Failure?
    requires forall j | 0 <= j < i :: ParseLiteral(ts[j]).Success? && ParseLiteral(ts[j]).value != 0
    ensures ClauseOfTokens(ts, c).Failure?
    decreases i
  {
    if i > 0 {
      ClauseBadToken(ts[1..], i - 1, InsertChecked(c, ParseLiteral(ts[0]).value));
    }
  }

  /** A line that is neither skipped as a comment or blank, nor as the
      problem line. */
  predicate IsClauseLine(line: string) {
    |line| > 0 && line[0] != 'c' && line[0] != 'p'
  }

  /** One iteration of the line loop: `None` for a skipped line, the clause
      of a clause line, or the panic of a bad token. */
  function ParseLine(line: string): (r: Result<Option<Clause>>)
    ensures !IsClauseLine(line) ==> r == Success(None)
    ensures IsClauseLine(line) && r.Success? ==> r.value.Some?
    ensures r.Success? && r.value.Some? ==> NoDuplicates(r.value.value.literals) && ParsedLiterals(r.value.value)
  {
    if |line| == 0 || line[0] == 'c' then Success(None)
    else if line[0] == 'p' then Success(None)
    else match ClauseOfTokens(Tokens(line), NewClause())
      case Failure(m) => Failure(m)
      case Success(c) => Success(Some(c))
  }

  /** A line yields no clause and no panic exactly when it is skipped:
      blank, a comment or the problem line. */
  lemma SkipExactly(line: string)
    ensures ParseLine(line) == Success(None) <==> !IsClauseLine(line)
  {
  }

  /** A clause line written from nonzero `i16` literals and a closing zero,
      with anything after it, reads back as the clause of those literals. */
  lemma ParseLineText(ls: seq<Literal>, rest: seq<string>)
    requires forall i | 0 <= i < |ls| :: ls[i] != 0 && InI16(ls[i])
    requires AllWords(rest)
    ensures ParseLine(Join(Texts(ls) + ["0"] + rest)) == Success(Some(InsertAll(NewClause(), ls)))
  {
    var ts := Texts(ls) + ["0"];
    assert AllWords(ts + rest);
    TokensJoin(ts + rest);
    var line := Join(ts + rest);
    assert line[0] == (ts + rest)[0][0] by {
      JoinHead(ts + rest);
    }
    ParseLiteralText(0);
    assert LiteralText(0) == "0";
    ClauseStopsAtZero(ts, rest, NewClause());
    ClauseOfTextsZero(ls, NewClause());
  }

  /** The joined tokens start with the first token. */
  lemma JoinHead(ts: seq<string>)
    requires |ts| > 0 && |ts[0]| > 0
    ensures |Join(ts)| > 0 && Join(ts)[0] == ts[0][0]
  {
  }

  /** A closing zero after the literals ends the clause. */
  lemma {:induction false} ClauseOfTextsZero(ls: seq<Literal>, c: Clause)
    requires forall i | 0 <= i < |ls| :: ls[i] != 0 && InI16(ls[i])
    ensures ClauseOfTokens(Texts(ls) + ["0"], c) == Success(InsertAll(c, ls))
    decreases |ls|
  {
    if |ls| == 0 {
      assert Texts(ls) + ["0"] == ["0"];
      assert ParseLiteral("0") == Success(0);
    } else {
      ParseLiteralText(ls[0]);
      assert (Texts(ls) + ["0"])[1..] == Texts(ls[1..]) + ["0"];
      ClauseOfTextsZero(ls[1..], InsertChecked(c, ls[0]));
    }
  }

  /** A line holding just `0` is the empty clause. */
  lemma ParseZeroLine()
    ensures ParseLine("0") == Success(Some(NewClause()))
  {
    SplitWord("0", []);
    assert [] + "0" == "0";
    assert ParseLiteral("0") == Success(0);
  }

  /** A line of blanks is not skipped: it is the empty clause. */
  lemma ParseBlankLine(line: string)
    requires |line| > 0 && line[0] == ' ' && forall i | 0 <= i < |line| :: IsWhitespace(line[i])
    ensures ParseLine(line) == Success(Some(NewClause()))
  {
    BlankTokens(line, []);
  }

  lemma {:induction false} BlankTokens(s: string, cur: string)
    requires cur == [] && forall i | 0 <= i < |s| :: IsWhitespace(s[i])
    ensures SplitFrom(s, cur) == []
    decreases |s|
  {
    if |s| > 0 {
      BlankTokens(s[1..], []);
    }
  }

  /* ---------- The line loop ---------- */

  /** The clauses of the lines in order; the first bad line panics. */
  function ClausesOf(lines: seq<string>): (r: Result<seq<Clause>>)
    ensures r.Success? ==> forall i | 0 <= i < |r.value| :: NoDuplicates(r.value[i].literals) && ParsedLiterals(r.value[i])
    decreases |lines|
  {
    if |lines| == 0 then Success([])
    else match ParseLine(lines[0])
      case Failure(m) => Failure(m)
      case Success(None) => ClausesOf(lines[1..])
      case Success(Some(c)) =>
        match ClausesOf(lines[1..])
        case Failure(m) => Failure(m)
        case Success(cs) => Success([c] + cs)
  }

  /** The number of clause lines. */
  function CountClauseLines(lines: seq<string>): nat
    decreases |lines|
  {
    if |lines| == 0 then 0
    else (if IsClauseLine(lines[0]) then 1 else 0) + CountClauseLines(lines[1..])
  }

  /** Every clause line adds exactly one clause and no other line adds one. */
  lemma {:induction false} ClausesOfCount(lines: seq<string>)
    ensures ClausesOf(lines).Success? ==> |ClausesOf(lines).value| == CountClauseLines(lines)
    decreases |lines|
  {
    if |lines| > 0 {
      ClausesOfCount(lines[1..]);
    }
  }

  /** The lines are read independently and their clauses kept in order. */
  lemma {:induction false} ClausesOfAppend(a: seq<string>, b: seq<string>)
    ensures ClausesOf(a).Success? && ClausesOf(b).Success? ==>
      ClausesOf(a + b) == Success(ClausesOf(a).value + ClausesOf(b).value)
    ensures ClausesOf(a).Failure? || ClausesOf(b).Failure? ==> ClausesOf(a + b).Failure?
    decreases |a|
  {
    if |a| == 0 {
      assert a + b == b;
      if ClausesOf(b).Success? {
        assert [] + ClausesOf(b).value == ClausesOf(b).value;
      }
    } else {
      assert (a + b)[0] == a[0];
      assert (a + b)[1..] == a[1..] + b;
      ClausesOfAppend(a[1..], b);
      if ParseLine(a[0]).Success? && ParseLine(a[0]).value.Some? && ClausesOf(a).Success? && ClausesOf(b).Success? {
        var c := ParseLine(a[0]).value.value;
        assert [c] + (ClausesOf(a[1..]).value + ClausesOf(b).value) == ([c] + ClausesOf(a[1..]).value) + ClausesOf(b).value;
      }
    }
  }

  /** `parse_dimacs` after the file is read: the expression built by adding
      the clauses of the lines in order. It is well formed with an empty
      undo log, ready for the search. */
  function ParseDimacs(lines: seq<string>): (r: Result<Expression>)
    ensures r.Success? <==> ClausesOf(lines).Success?
    ensures r.Success? ==> r.value.clauses == ClausesOf(lines).value
    ensures r.Success? ==> Wf(r.value) && r.value.assignments == map[] && Log(r.value) == []
  {
    match ClausesOf(lines)
    case Failure(m) => Failure(m)
    case Success(cs) =>
      FromClausesWf(cs);
      Success(FromClauses(cs))
  }
}

=== FILE: dpll.dfy ===
/** The DPLL search: unit propagation and pure-literal elimination while
    inference is possible, the two terminal checks, then a two-way branch
    on one variable with the undo log restored between the attempts. Hash
    iteration order is chosen arbitrarily; the loops and the recursion are
    bounded by a fuel argument. */
module Dpll {
  import opened Wrappers
  import opened Cnf
  import opened Expressions
  import opened Invariants
  import opened Heuristics
  import opened LogShape
  import Backtrack

  /** What `solve_dpll` ends with: `Some(assignment)`, `None`, a panic, or
      (in the model only) running out of fuel. */
  datatype Outcome = Sat(assignment: Assignment) | Unsat | Panic(message: string) | OutOfFuel

  /** One iteration order of a hash set, chosen arbitrarily. */
  method Enumerate<T(==)>(s: set<T>) returns (o: seq<T>)
    ensures Enumerates(o, s)
  {
    o := [];
    var rest := s;
    while rest != {}
      invariant rest <= s
      invariant forall i, j | 0 <= i < j < |o| :: o[i] != o[j]
      invariant forall i | 0 <= i < |o| :: o[i] in s && o[i] !in rest
      invariant forall x | x in s && x !in rest :: x in o
      decreases |rest|
    {
      var x :| x in rest;
      o := o + [x];
      rest := rest - {x};
    }
  }

  /** The first element of a non-empty hash set, in an arbitrary order. */
  method Pick<T>(s: set<T>) returns (x: T)
    requires s != {}
    ensures x in s
  {
    x :| x in s;
  }

  /** The iteration orders `assign_variable` meets. */
  method ChooseOrders(e: Expression, v: Variable, value: bool) returns (o1: seq<ClauseId>, o2: seq<ClauseId>)
    ensures AssignOrders(e, v, value, o1, o2)
  {
    var lit := LiteralOf(v, value);
    o1, o2 := [], [];
    if lit in e.literalToClause {
      o1 := Enumerate(e.literalToClause[lit]);
    }
    if Negate(lit) in e.literalToClause {
      o2 := Enumerate(e.literalToClause[Negate(lit)]);
    }
  }

  /** The state the search keeps between steps: well-formed, with a log of
      whole entries that extends the log on entry. */
  ghost predicate Good(e: Expression, x: Expression) {
    Wf(x) && Parses(Log(x)) && IsPrefix(Log(e), Log(x))
  }

  /** `assign_variable` as the search calls it (directly for a branch, or
      through `remove_unit_clause` and `remove_pure_literal`). */
  method Assign(e: Expression, x: Expression, v: Variable, value: bool) returns (y: Expression)
    requires Good(e, x)
    ensures Good(e, y) && IsPrefix(Log(x), Log(y))
    ensures y.assignments == x.assignments[v := value]
    ensures y.variables == x.variables && y.literalToClause == x.literalToClause
  {
    var o1, o2 := ChooseOrders(x, v, value);
    y := Expressions.AssignVariable(x, v, value, o1, o2);
    AssignGood(e, x, v, value, o1, o2);
  }

  /** `assign_variable` keeps the search state good. */
  lemma AssignGood(e: Expression, x: Expression, v: Variable, value: bool, o1: seq<ClauseId>, o2: seq<ClauseId>)
    requires Good(e, x) && AssignOrders(x, v, value, o1, o2)
    ensures Good(e, Expressions.AssignVariable(x, v, value, o1, o2))
    ensures IsPrefix(Log(x), Log(Expressions.AssignVariable(x, v, value, o1, o2)))
  {
    var y := Expressions.AssignVariable(x, v, value, o1, o2);
    AssignVariableWf(x, v, value, o1, o2);
    AssignVariableParses(x, v, value, o1, o2);
    Backtrack.AssignVariablePrefix(x, v, value, o1, o2);
    PrefixTransitive(Log(e), Log(x), Log(y));
  }

  /** `restore_action_state` followed by `return None`: on a log of whole
      entries it cuts the log back to `state`, unless it panics. */
  method Unwind(x: Expression, state: ActionState) returns (r: Outcome, y: Expression)
    requires Wf(x) && Parses(Log(x)) && state <= |Log(x)| && Parses(Log(x)[..state])
    ensures r.Unsat? || r.Panic?
    ensures r.Unsat? ==> Wf(y) && Log(y) == Log(x)[..state]
  {
    var restored := Restore(x, state);
    RestoreCuts(x, state);
    RestoreWf(x, state);
    if restored.Panicked? {
      return Panic(restored.message), x;
    }
    return Unsat, restored.e;
  }

  /** The inner loop `while remove_unit_clause().is_some() {}`: a unit
      clause (the hash set's first) has its literal made true, until no
      unit clause is left. */
  method DrainUnits(e: Expression, x0: Expression, fuel: nat) returns (x: Expression, ok: bool)
    requires Good(e, x0)
    ensures Good(e, x)
    ensures ok ==> x.unitClauses == {}
  {
    x := x0;
    var steps := fuel;
    while x.unitClauses != {}
      invariant Good(e, x)
      decreases steps
    {
      if steps == 0 {
        return x, false;
      }
      steps := steps - 1;
      var c := Pick(x.unitClauses);
      var l := x.clauses[c].literals[0];
      var o1, o2 := ChooseOrders(x, ToVariable(l), l > 0);
      RemoveUnitClauseSucceeds(x, c, o1, o2);
      AssignGood(e, x, ToVariable(l), l > 0, o1, o2);
      x := RemoveUnitClause(x, c, o1, o2).value.1;
    }
    return x, true;
  }

  /** The inner loop `while remove_pure_literal().is_some() {}`. */
  method DrainPure(e: Expression, x0: Expression, fuel: nat) returns (x: Expression, ok: bool)
    requires Good(e, x0)
    ensures Good(e, x)
    ensures ok ==> x.pureLiterals == {}
  {
    x := x0;
    var steps := fuel;
    while x.pureLiterals != {}
      invariant Good(e, x)
      decreases steps
    {
      if steps == 0 {
        return x, false;
      }
      steps := steps - 1;
      var l := Pick(x.pureLiterals);
      var o1, o2 := ChooseOrders(x, ToVariable(l), l > 0);
      AssignGood(e, x, ToVariable(l), l > 0, o1, o2);
      x := RemovePureLiteral(x, l, o1, o2).1;
    }
    return x, true;
  }

  /** The inference phase of `solve_dpll`: while inference is possible,
      drain the unit clauses, stop on an empty clause, then drain the pure
      literals. `conflict` reports the early stop. */
  method Propagate(e: Expression, fuel: nat) returns (x: Expression, conflict: bool, ok: bool)
    requires Wf(e) && Parses(Log(e))
    ensures Good(e, x)
    ensures ok && conflict ==> IsUnsatisfiable(x)
    ensures ok && !conflict ==> !IsInferencePossible(x)
  {
    x := e;
    var steps := fuel;
    while IsInferencePossible(x)
      invariant Good(e, x)
      decreases steps
    {
      if steps == 0 {
        return x, false, false;
      }
      steps := steps - 1;
      x, ok := DrainUnits(e, x, fuel);
      if !ok {
        return x, false, false;
      }
      if IsUnsatisfiable(x) {
        return x, true, true;
      }
      x, ok := DrainPure(e, x, fuel);
      if !ok {
        return x, false, false;
      }
    }
    return x, false, true;
  }

  /** `solve_dpll`. A satisfying answer is returned only when no clause is
      active, and it is `construct_assignment` of the final state; every
      `None` first cuts the log back to its length on entry. */
  method SolveDpll(e: Expression, fuel: nat) returns (r: Outcome, y: Expression)
    requires Wf(e) && Parses(Log(e))
    ensures r.Sat? ==> IsSatisfied(y) && r.assignment == ConstructAssignment(y)
    ensures r.Sat? ==> Wf(y) && IsPrefix(Log(e), Log(y))
    ensures r.Unsat? ==> Wf(y) && Log(y) == Log(e)
    decreases fuel, 1
  {
    var state := GetActionState(e);
    var x, conflict, ok := Propagate(e, fuel);
    assert Log(x)[..state] == Log(e);
    if !ok {
      return OutOfFuel, x;
    }
    if conflict {
      r, y := Unwind(x, state);
      return;
    }
    if IsSatisfied(x) {
      return Sat(ConstructAssignment(x)), x;
    }
    if IsUnsatisfiable(x) {
      r, y := Unwind(x, state);
      return;
    }
    if fuel == 0 {
      return OutOfFuel, x;
    }
    r, y := Branch(e, x, fuel);
  }

  /** The branching half of `solve_dpll`: pick a variable, try its
      preferred value, restore the log to the branch point, try the other
      value, and restore the log to its length on entry if both fail. */
  method Branch(e: Expression, x: Expression, fuel: nat) returns (r: Outcome, y: Expression)
    requires fuel > 0 && Good(e, x) && Parses(Log(e))
    ensures r.Sat? ==> IsSatisfied(y) && r.assignment == ConstructAssignment(y)
    ensures r.Sat? ==> Wf(y) && IsPrefix(Log(e), Log(y))
    ensures r.Unsat? ==> Wf(y) && Log(y) == Log(e)
    decreases fuel, 0
  {
    var branchState := GetActionState(x);
    var ks := Enumerate(x.literalToClause.Keys);
    var vs := Enumerate(x.variables);
    var pick: Variable := 0;
    if exists w | w in x.variables :: w !in x.assignments {
      pick :| pick in x.variables && pick !in x.assignments;
    }
    var branch := GetBranchVariable(x, ks, vs, pick);
    if branch.Failure? {
      return Panic(branch.message), x;
    }
    var (v, value) := branch.value;

    var x1 := Assign(e, x, v, value);
    var r1, y1 := SolveDpll(x1, fuel - 1);
    if !r1.Unsat? {
      if r1.Sat? {
        PrefixTransitive(Log(e), Log(x1), Log(y1));
      }
      return r1, y1;
    }
    assert Log(y1)[..branchState] == Log(x);
    var back, z := Unwind(y1, branchState);
    if back.Panic? {
      return back, z;
    }
    var x2 := Assign(e, z, v, !value);
    var r2, y2 := SolveDpll(x2, fuel - 1);
    if !r2.Unsat? {
      if r2.Sat? {
        PrefixTransitive(Log(e), Log(x2), Log(y2));
      }
      return r2, y2;
    }
    assert Log(y2)[..|Log(e)|] == Log(e);
    r, y := Unwind(y2, |Log(e)|);
  }

  /** The unassigned variables of the formula. */
  function Unassigned(e: Expression): set<Variable> {
    e.variables - e.assignments.Keys
  }

  /** Branching on an unassigned variable leaves one unassigned variable
      fewer, which is why the recursion of `solve_dpll` is bounded when
      every assignment is of an unassigned variable. */
  lemma BranchShrinks(e: Expression, v: Variable, value: bool, o1: seq<ClauseId>, o2: seq<ClauseId>)
    requires Wf(e) && AssignOrders(e, v, value, o1, o2)
    requires v in e.variables && v !in e.assignments
    ensures Unassigned(Expressions.AssignVariable(e, v, value, o1, o2)) == Unassigned(e) - {v}
    ensures |Unassigned(Expressions.AssignVariable(e, v, value, o1, o2))| == |Unassigned(e)| - 1
  {
    KeysAfterUpdate(e.assignments, v, value);
    OneFewer(e.variables, e.assignments.Keys, v);
  }

  lemma KeysAfterUpdate(m: map<Variable, bool>, v: Variable, value: bool)
    ensures m[v := value].Keys == m.Keys + {v}
  {
  }

  lemma OneFewer(vars: set<Variable>, keys: set<Variable>, v: Variable)
    requires v in vars && v !in keys
    ensures vars - (keys + {v}) == (vars - keys) - {v}
    ensures |(vars - keys) - {v}| == |vars - keys| - 1
  {
  }

  /** `from_clauses` of one clause is `add_clause` on an empty expression. */
  lemma OneClauseBuilt(c: Clause)
    ensures FromClauses([c]) == AddClause(New(), c)
  {
    assert [c][..0] == [];
  }

  /** The index of `(1 or 2)`. */
  lemma OneClauseIndex(c: Clause)
    requires c.literals == [1, 2]
    ensures var e := AddClause(New(), c);
      && 1 in e.literalToClause && e.literalToClause[1] == {0}
      && 2 in e.literalToClause && e.literalToClause[2] == {0}
      && -1 in e.literalToClause && e.literalToClause[-1] == {}
      && -2 in e.literalToClause && e.literalToClause[-2] == {}
  {
    AddClauseIndexAt(New(), c, 1);
    AddClauseIndexAt(New(), c, 2);
    AddClauseIndexAt(New(), c, -1);
    AddClauseIndexAt(New(), c, -2);
  }

  /** The purity and variables of `(1 or 2)`. */
  lemma OneClausePure(c: Clause)
    requires c.literals == [1, 2]
    ensures var e := AddClause(New(), c);
      && e.variables == {1, 2} && 1 in e.pureLiterals && 2 in e.pureLiterals
  {
    var e := AddClause(New(), c);
    OneClauseIndex(c);
    AddClausePurity(New(), c);
    assert PurityDecided(e, 1) && PurityDecided(e, 2);
    assert VariablesOf([1, 2]) == {1, 2};
  }

  /** The formula `(1 or 2)` as built by `from_clauses`: both literals are
      pure and recorded under clause 0, their negations under nothing. */
  lemma OneClauseFormula(e: Expression)
    requires e == FromClauses([Clause([1, 2])])
    ensures && Wf(e) && e.numActiveClauses == 1 && e.numEmptyClauses == 0
      && e.variables == {1, 2} && e.assignments == map[]
      && 1 in e.literalToClause && e.literalToClause[1] == {0}
      && 2 in e.literalToClause && e.literalToClause[2] == {0}
      && -1 in e.literalToClause && e.literalToClause[-1] == {}
      && -2 in e.literalToClause && e.literalToClause[-2] == {}
      && 1 in e.pureLiterals && 2 in e.pureLiterals
  {
    OneClauseBuilt(Clause([1, 2]));
    OneClauseFacts(Clause([1, 2]));
  }

  /** `OneClauseFormula` for any clause holding `1, 2`. */
  lemma OneClauseFacts(c: Clause)
    requires c.literals == [1, 2]
    ensures var e := AddClause(New(), c);
      && Wf(e) && e.numActiveClauses == 1 && e.numEmptyClauses == 0
      && e.variables == {1, 2} && e.assignments == map[]
      && 1 in e.literalToClause && e.literalToClause[1] == {0}
      && 2 in e.literalToClause && e.literalToClause[2] == {0}
      && -1 in e.literalToClause && e.literalToClause[-1] == {}
      && -2 in e.literalToClause && e.literalToClause[-2] == {}
      && 1 in e.pureLiterals && 2 in e.pureLiterals
  {
    AddClauseWf(New(), c);
    OneClauseIndex(c);
    OneClausePure(c);
  }

  /** Making a literal true whose negation is recorded under no clause
      deletes no literal. */
  lemma AssignNoFalsified(e: Expression, v: Variable, value: bool, o1: seq<ClauseId>)
    requires Wf(e) && AssignOrders(e, v, value, o1, [])
    ensures Expressions.AssignVariable(e, v, value, o1, []).numEmptyClauses == e.numEmptyClauses
  {
    var lit := LiteralOf(v, value);
    var e2 := RemoveClausesWithLiteral(RecordAssignment(e, v, value), lit, o1);
    if Negate(lit) in e2.literalToClause {
      var w := e2.(actions := Stacks.Push(e2.actions, RemoveLiteralFromClausesStart));
      assert RemoveLiteralLoop(w, Negate(lit), []) == w;
    }
  }

  /** The first step on `(1 or 2)`: the pure literal 1 is made true. */
  lemma FirstPure() returns (e0: Expression, e1: Expression)
    ensures e0 == FromClauses([Clause([1, 2])]) && Wf(e0) && e0.numActiveClauses == 1
    ensures 1 in e0.pureLiterals && 1 !in e0.assignments && AssignOrders(e0, 1, true, [0], [])
    ensures e1 == Expressions.AssignVariable(e0, 1, true, [0], []) && Wf(e1)
    ensures e1.numActiveClauses == 0 && e1.numEmptyClauses == 0
    ensures 2 in e1.pureLiterals && e1.assignments == map[1 := true] && e1.variables == {1, 2}
    ensures 2 in e1.literalToClause && e1.literalToClause[2] == {0}
    ensures -2 in e1.literalToClause && e1.literalToClause[-2] == {}
  {
    e0 := FromClauses([Clause([1, 2])]);
    OneClauseFormula(e0);
    e1 := Expressions.AssignVariable(e0, 1, true, [0], []);
    AssignVariableWf(e0, 1, true, [0], []);
    AssignVariableCounters(e0, 1, true, [0], []);
    AssignNoFalsified(e0, 1, true, [0]);
  }

  /** On `(1 or 2)` the search makes the pure literal 1 true, which removes
      the clause, and then the still-pure literal 2 true, which removes the
      same clause again: the active counter goes from 1 to 0 to -1 (an
      underflow of the source's `u16`). Afterwards no inference is
      possible, the formula counts as neither satisfied nor unsatisfiable,
      and every variable is assigned, so the branch heuristic panics. */
  lemma DoubleRemoval() returns (e0: Expression, e1: Expression, e2: Expression)
    ensures e0 == FromClauses([Clause([1, 2])]) && Wf(e0)
    ensures 1 in e0.pureLiterals && 1 !in e0.assignments && AssignOrders(e0, 1, true, [0], [])
    ensures e1 == Expressions.AssignVariable(e0, 1, true, [0], []) && Wf(e1)
    ensures 2 in e1.pureLiterals && 2 !in e1.assignments && AssignOrders(e1, 2, true, [0], [])
    ensures e2 == Expressions.AssignVariable(e1, 2, true, [0], [])
    ensures e0.numActiveClauses == 1 && e1.numActiveClauses == 0 && e2.numActiveClauses == -1
    ensures !IsInferencePossible(e2) && !IsSatisfied(e2) && !IsUnsatisfiable(e2)
    ensures forall w | w in e2.variables :: w in e2.assignments
  {
    e0, e1 := FirstPure();
    e2 := Expressions.AssignVariable(e1, 2, true, [0], []);
    AssignVariableCounters(e1, 2, true, [0], []);
    AssignNoFalsified(e1, 2, true, [0]);
  }

  /** Three clauses added in turn: a literal is indexed exactly when it
      was before or one of the clauses mentions it in either polarity. */
  lemma ChainIndexed(e: Expression, a: Clause, b: Clause, c: Clause, k: Literal)
    ensures k in AddClause(AddClause(AddClause(e, a), b), c).literalToClause <==>
      || k in e.literalToClause
      || k in a.literals || Negate(k) in a.literals || k in b.literals || Negate(k) in b.literals
      || k in c.literals || Negate(k) in c.literals
  {
    AddClauseIndexAt(e, a, k);
    AddClauseIndexAt(AddClause(e, a), b, k);
    AddClauseIndexAt(AddClause(AddClause(e, a), b), c, k);
  }

  /** Three clauses added in turn, of which only the first may hold `k`:
      `k`'s entry gains at most the first new id. */
  lemma ChainEntryFirst(e: Expression, a: Clause, b: Clause, c: Clause, k: Literal)
    requires k !in b.literals && k !in c.literals
    ensures Entry(AddClause(AddClause(AddClause(e, a), b), c).literalToClause, k)
      == Entry(e.literalToClause, k) + (if k in a.literals then {|e.clauses|} else {})
  {
    AddClauseIndexAt(e, a, k);
    AddClauseIndexAt(AddClause(e, a), b, k);
    AddClauseIndexAt(AddClause(AddClause(e, a), b), c, k);
  }

  /** Three clauses added in turn: a literal any of them holds has
      instances afterwards. */
  lemma ChainInstances(e: Expression, a: Clause, b: Clause, c: Clause, k: Literal)
    requires k in a.literals || k in b.literals || k in c.literals
    ensures HasInstances(AddClause(AddClause(AddClause(e, a), b), c), k)
  {
    var e1 := AddClause(e, a);
    var e2 := AddClause(e1, b);
    AddClauseIndexAt(e, a, k);
    AddClauseIndexAt(e1, b, k);
    AddClauseIndexAt(e2, c, k);
    var r := AddClause(e2, c);
    if k in c.literals {
      assert |e2.clauses| in Entry(r.literalToClause, k);
    } else if k in b.literals {
      assert |e1.clauses| in Entry(r.literalToClause, k);
    } else {
      assert |e.clauses| in Entry(r.literalToClause, k);
    }
  }

  /** A literal of the first clause whose negation occurs nowhere, and
      which the later clauses do not mention, is pure. */
  lemma PureFromFirst(a: Clause, b: Clause, c: Clause, v: Literal)
    requires v in a.literals && Negate(v) !in a.literals
    requires v !in b.literals && Negate(v) !in b.literals && v !in c.literals && Negate(v) !in c.literals
    ensures var e := AddClause(AddClause(AddClause(New(), a), b), c);
      v in e.pureLiterals && Negate(v) !in e.pureLiterals
  {
    var e1 := AddClause(New(), a);
    var e2 := AddClause(e1, b);
    AddClausePurity(New(), a);
    assert PurityDecided(e1, v);
    AddClauseIndexAt(New(), a, v);
    AddClauseIndexAt(New(), a, Negate(v));
    AddClausePureFrame(e1, b, v);
    AddClausePureFrame(e2, c, v);
    NegateInvolution(v);
    AddClausePureFrame(e1, b, Negate(v));
    AddClausePureFrame(e2, c, Negate(v));
  }

  /** A literal of the last clause whose negation occurs in an earlier one
      is not pure, and neither is its negation. */
  lemma ImpureAtLast(a: Clause, b: Clause, c: Clause, v: Literal)
    requires v in c.literals && (Negate(v) in a.literals || Negate(v) in b.literals)
    ensures var e := AddClause(AddClause(AddClause(New(), a), b), c);
      v !in e.pureLiterals && Negate(v) !in e.pureLiterals
  {
    var e2 := AddClause(AddClause(New(), a), b);
    AddClausePurity(e2, c);
    assert PurityDecided(AddClause(e2, c), v);
    ChainInstances(New(), a, b, c, v);
    ChainInstances(New(), a, b, c, Negate(v));
  }

  /** A literal no clause mentions, in either polarity, is not pure. */
  lemma PureAbsent(a: Clause, b: Clause, c: Clause, k: Literal)
    requires k !in a.literals && Negate(k) !in a.literals && k !in b.literals && Negate(k) !in b.literals
    requires k !in c.literals && Negate(k) !in c.literals
    ensures k !in AddClause(AddClause(AddClause(New(), a), b), c).pureLiterals
  {
    var e1 := AddClause(New(), a);
    var e2 := AddClause(e1, b);
    AddClausePureFrame(New(), a, k);
    AddClausePureFrame(e1, b, k);
    AddClausePureFrame(e2, c, k);
  }

  /** `(1 or 2 or 5) and (-3 or -4) and (3 or 4)` as built: exactly the
      literals 1, 2 and 5 are pure. */
  lemma ThreeClausePure(a: Clause, b: Clause, c: Clause, k: Literal)
    requires a.literals == [1, 2, 5] && b.literals == [-3, -4] && c.literals == [3, 4]
    ensures k in AddClause(AddClause(AddClause(New(), a), b), c).pureLiterals <==> k == 1 || k == 2 || k == 5
  {
    var v := ToVariable(k);
    if v == 1 || v == 2 || v == 5 {
      PureFromFirst(a, b, c, v);
    } else if v == 3 || v == 4 {
      ImpureAtLast(a, b, c, v);
    } else {
      PureAbsent(a, b, c, k);
    }
  }

  /** A literal only the first clause mentions, and only positively, is
      recorded under clause 0 alone, and its negation under nothing. */
  lemma AloneInFirst(e0: Expression, a: Clause, b: Clause, c: Clause, v: Literal)
    requires e0.literalToClause == map[] && e0.clauses == []
    requires v in a.literals && Negate(v) !in a.literals
    requires v !in b.literals && Negate(v) !in b.literals && v !in c.literals && Negate(v) !in c.literals
    ensures OnlyUnder(AddClause(AddClause(AddClause(e0, a), b), c), v, 0)
  {
    NegateInvolution(v);
    ChainEntryFirst(e0, a, b, c, v);
    ChainEntryFirst(e0, a, b, c, Negate(v));
    ChainIndexed(e0, a, b, c, v);
    ChainIndexed(e0, a, b, c, Negate(v));
  }

  /** `(1 or 2 or 5) and (-3 or -4) and (3 or 4)` as built: 1, 2 and 5
      are each recorded under clause 0 alone, and their negations under
      nothing. */
  lemma ThreeClauseRecorded(a: Clause, b: Clause, c: Clause)
    requires a.literals == [1, 2, 5] && b.literals == [-3, -4] && c.literals == [3, 4]
    ensures var e := AddClause(AddClause(AddClause(New(), a), b), c);
      OnlyUnder(e, 1, 0) && OnlyUnder(e, 2, 0) && OnlyUnder(e, 5, 0)
  {
    RecordedInFirst(a, b, c, 1);
    RecordedInFirst(a, b, c, 2);
    RecordedInFirst(a, b, c, 5);
  }

  lemma RecordedInFirst(a: Clause, b: Clause, c: Clause, v: Literal)
    requires a.literals == [1, 2, 5] && b.literals == [-3, -4] && c.literals == [3, 4]
    requires v == 1 || v == 2 || v == 5
    ensures OnlyUnder(AddClause(AddClause(AddClause(New(), a), b), c), v, 0)
  {
    AloneInFirst(New(), a, b, c, v);
  }

  /** The pure set of `(1 or 2 or 5) and (-3 or -4) and (3 or 4)` as a
      set. */
  lemma ThreeClausePureSet(a: Clause, b: Clause, c: Clause)
    requires a.literals == [1, 2, 5] && b.literals == [-3, -4] && c.literals == [3, 4]
    ensures AddClause(AddClause(AddClause(New(), a), b), c).pureLiterals == {1, 2, 5}
  {
    var e := AddClause(AddClause(AddClause(New(), a), b), c);
    forall k
      ensures k in e.pureLiterals <==> k == 1 || k == 2 || k == 5
    {
      ThreeClausePure(a, b, c, k);
    }
    OneTwoFive(e.pureLiterals);
  }

  lemma OneTwoFive(s: set<Literal>)
    requires forall k :: k in s <==> k == 1 || k == 2 || k == 5
    ensures s == {1, 2, 5}
  {
    assert 1 in s && 2 in s && 5 in s;
    forall k | k in s
      ensures k in {1, 2, 5}
    {
      assert k == 1 || k == 2 || k == 5;
    }
  }

  /** Built clause by clause or from the sequence, the expression is the
      same and well formed. */
  lemma ThreeClauseBuilt(a: Clause, b: Clause, c: Clause)
    requires 0 !in a.literals && 0 !in b.literals && 0 !in c.literals
    ensures var e := AddClause(AddClause(AddClause(New(), a), b), c);
      e == FromClauses([a, b, c]) && Wf(e)
  {
    FromClausesSnoc([a, b], c);
    FromClausesSnoc([a], b);
    FromClausesSnoc([], a);
    assert [a, b] + [c] == [a, b, c] && [a] + [b] == [a, b] && [] + [a] == [a];
    FromClausesWf([]);
    AddClauseWf(New(), a);
    AddClauseWf(AddClause(New(), a), b);
    AddClauseWf(AddClause(AddClause(New(), a), b), c);
  }

  /** `from_clauses` adds the clauses one by one, in order. */
  lemma FromClausesSnoc(cs: seq<Clause>, c: Clause)
    ensures FromClauses(cs + [c]) == AddClause(FromClauses(cs), c)
  {
    assert (cs + [c])[..|cs|] == cs;
  }

  /** What the search starts from on `(1 or 2 or 5) and (-3 or -4) and
      (3 or 4)`: three active clauses, none empty or unit, and the pure
      literals 1, 2 and 5, each recorded under clause 0 alone. */
  lemma ThreeClauseFacts(a: Clause, b: Clause, c: Clause)
    requires a.literals == [1, 2, 5] && b.literals == [-3, -4] && c.literals == [3, 4]
    ensures var e := AddClause(AddClause(AddClause(New(), a), b), c);
      && e == FromClauses([a, b, c]) && Wf(e)
      && e.numActiveClauses == 3 && e.numEmptyClauses == 0 && e.unitClauses == {}
      && e.pureLiterals == {1, 2, 5} && e.assignments == map[] && 3 in e.variables && 4 in e.variables
      && OnlyUnder(e, 1, 0) && OnlyUnder(e, 2, 0) && OnlyUnder(e, 5, 0)
  {
    ThreeClauseBuilt(a, b, c);
    ThreeClausePureSet(a, b, c);
    ThreeClauseRecorded(a, b, c);
    assert ToVariable(3) == 3 && 3 in c.literals;
    assert ToVariable(4) == 4 && 4 in c.literals;
  }

  /** `v` is recorded under the single clause `d`, and its negation under
      none. */
  predicate OnlyUnder(e: Expression, v: Literal, d: ClauseId) {
    && v in e.literalToClause && e.literalToClause[v] == {d}
    && Negate(v) in e.literalToClause && e.literalToClause[Negate(v)] == {}
  }

  /** Making true a pure literal `v` recorded under the single clause `d`,
      whose negation is recorded under nothing: the clause is removed, no
      literal is deleted, and both polarities leave the pure set. */
  lemma PureStep(e: Expression, v: Variable, d: ClauseId)
    requires Wf(e) && v > 0 && OnlyUnder(e, v, d) && v in e.pureLiterals
    ensures AssignOrders(e, v, true, [d], [])
    ensures RemovePureLiteral(e, v, [d], []) == (Some(v as int), Expressions.AssignVariable(e, v, true, [d], []))
    ensures var r := Expressions.AssignVariable(e, v, true, [d], []);
      && Wf(r) && r.clauses == e.clauses && r.literalToClause == e.literalToClause
      && r.variables == e.variables && r.assignments == e.assignments[v := true]
      && r.numActiveClauses == e.numActiveClauses - 1 && r.numEmptyClauses == e.numEmptyClauses
      && r.pureLiterals == e.pureLiterals - {v as int, Negate(v)}
  {
    assert AssignOrders(e, v, true, [d], []);
    var r := Expressions.AssignVariable(e, v, true, [d], []);
    AssignVariableWf(e, v, true, [d], []);
    AssignVariableCounters(e, v, true, [d], []);
    AssignNoFalsified(e, v, true, [d]);
    AssignVariableClauses(e, v, true, [d], []);
    assert r.clauses == e.clauses;
  }

  /** A satisfied answer that does not satisfy, on `(1 or 2 or 5) and
      (-3 or -4) and (3 or 4)`. The literals 1, 2 and 5 are pure and all
      recorded under clause 0, so each of them removes clause 0 once more:
      the active counter goes 3, 2, 1, 0 while clauses 1 and 2 were never
      removed. The formula then counts as satisfied with no inference left,
      so the search answers `construct_assignment`, which sets the
      unassigned 3 and 4 to true and falsifies `(-3 or -4)`. */
  lemma PrematureSatisfied(a: Clause, b: Clause, c: Clause) returns (e0: Expression, e1: Expression, e2: Expression, e3: Expression)
    requires a.literals == [1, 2, 5] && b.literals == [-3, -4] && c.literals == [3, 4]
    ensures e0 == FromClauses([a, b, c]) && Wf(e0)
    ensures e0.numActiveClauses == 3 && e0.numEmptyClauses == 0 && e0.unitClauses == {}
    ensures e0.pureLiterals == {1, 2, 5} && IsInferencePossible(e0)
    ensures PureChoice(e0, 1, e1) && e1.pureLiterals == {2, 5}
    ensures PureChoice(e1, 2, e2) && e2.pureLiterals == {5}
    ensures PureChoice(e2, 5, e3) && e3.pureLiterals == {}
    ensures e1.numActiveClauses == 2 && e2.numActiveClauses == 1 && e3.numActiveClauses == 0
    ensures e3.clauses == [a, b, c] && e3.unitClauses == {}
    ensures IsSatisfied(e3) && !IsUnsatisfiable(e3) && !IsInferencePossible(e3)
    ensures !Satisfies(ConstructAssignment(e3), e3.clauses)
  {
    ThreeClauseFacts(a, b, c);
    e0 := FromClauses([a, b, c]);
    e1, e2, e3 := PureRun(e0);
    NoUnits(e3);
    ConstructFalsifies(e3);
  }

  /** Making the pure literals 1, 2 and 5 true in turn, each recorded under
      clause 0 alone: the active counter drops by three, and nothing else
      the answer depends on changes. */
  lemma PureRun(e0: Expression) returns (e1: Expression, e2: Expression, e3: Expression)
    requires Wf(e0) && e0.pureLiterals == {1, 2, 5} && 3 !in e0.assignments && 4 !in e0.assignments
    requires OnlyUnder(e0, 1, 0) && OnlyUnder(e0, 2, 0) && OnlyUnder(e0, 5, 0)
    ensures PureChoice(e0, 1, e1) && e1.pureLiterals == {2, 5}
    ensures PureChoice(e1, 2, e2) && e2.pureLiterals == {5}
    ensures PureChoice(e2, 5, e3) && e3.pureLiterals == {}
    ensures e1.numActiveClauses == e0.numActiveClauses - 1 && e2.numActiveClauses == e0.numActiveClauses - 2
    ensures e3.numActiveClauses == e0.numActiveClauses - 3 && e3.numEmptyClauses == e0.numEmptyClauses
    ensures Wf(e3) && e3.clauses == e0.clauses && e3.variables == e0.variables
    ensures 3 !in e3.assignments && 4 !in e3.assignments
  {
    e1 := PureStepTo(e0, 1, {2, 5});
    e2, e3 := PureRunTail(e1);
  }

  /** The last two steps of `PureRun`. */
  lemma PureRunTail(e1: Expression) returns (e2: Expression, e3: Expression)
    requires Wf(e1) && e1.pureLiterals == {2, 5} && 3 !in e1.assignments && 4 !in e1.assignments
    requires OnlyUnder(e1, 2, 0) && OnlyUnder(e1, 5, 0)
    ensures PureChoice(e1, 2, e2) && e2.pureLiterals == {5}
    ensures PureChoice(e2, 5, e3) && e3.pureLiterals == {}
    ensures e2.numActiveClauses == e1.numActiveClauses - 1
    ensures e3.numActiveClauses == e1.numActiveClauses - 2 && e3.numEmptyClauses == e1.numEmptyClauses
    ensures Wf(e3) && e3.clauses == e1.clauses && e3.variables == e1.variables
    ensures 3 !in e3.assignments && 4 !in e3.assignments
  {
    e2 := PureStepTo(e1, 2, {5});
    e3 := PureStepTo(e2, 5, {});
  }

  /** The pure-literal step of the search on `e` picks `v`, whose clauses
      are enumerated as the single clause 0, and leads to `r`. */
  ghost predicate PureChoice(e: Expression, v: Literal, r: Expression) {
    && Wf(e) && v in e.pureLiterals && LiteralOrders(e, v, [0], [])
    && RemovePureLiteral(e, v, [0], []) == (Some(v), r)
  }

  /** One step of `PureRun`: the pure literal `v`, recorded under clause 0
      alone, is made true and leaves the pure set; the clauses and the
      index stay as they were. */
  lemma PureStepTo(e: Expression, v: Variable, rest: set<Literal>) returns (r: Expression)
    requires Wf(e) && v > 0 && OnlyUnder(e, v, 0)
    requires e.pureLiterals == rest + {v} && v !in rest && Negate(v) !in rest
    ensures PureChoice(e, v, r)
    ensures Wf(r) && r.pureLiterals == rest && r.clauses == e.clauses && r.literalToClause == e.literalToClause
    ensures r.variables == e.variables && r.assignments == e.assignments[v := true]
    ensures r.numActiveClauses == e.numActiveClauses - 1
  {
    PureStep(e, v, 0);
    r := Expressions.AssignVariable(e, v, true, [0], []);
    DropPure(e.pureLiterals, v, rest);
  }

  lemma DropPure(s: set<Literal>, v: Literal, t: set<Literal>)
    requires s == t + {v} && v !in t && Negate(v) !in t
    ensures s - {v, Negate(v)} == t
  {
  }

  /** With 3 and 4 left unassigned, `construct_assignment` sets both to
      true, which falsifies `(-3 or -4)`. */
  lemma ConstructFalsifies(e: Expression)
    requires |e.clauses| > 1 && e.clauses[1].literals == [-3, -4]
    requires 3 in e.variables && 4 in e.variables && 3 !in e.assignments && 4 !in e.assignments
    ensures !Satisfies(ConstructAssignment(e), e.clauses)
  {
    var x := ConstructAssignment(e);
    assert x[3] && x[4];
    assert !SatisfiesClause(x, e.clauses[1]);
  }

  /** A well-formed state whose clauses all have two literals or more has
      no unit candidate. */
  lemma NoUnits(e: Expression)
    requires Wf(e) && |e.clauses| == 3
    requires Len(e.clauses[0]) >= 2 && Len(e.clauses[1]) >= 2 && Len(e.clauses[2]) >= 2
    ensures e.unitClauses == {}
  {
  }

  /** `lit` is recorded under the single clause `d` and its negation under
      the single clause `c`. */
  predicate Crossed(e: Expression, lit: Literal, d: ClauseId, c: ClauseId) {
    && lit in e.literalToClause && e.literalToClause[lit] == {d}
    && Negate(lit) in e.literalToClause && e.literalToClause[Negate(lit)] == {c}
  }

  /** Assigning a variable whose true literal is recorded under the single
      clause `d` and whose false literal under the single clause `c`: only
      `c` loses a literal, and it becomes a unit candidate when one literal
      is left. */
  lemma CrossedAssign(e: Expression, v: Variable, value: bool, d: ClauseId, c: ClauseId)
    requires Wf(e) && Crossed(e, LiteralOf(v, value), d, c)
    ensures AssignOrders(e, v, value, [d], [c])
    ensures var r := Expressions.AssignVariable(e, v, value, [d], [c]);
      && Wf(r) && r.literalToClause == e.literalToClause && r.assignments == e.assignments[v := value]
      && c < |e.clauses| && r.clauses == e.clauses[c := Remove(e.clauses[c], Negate(LiteralOf(v, value)))]
      && (Len(r.clauses[c]) == 1 ==> c in r.unitClauses)
  {
    assert AssignOrders(e, v, value, [d], [c]);
    AssignVariableWf(e, v, value, [d], [c]);
    Backtrack.ReassignClauses(e, v, value, d, c);
    AssignUnitAt(e, v, value, d, c);
  }

  /** The literal-removal loop over the single clause `c` marks `c` as a
      unit candidate when one literal is left. */
  lemma AssignUnitAt(e: Expression, v: Variable, value: bool, d: ClauseId, c: ClauseId)
    requires Wf(e) && AssignOrders(e, v, value, [d], [c])
    requires Negate(LiteralOf(v, value)) in e.literalToClause && c in e.literalToClause[Negate(LiteralOf(v, value))]
    ensures var r := Expressions.AssignVariable(e, v, value, [d], [c]);
      c < |r.clauses| && (Len(r.clauses[c]) == 1 ==> c in r.unitClauses)
  {
    var lit := LiteralOf(v, value);
    var nl := Negate(lit);
    var e1 := RecordAssignment(e, v, value);
    var e2 := RemoveClausesWithLiteral(e1, lit, [d]);
    SingleRemovalUnit(e2, nl, c);
  }

  /** Removing a literal recorded under the single clause `c`. */
  lemma SingleRemovalUnit(e: Expression, l: Literal, c: ClauseId)
    requires IndexInRange(e) && l in e.literalToClause && Enumerates([c], e.literalToClause[l])
    ensures var r := RemoveLiteralFromClauses(e, l, [c]);
      c < |r.clauses| && (Len(r.clauses[c]) == 1 ==> c in r.unitClauses)
  {
    var f1 := e.(actions := Stacks.Push(e.actions, RemoveLiteralFromClausesStart));
    assert [c][0] in e.literalToClause[l];
    SingleLoop(f1, l, c);
  }

  /** The removal loop over the single clause `c` is one step. */
  lemma SingleLoop(e: Expression, l: Literal, c: ClauseId)
    requires c < |e.clauses|
    ensures RemoveLiteralLoop(e, l, [c]) == RemoveLiteralStep(e, l, c)
  {
    assert [c][..0] == [] && RemoveLiteralLoop(e, l, []) == e;
  }

  /** `(-1 or 2) and (-2 or 1)` as built: each literal is recorded under
      the one clause holding it. */
  lemma TwoClauseStart(a: Clause, b: Clause) returns (e0: Expression)
    requires a.literals == [-1, 2] && b.literals == [-2, 1]
    ensures e0 == FromClauses([a, b]) && Wf(e0) && e0.clauses == [a, b] && e0.assignments == map[]
    ensures Crossed(e0, 1, 1, 0) && Crossed(e0, 2, 0, 1)
  {
    TwoClauseBuilt(a, b);
    e0 := AddClause(AddClause(New(), a), b);
    CrossedSecond(a, b, 1);
    CrossedFirst(a, b, 2);
  }

  /** Built clause by clause or from the sequence, the two-clause
      expression is the same and well formed. */
  lemma TwoClauseBuilt(a: Clause, b: Clause)
    requires 0 !in a.literals && 0 !in b.literals
    ensures var e := AddClause(AddClause(New(), a), b);
      e == FromClauses([a, b]) && Wf(e)
  {
    FromClausesSnoc([a], b);
    FromClausesSnoc([], a);
    assert [a] + [b] == [a, b] && [] + [a] == [a];
    FromClausesWf([]);
    AddClauseWf(New(), a);
    AddClauseWf(AddClause(New(), a), b);
  }

  /** Of two clauses, the first holding `v` and the second its negation:
      `v` is recorded under clause 0 and its negation under clause 1. */
  lemma CrossedFirst(a: Clause, b: Clause, v: Literal)
    requires v in a.literals && v !in b.literals && Negate(v) in b.literals && Negate(v) !in a.literals
    ensures Crossed(AddClause(AddClause(New(), a), b), v, 0, 1)
  {
    AddClauseIndexAt(New(), a, v);
    AddClauseIndexAt(AddClause(New(), a), b, v);
    AddClauseIndexAt(New(), a, Negate(v));
    AddClauseIndexAt(AddClause(New(), a), b, Negate(v));
  }

  /** Of two clauses, the second holding `v` and the first its negation:
      `v` is recorded under clause 1 and its negation under clause 0. */
  lemma CrossedSecond(a: Clause, b: Clause, v: Literal)
    requires v in b.literals && v !in a.literals && Negate(v) in a.literals && Negate(v) !in b.literals
    ensures Crossed(AddClause(AddClause(New(), a), b), v, 1, 0)
  {
    AddClauseIndexAt(New(), a, v);
    AddClauseIndexAt(AddClause(New(), a), b, v);
    AddClauseIndexAt(New(), a, Negate(v));
    AddClauseIndexAt(AddClause(New(), a), b, Negate(v));
  }

  /** Deleting the first of two distinct literals leaves the second. */
  lemma RemoveFirstOfTwo(c: Clause, x: Literal, y: Literal)
    requires c.literals == [x, y] && x != y
    ensures Remove(c, x).literals == [y]
  {
    assert FirstIndex(c.literals, x) == 0;
  }

  /** The branch on 1: clause 1 is removed, -1 is deleted from clause 0,
      which is left as the unit clause `(2)`. */
  lemma BranchOnOne(e0: Expression, a: Clause, b: Clause) returns (e1: Expression)
    requires Wf(e0) && e0.clauses == [a, b] && a.literals == [-1, 2] && b.literals == [-2, 1]
    requires Crossed(e0, 1, 1, 0) && e0.assignments == map[]
    ensures AssignOrders(e0, 1, true, [1], [0]) && e1 == Expressions.AssignVariable(e0, 1, true, [1], [0])
    ensures Wf(e1) && e1.literalToClause == e0.literalToClause && e1.assignments == map[1 := true]
    ensures |e1.clauses| == 2 && e1.clauses[0].literals == [2] && e1.clauses[1] == b && 0 in e1.unitClauses
    ensures e1.numActiveClauses == e0.numActiveClauses - 1
  {
    CrossedAssign(e0, 1, true, 1, 0);
    AssignVariableCounters(e0, 1, true, [1], [0]);
    e1 := Expressions.AssignVariable(e0, 1, true, [1], [0]);
    RemoveFirstOfTwo(a, -1, 2);
  }

  /** Propagating the unit clause `(2)`: clause 0 is removed, -2 is deleted
      from clause 1, which is left as the unit clause `(1)`. */
  lemma PropagateTwo(e1: Expression) returns (e2: Expression)
    requires Wf(e1) && |e1.clauses| == 2 && e1.clauses[0].literals == [2] && e1.clauses[1].literals == [-2, 1]
    requires Crossed(e1, 2, 0, 1) && 0 in e1.unitClauses
    ensures LiteralOrders(e1, 2, [0], [1])
    ensures RemoveUnitClause(e1, 0, [0], [1]) == Success((Some(0), e2))
    ensures e2 == Expressions.AssignVariable(e1, 2, true, [0], [1])
    ensures Wf(e2) && e2.literalToClause == e1.literalToClause && e2.assignments == e1.assignments[2 := true]
    ensures |e2.clauses| == 2 && e2.clauses[0] == e1.clauses[0] && e2.clauses[1].literals == [1] && 1 in e2.unitClauses
    ensures e2.numActiveClauses == e1.numActiveClauses - 1
  {
    CrossedAssign(e1, 2, true, 0, 1);
    AssignVariableCounters(e1, 2, true, [0], [1]);
    e2 := Expressions.AssignVariable(e1, 2, true, [0], [1]);
    RemoveFirstOfTwo(e1.clauses[1], -2, 1);
    PositiveUnitStep(e1, 0, 2, [0], [1]);
  }

  /** Propagating the unit clause `c` whose one literal is the variable `v`
      assigns `v` true. */
  lemma PositiveUnitStep(e: Expression, c: ClauseId, v: Variable, o1: seq<ClauseId>, o2: seq<ClauseId>)
    requires Wf(e) && v > 0 && c < |e.clauses| && c in e.unitClauses && e.clauses[c].literals == [v as int]
    requires AssignOrders(e, v, true, o1, o2)
    ensures LiteralOrders(e, v as int, o1, o2)
    ensures RemoveUnitClause(e, c, o1, o2) == Success((Some(c), Expressions.AssignVariable(e, v, true, o1, o2)))
  {
  }

  /** Propagating the unit clause `(1)` assigns 1 again. */
  lemma PropagateOneAgain(e2: Expression) returns (e3: Expression)
    requires Wf(e2) && |e2.clauses| == 2 && e2.clauses[1].literals == [1]
    requires Crossed(e2, 1, 1, 0) && 1 in e2.unitClauses
    ensures LiteralOrders(e2, 1, [1], [0])
    ensures RemoveUnitClause(e2, 1, [1], [0]) == Success((Some(1), e3))
    ensures e3 == Expressions.AssignVariable(e2, 1, true, [1], [0])
  {
    assert AssignOrders(e2, 1, true, [1], [0]);
    e3 := Expressions.AssignVariable(e2, 1, true, [1], [0]);
    PositiveUnitStep(e2, 1, 1, [1], [0]);
  }

  /** `(2) and (1)`: the clauses of `(-1 or 2) and (-2 or 1)` once unit
      propagation has deleted -1 and -2, with every literal still recorded
      under the clause it came from. */
  ghost predicate CycleShape(e: Expression) {
    && Wf(e) && |e.clauses| == 2 && e.clauses[0].literals == [2] && e.clauses[1].literals == [1]
    && Crossed(e, 1, 1, 0) && Crossed(e, 2, 0, 1)
  }

  /** `remove_unit_clause` in the cycle shape. Whichever unit clause is
      taken, and in the only iteration order there is, its literal is made
      true again: the clause is removed once more, the absent negation is
      "deleted" from the other clause, which is therefore marked unit, and
      the active counter drops by one. The shape is kept, so the unit set is
      never found empty and the loop `while remove_unit_clause().is_some()`
      does not exit. */
  lemma UnitCycle(e: Expression, c: ClauseId) returns (r: Expression)
    requires CycleShape(e) && c in e.unitClauses
    ensures c < 2 && LiteralOrders(e, e.clauses[c].literals[0], [c], [1 - c])
    ensures RemoveUnitClause(e, c, [c], [1 - c]) == Success((Some(c), r))
    ensures CycleShape(r) && r.clauses == e.clauses && 1 - c in r.unitClauses
    ensures r.numActiveClauses == e.numActiveClauses - 1
  {
    CycleUnits(e, c);
    r := UnitCycleAt(e, c, 2 - c, 1 + c);
  }

  /** `UnitCycle` for the unit clause `c`, whose literal is `v`; the other
      clause's literal is `k`. */
  lemma UnitCycleAt(e: Expression, c: ClauseId, v: Variable, k: Literal) returns (r: Expression)
    requires CycleShape(e) && c in e.unitClauses
    requires (c == 0 && v == 2 && k == 1) || (c == 1 && v == 1 && k == 2)
    ensures e.clauses[c].literals[0] == v as int && LiteralOrders(e, v as int, [c], [1 - c])
    ensures RemoveUnitClause(e, c, [c], [1 - c]) == Success((Some(c), r))
    ensures CycleShape(r) && r.clauses == e.clauses && 1 - c in r.unitClauses
    ensures r.numActiveClauses == e.numActiveClauses - 1
  {
    r := CrossedNoop(e, v, c, 1 - c, k);
    PositiveUnitStep(e, c, v, [c], [1 - c]);
  }

  /** The unit clauses of the cycle shape are among its two clauses. */
  lemma CycleUnits(e: Expression, c: ClauseId)
    requires CycleShape(e) && c in e.unitClauses
    ensures c < 2
  {
  }

  /** Making `v` true when it is recorded under the single clause `d` and
      its negation under the single clause `c`, a one-literal clause that
      does not hold the negation: no clause changes, `c` is marked unit, and
      the active counter drops by one. */
  lemma CrossedNoop(e: Expression, v: Variable, d: ClauseId, c: ClauseId, k: Literal) returns (r: Expression)
    requires Wf(e) && v > 0 && Crossed(e, v as int, d, c)
    requires c < |e.clauses| && e.clauses[c].literals == [k] && k != -(v as int)
    ensures AssignOrders(e, v, true, [d], [c]) && r == Expressions.AssignVariable(e, v, true, [d], [c])
    ensures Wf(r) && r.clauses == e.clauses && r.literalToClause == e.literalToClause && c in r.unitClauses
    ensures r.numActiveClauses == e.numActiveClauses - 1
  {
    CrossedAssign(e, v, true, d, c);
    AssignVariableCounters(e, v, true, [d], [c]);
    r := Expressions.AssignVariable(e, v, true, [d], [c]);
    RemoveOther(e.clauses[c], k, -(v as int));
  }

  /** Deleting a literal from a one-literal clause without it changes
      nothing. */
  lemma RemoveOther(cl: Clause, k: Literal, x: Literal)
    requires cl.literals == [k] && x != k
    ensures Remove(cl, x) == cl
  {
    assert !Contains(cl, x);
  }

  /** Restoring the state after propagation to the log length right after
      the branch: the re-assignment's undo drops 1 and appends -1 to
      clause 0; the undo of the propagation of 2 then leaves both as they
      are. */
  lemma RestoreAfterBranch(e1: Expression, e2: Expression)
    requires Wf(e1) && Crossed(e1, 2, 0, 1) && AssignOrders(e1, 2, true, [0], [1])
    requires e2 == Expressions.AssignVariable(e1, 2, true, [0], [1])
    requires Wf(e2) && Crossed(e2, 1, 1, 0) && Crossed(e2, 2, 0, 1)
    requires |e2.clauses| == 2 && e2.clauses[0].literals == [2] && Len(e2.clauses[1]) == 1
    ensures AssignOrders(e2, 1, true, [1], [0])
    ensures var r := Restore(Expressions.AssignVariable(e2, 1, true, [1], [0]), |Log(e1)|);
      && r.Restored? && Log(r.e) == Log(e1)
      && r.e.assignments == e2.assignments - {1} - {2} && |r.e.clauses| == 2 && r.e.clauses[0].literals == [2, -1]
  {
    var e3 := Expressions.AssignVariable(e2, 1, true, [1], [0]);
    Backtrack.ReassignLog(e1, 2, true, 0, 1);
    var y := UndoReassignOne(e2);
    Backtrack.RestoreSplit(e3, |Log(e2)|, |Log(e1)|);
    UndoPropagateTwo(y, Log(e1));
  }

  /** The undo of the re-assignment of 1. */
  lemma UndoReassignOne(e2: Expression) returns (y: Expression)
    requires Wf(e2) && Crossed(e2, 1, 1, 0) && |e2.clauses| == 2 && e2.clauses[0].literals == [2]
    ensures AssignOrders(e2, 1, true, [1], [0])
    ensures Restore(Expressions.AssignVariable(e2, 1, true, [1], [0]), |Log(e2)|) == Restored(y)
    ensures Log(y) == Log(e2) && y.assignments == e2.assignments - {1}
    ensures y.clauses == e2.clauses[0 := Clause([2, -1])] && y.literalToClause.Keys == e2.literalToClause.Keys
  {
    Backtrack.ReassignUndo(e2, 1, true, 1, 0);
    y := Restore(Expressions.AssignVariable(e2, 1, true, [1], [0]), |Log(e2)|).e;
    ReappendAbsent(e2.clauses[0]);
  }

  /** Deleting the absent -1 from `(2)` and appending it gives `(2 or -1)`. */
  lemma ReappendAbsent(c: Clause)
    requires c.literals == [2]
    ensures Insert(Remove(c, -1), -1) == Clause([2, -1])
  {
    assert !Contains(c, -1);
  }

  /** The undo of the propagation of 2, down to the log `log` the branch
      left. */
  lemma UndoPropagateTwo(y: Expression, log: seq<Action>)
    requires Log(y) == log + [Action.AssignVariable(2), Action.RemoveClause(0), RemoveLiteralFromClausesStart,
                              RemoveLiteralFromClause(1), RemoveLiteralFromClausesEnd(-2)]
    requires -2 in y.literalToClause && 2 in y.literalToClause && -1 in y.literalToClause
    requires |y.clauses| == 2 && Len(y.clauses[1]) == 1 && y.clauses[0].literals == [2, -1]
    ensures var r := Restore(y, |log|);
      && r.Restored? && Log(r.e) == log
      && r.e.assignments == y.assignments - {2} && |r.e.clauses| == 2 && r.e.clauses[0] == y.clauses[0]
  {
    Backtrack.SingleClauseAssignUndo(y, 2, 0, -2, 1, log);
  }

  /** Unit propagation after a branch, on `(-1 or 2) and (-2 or 1)`.
      Branching on 1 leaves the unit clause `(2)`; propagating it leaves
      the removed clause `(1)` unit, and propagating that assigns 1 a second
      time. The active counter is then -1 and `(2)` is unit again: the
      state is in the `UnitCycle` shape, so the unit loop of `solve_dpll`
      never exits and the search never restores. The last ensures states
      what the model's `Restore` would make of that state if it were
      restored to the log length right after the branch: 1 is dropped from
      the assignments although the branch had assigned it, and -1 is
      appended to clause 0, from which the branch had deleted it. */
  lemma ReassignedRestore(a: Clause, b: Clause) returns (e0: Expression, e1: Expression, e2: Expression, e3: Expression)
    requires a.literals == [-1, 2] && b.literals == [-2, 1]
    ensures e0 == FromClauses([a, b]) && Wf(e0) && e0.assignments == map[]
    ensures AssignOrders(e0, 1, true, [1], [0]) && e1 == Expressions.AssignVariable(e0, 1, true, [1], [0])
    ensures Wf(e1) && |e1.clauses| == 2 && e1.clauses[0].literals == [2] && 0 in e1.unitClauses
    ensures LiteralOrders(e1, 2, [0], [1]) && RemoveUnitClause(e1, 0, [0], [1]) == Success((Some(0), e2))
    ensures Wf(e2) && |e2.clauses| == 2 && e2.clauses[1].literals == [1] && 1 in e2.unitClauses
    ensures LiteralOrders(e2, 1, [1], [0]) && RemoveUnitClause(e2, 1, [1], [0]) == Success((Some(1), e3))
    ensures 1 in e2.assignments && e1.assignments == map[1 := true]
    ensures CycleShape(e3) && e3.numActiveClauses == -1 && 0 in e3.unitClauses
    ensures var r := Restore(e3, |Log(e1)|);
      && r.Restored? && Log(r.e) == Log(e1)
      && 1 !in r.e.assignments && |r.e.clauses| == 2 && r.e.clauses[0].literals == [2, -1]
  {
    e0 := TwoClauseStart(a, b);
    e1 := BranchOnOne(e0, a, b);
    e2, e3 := PropagateAndRestore(e1);
  }

  /** Everything after the branch in `ReassignedRestore`. */
  lemma PropagateAndRestore(e1: Expression) returns (e2: Expression, e3: Expression)
    requires Wf(e1) && |e1.clauses| == 2 && e1.clauses[0].literals == [2] && e1.clauses[1].literals == [-2, 1]
    requires Crossed(e1, 1, 1, 0) && Crossed(e1, 2, 0, 1) && 0 in e1.unitClauses && e1.assignments == map[1 := true]
    ensures LiteralOrders(e1, 2, [0], [1]) && RemoveUnitClause(e1, 0, [0], [1]) == Success((Some(0), e2))
    ensures Wf(e2) && |e2.clauses| == 2 && e2.clauses[1].literals == [1] && 1 in e2.unitClauses
    ensures LiteralOrders(e2, 1, [1], [0]) && RemoveUnitClause(e2, 1, [1], [0]) == Success((Some(1), e3))
    ensures 1 in e2.assignments
    ensures CycleShape(e2) && CycleShape(e3) && 0 in e3.unitClauses && e3.numActiveClauses == e1.numActiveClauses - 2
    ensures var r := Restore(e3, |Log(e1)|);
      && r.Restored? && Log(r.e) == Log(e1)
      && 1 !in r.e.assignments && |r.e.clauses| == 2 && r.e.clauses[0].literals == [2, -1]
  {
    e2 := PropagateTwo(e1);
    e3 := PropagateOneAgain(e2);
    EnterCycle(e1, e2);
    var r := UnitCycle(e2, 1);
    RestoreAfterBranch(e1, e2);
  }

  /** Unit propagation of 2 leaves the cycle shape. */
  lemma EnterCycle(e1: Expression, e2: Expression)
    requires Crossed(e1, 1, 1, 0) && Crossed(e1, 2, 0, 1)
    requires Wf(e2) && e2.literalToClause == e1.literalToClause
    requires |e1.clauses| == 2 && e1.clauses[0].literals == [2]
    requires |e2.clauses| == 2 && e2.clauses[0] == e1.clauses[0] && e2.clauses[1].literals == [1]
    ensures CycleShape(e2)
  {
  }
}

=== FILE: expression.dfy ===
/** The solver's mutable formula: clauses that shrink as variables are
    assigned, an index from literals to the clauses that mention them, the
    unit and pure candidates, two counters, and an undo log that lets the
    search backtrack. Every operation is a function from state to state. */
module Expressions {
  import opened Wrappers
  import opened Cnf
  import Stacks

  datatype SolverHeuristic = MostLiteralOccurrences | MostVariableOccurrences | MinimizeClauseLength

  datatype Expression = Expression(
    clauses: seq<Clause>,
    variables: set<Variable>,
    actions: Stacks.Stack<Action>,
    assignments: map<Variable, bool>,
    literalToClause: map<Literal, set<ClauseId>>,
    unitClauses: set<ClauseId>,
    pureLiterals: set<Literal>,
    // `u16` in the source; kept unbounded so that a decrement below zero is visible.
    numActiveClauses: int,
    numEmptyClauses: nat,
    maxClauseLength: nat,
    heuristic: SolverHeuristic)

  function New(): (e: Expression)
    ensures e.clauses == [] && e.variables == {} && e.assignments == map[]
    ensures e.literalToClause == map[] && Stacks.IsEmpty(e.actions)
    ensures e.numActiveClauses == 0 && e.numEmptyClauses == 0
  {
    Expression([], {}, Stacks.New(), map[], map[], {}, {}, 0, 0, 0, MostLiteralOccurrences)
  }

  /** The undo log as a sequence, oldest entry first. */
  function Log(e: Expression): seq<Action> {
    e.actions.items
  }

  /** The literal that is true when `v` takes `value`. */
  function LiteralOf(v: Variable, value: bool): Literal {
    if value then v as int else -(v as int)
  }

  /** `l` is indexed and at least one clause is recorded under it. */
  predicate HasInstances(e: Expression, l: Literal) {
    l in e.literalToClause && e.literalToClause[l] != {}
  }

  /** Index entries point at existing clauses. */
  ghost predicate IndexInRange(e: Expression) {
    forall l, c | l in e.literalToClause && c in e.literalToClause[l] :: c < |e.clauses|
  }

  /** Every literal of a clause is indexed under that clause. */
  ghost predicate ClausesIndexed(e: Expression) {
    forall c, l | 0 <= c < |e.clauses| && l in e.clauses[c].literals ::
      l in e.literalToClause && c in e.literalToClause[l]
  }

  /** A literal's negation is indexed with it, and zero is never a literal. */
  ghost predicate PolaritiesIndexed(e: Expression) {
    && (forall l | l in e.literalToClause :: Negate(l) in e.literalToClause)
    && 0 !in e.literalToClause
  }

  /** The variables are exactly those of the indexed literals. */
  ghost predicate VariablesIndexed(e: Expression) {
    e.variables == (set l | l in e.literalToClause :: ToVariable(l))
  }

  /** Unit candidates are clauses with exactly one literal. */
  ghost predicate UnitsAreUnit(e: Expression) {
    forall c | c in e.unitClauses :: c < |e.clauses| && Len(e.clauses[c]) == 1
  }

  /** The representation invariant `add_clause` establishes and every
      operation keeps. */
  ghost predicate Wf(e: Expression) {
    && IndexInRange(e)
    && ClausesIndexed(e)
    && PolaritiesIndexed(e)
    && UnitsAreUnit(e)
    && VariablesIndexed(e)
  }

  /** Literals of unassigned variables have not been removed from the
      clauses indexed under them. This is what makes every logged literal
      removal a real one, which backtracking relies on. */
  ghost predicate Inv(e: Expression) {
    forall l, c | l in e.literalToClause && c in e.literalToClause[l] && ToVariable(l) !in e.assignments ::
      c < |e.clauses| ==> l in e.clauses[c].literals
  }

  /** A sequence lists every element of a set exactly once: one possible
      iteration order of a hash set. */
  predicate Enumerates<T(==)>(o: seq<T>, s: set<T>) {
    && (forall i, j | 0 <= i < j < |o| :: o[i] != o[j])
    && (forall i | 0 <= i < |o| :: o[i] in s)
    && (forall c | c in s :: c in o)
  }

  /** `check_pure_literal`: re-decides the purity of `l` and of its negation
      from the index; other literals keep their status. */
  function CheckPureLiteral(e: Expression, l: Literal): (r: Expression)
    ensures r == e.(pureLiterals := r.pureLiterals)
    ensures l in r.pureLiterals <==> HasInstances(e, l) && !HasInstances(e, Negate(l))
    ensures Negate(l) in r.pureLiterals <==> HasInstances(e, Negate(l)) && !HasInstances(e, l)
    ensures !(l in r.pureLiterals && Negate(l) in r.pureLiterals)
    ensures forall k | k != l && k != Negate(l) :: k in r.pureLiterals <==> k in e.pureLiterals
  {
    var n := Negate(l);
    var has := HasInstances(e, l);
    var negHas := HasInstances(e, n);
    if has && !negHas then
      e.(pureLiterals := e.pureLiterals + {l} - {n})
    else if !has && negHas then
      e.(pureLiterals := e.pureLiterals + {n} - {l})
    else
      e.(pureLiterals := e.pureLiterals - {l, n})
  }

  /** The clauses recorded under `k`, none when `k` is not indexed. */
  function Entry(m: map<Literal, set<ClauseId>>, k: Literal): set<ClauseId> {
    if k in m then m[k] else {}
  }

  /** The index after recording clause `id` under `l`, with empty entries
      created for `l` and its negation if they were missing. */
  function IndexLiteral(m: map<Literal, set<ClauseId>>, l: Literal, id: ClauseId): map<Literal, set<ClauseId>> {
    var m1 := if l in m then m else m[l := {}];
    var m2 := if Negate(l) in m1 then m1 else m1[Negate(l) := {}];
    m2[l := m2[l] + {id}]
  }

  /** The index after recording clause `id` under each literal of `lits`. */
  function IndexLiterals(m: map<Literal, set<ClauseId>>, lits: seq<Literal>, id: ClauseId): map<Literal, set<ClauseId>>
    decreases |lits|
  {
    if |lits| == 0 then m else IndexLiterals(IndexLiteral(m, lits[0], id), lits[1..], id)
  }

  /** Recording a clause under `lits` indexes exactly the literals of `lits`
      and their negations, and adds the clause to the entries of exactly
      the literals of `lits`. */
  lemma {:induction false} IndexLiteralsAt(m: map<Literal, set<ClauseId>>, lits: seq<Literal>, id: ClauseId, k: Literal)
    ensures k in IndexLiterals(m, lits, id) <==> k in m || k in lits || Negate(k) in lits
    ensures Entry(IndexLiterals(m, lits, id), k) == Entry(m, k) + (if k in lits then {id} else {})
    decreases |lits|
  {
    if |lits| > 0 {
      IndexLiteralsAt(IndexLiteral(m, lits[0], id), lits[1..], id, k);
      assert k in lits <==> k == lits[0] || k in lits[1..];
      assert Negate(k) in lits <==> Negate(k) == lits[0] || Negate(k) in lits[1..];
      NegateInvolution(k);
    }
  }

  /** The variables the literals of `lits` refer to. */
  function VariablesOf(lits: seq<Literal>): (vs: set<Variable>)
    ensures forall v :: v in vs <==> exists l :: l in lits && ToVariable(l) == v
  {
    if |lits| == 0 then {}
    else
      assert forall k :: k in lits <==> k == lits[0] || k in lits[1..];
      {ToVariable(lits[0])} + VariablesOf(lits[1..])
  }

  /** The per-literal loop of `add_clause`. */
  function AddLiterals(e: Expression, lits: seq<Literal>, id: ClauseId): (r: Expression)
    ensures r == e.(variables := r.variables, literalToClause := r.literalToClause, pureLiterals := r.pureLiterals)
    ensures r.variables == e.variables + VariablesOf(lits)
    decreases |lits|
  {
    if |lits| == 0 then e
    else
      var l := lits[0];
      var e1 := e.(variables := e.variables + {ToVariable(l)},
                   literalToClause := IndexLiteral(e.literalToClause, l, id));
      AddLiterals(CheckPureLiteral(e1, l), lits[1..], id)
  }

  /** The loop of `add_clause` leaves the index of `IndexLiterals`. */
  lemma {:induction false} AddLiteralsIndex(e: Expression, lits: seq<Literal>, id: ClauseId)
    ensures AddLiterals(e, lits, id).literalToClause == IndexLiterals(e.literalToClause, lits, id)
    decreases |lits|
  {
    if |lits| > 0 {
      var l := lits[0];
      var e1 := e.(variables := e.variables + {ToVariable(l)},
                   literalToClause := IndexLiteral(e.literalToClause, l, id));
      AddLiteralsIndex(CheckPureLiteral(e1, l), lits[1..], id);
    }
  }

  /** Both polarities of a literal are pure exactly when that polarity has
      index entries and the other has none. */
  predicate PurityDecided(e: Expression, l: Literal) {
    && (l in e.pureLiterals <==> HasInstances(e, l) && !HasInstances(e, Negate(l)))
    && (Negate(l) in e.pureLiterals <==> HasInstances(e, Negate(l)) && !HasInstances(e, l))
  }

  /** After the loop of `add_clause`, every literal of the clause has its
      purity (and its negation's) decided from the final index. */
  lemma {:induction false} AddLiteralsPurity(e: Expression, lits: seq<Literal>, id: ClauseId)
    ensures forall l | l in lits :: PurityDecided(AddLiterals(e, lits, id), l)
    decreases |lits|
  {
    if |lits| > 0 {
      var l := lits[0];
      var e1 := e.(variables := e.variables + {ToVariable(l)},
                   literalToClause := IndexLiteral(e.literalToClause, l, id));
      var e2 := CheckPureLiteral(e1, l);
      var r := AddLiterals(e2, lits[1..], id);
      assert r == AddLiterals(e, lits, id);
      AddLiteralsPurity(e2, lits[1..], id);
      if l !in lits[1..] {
        NegateInvolution(l);
        if Negate(l) !in lits[1..] {
          // Neither polarity is touched later: the check made for `l` stands.
          AddLiteralsIndex(e2, lits[1..], id);
          IndexLiteralsAt(e2.literalToClause, lits[1..], id, l);
          IndexLiteralsAt(e2.literalToClause, lits[1..], id, Negate(l));
          AddLiteralsFrame(e2, lits[1..], id);
          assert HasInstances(r, l) == HasInstances(e2, l);
          assert HasInstances(r, Negate(l)) == HasInstances(e2, Negate(l));
          assert PurityDecided(r, l);
        } else {
          // The later check of the negation re-decides both polarities.
          assert PurityDecided(r, Negate(l));
        }
      }
      assert forall k :: k in lits <==> k == l || k in lits[1..];
    }
  }

  /** Literals the loop of `add_clause` does not touch keep their purity. */
  lemma {:induction false} AddLiteralsFrame(e: Expression, lits: seq<Literal>, id: ClauseId)
    ensures var r := AddLiterals(e, lits, id);
      forall k | k !in lits && Negate(k) !in lits :: k in r.pureLiterals <==> k in e.pureLiterals
    decreases |lits|
  {
    if |lits| > 0 {
      var l := lits[0];
      var e1 := e.(variables := e.variables + {ToVariable(l)},
                   literalToClause := IndexLiteral(e.literalToClause, l, id));
      AddLiteralsFrame(CheckPureLiteral(e1, l), lits[1..], id);
      forall k | k !in lits && Negate(k) !in lits
        ensures k != l && k != Negate(l)
      {
        NegateInvolution(k);
      }
    }
  }

  /** `add_clause`: appends the clause under the next id, indexes its
      literals, refreshes their purity, and updates the unit set, the
      running maximum length and the active counter. */
  function AddClause(e: Expression, clause: Clause): (r: Expression)
    ensures r.clauses == e.clauses + [clause]
    ensures r.variables == e.variables + VariablesOf(clause.literals)
    ensures r.numActiveClauses == e.numActiveClauses + 1
    ensures r.numEmptyClauses == e.numEmptyClauses
    ensures r.unitClauses == e.unitClauses + (if Len(clause) == 1 then {|e.clauses|} else {})
    ensures r.maxClauseLength == (if Len(clause) > e.maxClauseLength then Len(clause) else e.maxClauseLength)
    ensures r.assignments == e.assignments && r.actions == e.actions
  {
    var id := |e.clauses|;
    var e1 := AddLiterals(e, clause.literals, id);
    e1.(unitClauses := if Len(clause) == 1 then e1.unitClauses + {id} else e1.unitClauses,
        maxClauseLength := if Len(clause) > e1.maxClauseLength then Len(clause) else e1.maxClauseLength,
        clauses := e1.clauses + [clause],
        numActiveClauses := e1.numActiveClauses + 1)
  }

  /** The index after `add_clause`, literal by literal: the clause's
      literals and their negations become indexed, and the new id (the
      previous clause count) is recorded under exactly the clause's literals. */
  lemma AddClauseIndexAt(e: Expression, clause: Clause, k: Literal)
    ensures var r := AddClause(e, clause);
      && (k in r.literalToClause <==> k in e.literalToClause || k in clause.literals || Negate(k) in clause.literals)
      && Entry(r.literalToClause, k) == Entry(e.literalToClause, k) + (if k in clause.literals then {|e.clauses|} else {})
  {
    AddLiteralsIndex(e, clause.literals, |e.clauses|);
    IndexLiteralsAt(e.literalToClause, clause.literals, |e.clauses|, k);
  }

  /** After `add_clause` the purity of each of the clause's literals is
      decided afresh from the index. */
  lemma AddClausePurity(e: Expression, clause: Clause)
    ensures forall l | l in clause.literals :: PurityDecided(AddClause(e, clause), l)
  {
    AddLiteralsPurity(e, clause.literals, |e.clauses|);
  }

  /** A literal `add_clause` does not touch, in either polarity, keeps its
      purity. */
  lemma AddClausePureFrame(e: Expression, clause: Clause, k: Literal)
    requires k !in clause.literals && Negate(k) !in clause.literals
    ensures k in AddClause(e, clause).pureLiterals <==> k in e.pureLiterals
  {
    AddLiteralsFrame(e, clause.literals, |e.clauses|);
  }

  lemma AddClauseIndexInRange(e: Expression, clause: Clause)
    requires IndexInRange(e)
    ensures IndexInRange(AddClause(e, clause))
  {
    var r := AddClause(e, clause);
    forall l, c | l in r.literalToClause && c in r.literalToClause[l]
      ensures c < |r.clauses|
    {
      AddClauseIndexAt(e, clause, l);
    }
  }

  /** Appending a clause whose literals are all indexed with its new id,
      to an index that only grows, keeps every clause indexed. */
  lemma IndexedAfterAppend(cs: seq<Clause>, clause: Clause, m: map<Literal, set<ClauseId>>, m': map<Literal, set<ClauseId>>)
    requires forall c, l | 0 <= c < |cs| && l in cs[c].literals :: l in m && c in m[l]
    requires forall k | k in clause.literals :: k in m' && |cs| in m'[k]
    requires forall k | k in m :: k in m' && m[k] <= m'[k]
    ensures forall c, l | 0 <= c < |cs + [clause]| && l in (cs + [clause])[c].literals :: l in m' && c in m'[l]
  {
    forall c, l | 0 <= c < |cs + [clause]| && l in (cs + [clause])[c].literals
      ensures l in m' && c in m'[l]
    {
      if c < |cs| {
        assert (cs + [clause])[c] == cs[c];
      }
    }
  }

  lemma AddClauseClausesIndexed(e: Expression, clause: Clause)
    requires ClausesIndexed(e)
    ensures ClausesIndexed(AddClause(e, clause))
  {
    var r := AddClause(e, clause);
    var m, m' := e.literalToClause, r.literalToClause;
    forall k | k in clause.literals
      ensures k in m' && |e.clauses| in m'[k]
    {
      AddClauseIndexAt(e, clause, k);
    }
    forall k | k in m
      ensures k in m' && m[k] <= m'[k]
    {
      AddClauseIndexAt(e, clause, k);
    }
    IndexedAfterAppend(e.clauses, clause, m, m');
  }

  lemma AddClausePolarities(e: Expression, clause: Clause)
    requires PolaritiesIndexed(e) && 0 !in clause.literals
    ensures PolaritiesIndexed(AddClause(e, clause))
  {
    var r := AddClause(e, clause);
    forall l | l in r.literalToClause
      ensures Negate(l) in r.literalToClause
    {
      AddClauseIndexAt(e, clause, l);
      AddClauseIndexAt(e, clause, Negate(l));
      NegateInvolution(l);
    }
    AddClauseIndexAt(e, clause, 0);
  }

  lemma AddClauseVariables(e: Expression, clause: Clause)
    requires VariablesIndexed(e)
    ensures VariablesIndexed(AddClause(e, clause))
  {
    var r := AddClause(e, clause);
    forall v | v in r.variables
      ensures exists l :: l in r.literalToClause && ToVariable(l) == v
    {
      if v in e.variables {
        var l :| l in e.literalToClause && ToVariable(l) == v;
        AddClauseIndexAt(e, clause, l);
      } else {
        var l :| l in clause.literals && ToVariable(l) == v;
        AddClauseIndexAt(e, clause, l);
      }
    }
    forall l | l in r.literalToClause
      ensures ToVariable(l) in r.variables
    {
      AddClauseIndexAt(e, clause, l);
      if l !in e.literalToClause && l !in clause.literals {
        assert ToVariable(l) == ToVariable(Negate(l));
      }
    }
  }

  /** `add_clause` keeps the representation invariant when the clause has
      no zero literal. */
  lemma AddClauseWf(e: Expression, clause: Clause)
    ensures Wf(e) && 0 !in clause.literals ==> Wf(AddClause(e, clause))
  {
    if Wf(e) && 0 !in clause.literals {
      AddClauseIndexInRange(e, clause);
      AddClauseClausesIndexed(e, clause);
      AddClausePolarities(e, clause);
      AddClauseVariables(e, clause);
    }
  }

  /** A new clause holds all its literals, so `Inv` survives `add_clause`. */
  lemma AddClauseInv(e: Expression, clause: Clause)
    ensures Inv(e) && IndexInRange(e) ==> Inv(AddClause(e, clause))
  {
    if Inv(e) && IndexInRange(e) {
      var r := AddClause(e, clause);
      forall l, c | l in r.literalToClause && c in r.literalToClause[l] && ToVariable(l) !in r.assignments && c < |r.clauses|
        ensures l in r.clauses[c].literals
      {
        AddClauseIndexAt(e, clause, l);
        if c < |e.clauses| {
          assert l in e.literalToClause && c in e.literalToClause[l];
        } else {
          assert c !in Entry(e.literalToClause, l);
        }
      }
    }
  }

  /** `Expression::from_clauses`: the clauses added in order to an empty expression. */
  function FromClauses(cs: seq<Clause>): (r: Expression)
    ensures r.clauses == cs
    ensures r.numActiveClauses == |cs| && r.numEmptyClauses == 0
    ensures r.assignments == map[] && Stacks.IsEmpty(r.actions)
  {
    if |cs| == 0 then New()
    else
      assert cs == cs[..|cs| - 1] + [cs[|cs| - 1]];
      AddClause(FromClauses(cs[..|cs| - 1]), cs[|cs| - 1])
  }

  /** Built from clauses without a zero literal, the expression satisfies
      the representation invariant. */
  lemma {:induction false} FromClausesWf(cs: seq<Clause>)
    requires forall i | 0 <= i < |cs| :: 0 !in cs[i].literals
    ensures Wf(FromClauses(cs))
  {
    if |cs| > 0 {
      FromClausesWf(cs[..|cs| - 1]);
      AddClauseWf(FromClauses(cs[..|cs| - 1]), cs[|cs| - 1]);
    }
  }

  /** A freshly built expression has every literal in the clauses indexed
      under it. */
  lemma {:induction false} FromClausesInv(cs: seq<Clause>)
    ensures Inv(FromClauses(cs)) && IndexInRange(FromClauses(cs))
  {
    if |cs| > 0 {
      var e := FromClauses(cs[..|cs| - 1]);
      FromClausesInv(cs[..|cs| - 1]);
      AddClauseInv(e, cs[|cs| - 1]);
      AddClauseIndexInRange(e, cs[|cs| - 1]);
    }
  }

  /** The literals that `remove_clause` newly marks pure: the negation of
      each literal of the clause whose index entry is empty, when the
      negation has no entries either. */
  function NewlyPure(e: Expression, lits: seq<Literal>): set<Literal>
    requires forall l | l in lits :: l in e.literalToClause
  {
    set l | l in lits && e.literalToClause[l] == {} && !HasInstances(e, Negate(l)) :: Negate(l)
  }

  /** `remove_clause`: soft removal. The active counter drops, the clause
      leaves the unit set and the removal is logged. The index is left as
      it is, although the source's doc comment says the references are
      dropped. */
  function RemoveClause(e: Expression, c: ClauseId): (r: Expression)
    requires c < |e.clauses|
    requires forall l | l in e.clauses[c].literals :: l in e.literalToClause
    ensures r.numActiveClauses == e.numActiveClauses - 1
    ensures r.unitClauses == e.unitClauses - {c}
    ensures Log(r) == Log(e) + [Action.RemoveClause(c)]
    ensures r.literalToClause == e.literalToClause
    ensures r.clauses == e.clauses && r.assignments == e.assignments
    ensures r.numEmptyClauses == e.numEmptyClauses && r.variables == e.variables
    ensures e.pureLiterals <= r.pureLiterals
  {
    e.(pureLiterals := e.pureLiterals + NewlyPure(e, e.clauses[c].literals),
       numActiveClauses := e.numActiveClauses - 1,
       unitClauses := e.unitClauses - {c},
       actions := Stacks.Push(e.actions, Action.RemoveClause(c)))
  }

  /** While every literal of a clause is indexed under it, no index entry
      of its literals is empty, so the purity update of `remove_clause`
      never fires. */
  lemma RemoveClauseKeepsPurity(e: Expression, c: ClauseId)
    requires ClausesIndexed(e) && c < |e.clauses|
    ensures RemoveClause(e, c).pureLiterals == e.pureLiterals
  {
    assert NewlyPure(e, e.clauses[c].literals) == {};
  }

  /** The log entries of removing the clauses of `o`, in order. */
  function RemoveClauseEntries(o: seq<ClauseId>): (a: seq<Action>)
    ensures |a| == |o|
    ensures forall i | 0 <= i < |o| :: a[i] == Action.RemoveClause(o[i])
  {
    if |o| == 0 then [] else RemoveClauseEntries(o[..|o| - 1]) + [Action.RemoveClause(o[|o| - 1])]
  }

  /** The loop of `remove_clauses_with_literal` over one iteration order. */
  function RemoveClauses(e: Expression, o: seq<ClauseId>): (r: Expression)
    requires ClausesIndexed(e)
    requires forall i | 0 <= i < |o| :: o[i] < |e.clauses|
    ensures r.numActiveClauses == e.numActiveClauses - |o|
    ensures r.unitClauses == e.unitClauses - (set c | c in o)
    ensures Log(r) == Log(e) + RemoveClauseEntries(o)
    ensures r.literalToClause == e.literalToClause && r.clauses == e.clauses
    ensures r.assignments == e.assignments && r.pureLiterals == e.pureLiterals
    ensures r.numEmptyClauses == e.numEmptyClauses && r.variables == e.variables
    ensures ClausesIndexed(r)
    decreases |o|
  {
    if |o| == 0 then e
    else
      var o', c := o[..|o| - 1], o[|o| - 1];
      var e1 := RemoveClauses(e, o');
      RemoveClauseKeepsPurity(e1, c);
      var r := RemoveClause(e1, c);
      assert o == o' + [c];
      UnitsAfterSnoc(e.unitClauses, e1.unitClauses, o, o', c);
      EntriesAfterSnoc(Log(e), o);
      IndexedSame(e1, r);
      r
  }

  /** The unit set after removing one more id `c`. */
  lemma UnitsAfterSnoc(u: set<ClauseId>, u1: set<ClauseId>, o: seq<ClauseId>, o': seq<ClauseId>, c: ClauseId)
    requires o == o' + [c] && u1 == u - (set d | d in o')
    ensures u1 - {c} == u - (set d | d in o)
  {
    var s, s' := set d | d in o, set d | d in o';
    forall x
      ensures x in s <==> x in s' || x == c
    {
      assert x in o <==> x in o' || x == c;
    }
  }

  /** The log entries after removing the last id of `o` as well. */
  lemma EntriesAfterSnoc(log: seq<Action>, o: seq<ClauseId>)
    requires |o| > 0
    ensures log + RemoveClauseEntries(o) == log + RemoveClauseEntries(o[..|o| - 1]) + [Action.RemoveClause(o[|o| - 1])]
  {
  }

  /** Being indexed depends only on the clauses and the index. */
  lemma IndexedSame(a: Expression, b: Expression)
    requires ClausesIndexed(a) && a.clauses == b.clauses && a.literalToClause == b.literalToClause
    ensures ClausesIndexed(b)
  {
  }

  /** `remove_clauses_with_literal`: every clause indexed under `l` is
      removed, whether or not it had been removed before. */
  function RemoveClausesWithLiteral(e: Expression, l: Literal, o: seq<ClauseId>): (r: Expression)
    requires ClausesIndexed(e) && IndexInRange(e)
    requires l in e.literalToClause ==> Enumerates(o, e.literalToClause[l])
    ensures l in e.literalToClause ==> r == RemoveClauses(e, o)
    ensures l !in e.literalToClause ==> r == e
  {
    if l !in e.literalToClause then e else RemoveClauses(e, o)
  }

  /** One iteration of `remove_literal_from_clauses` on clause `c`. */
  function RemoveLiteralStep(e: Expression, l: Literal, c: ClauseId): (r: Expression)
    requires c < |e.clauses|
    ensures r.clauses == e.clauses[c := Remove(e.clauses[c], l)]
    ensures Log(r) == Log(e) + [RemoveLiteralFromClause(c)]
    ensures Len(r.clauses[c]) == 1 ==> c in r.unitClauses
    ensures Len(r.clauses[c]) == 0 ==> c !in r.unitClauses && r.numEmptyClauses == e.numEmptyClauses + 1
    ensures Len(r.clauses[c]) != 0 ==> r.numEmptyClauses == e.numEmptyClauses
    ensures r.unitClauses - {c} == e.unitClauses - {c}
    ensures r.literalToClause == e.literalToClause && r.assignments == e.assignments
    ensures r.numActiveClauses == e.numActiveClauses && r.variables == e.variables
    ensures r.pureLiterals == e.pureLiterals
  {
    var clause := Remove(e.clauses[c], l);
    var units := if Len(clause) == 1 then e.unitClauses + {c} else e.unitClauses;
    e.(clauses := e.clauses[c := clause],
       unitClauses := if IsEmpty(clause) then units - {c} else units,
       numEmptyClauses := if IsEmpty(clause) then e.numEmptyClauses + 1 else e.numEmptyClauses,
       actions := Stacks.Push(e.actions, RemoveLiteralFromClause(c)))
  }

  /** The log entries of removing a literal from the clauses of `o`. */
  function RemoveLiteralEntries(o: seq<ClauseId>): (a: seq<Action>)
    ensures |a| == |o|
    ensures forall i | 0 <= i < |o| :: a[i] == RemoveLiteralFromClause(o[i])
  {
    if |o| == 0 then [] else RemoveLiteralEntries(o[..|o| - 1]) + [RemoveLiteralFromClause(o[|o| - 1])]
  }

  /** The loop of `remove_literal_from_clauses` over one iteration order. */
  function RemoveLiteralLoop(e: Expression, l: Literal, o: seq<ClauseId>): (r: Expression)
    requires forall i | 0 <= i < |o| :: o[i] < |e.clauses|
    ensures |r.clauses| == |e.clauses|
    ensures forall c | 0 <= c < |e.clauses| && c !in o :: r.clauses[c] == e.clauses[c]
    ensures Log(r) == Log(e) + RemoveLiteralEntries(o)
    ensures r.literalToClause == e.literalToClause && r.assignments == e.assignments
    ensures r.numActiveClauses == e.numActiveClauses && r.variables == e.variables
    ensures r.numEmptyClauses >= e.numEmptyClauses
    ensures r.pureLiterals == e.pureLiterals
    decreases |o|
  {
    if |o| == 0 then e
    else RemoveLiteralStep(RemoveLiteralLoop(e, l, o[..|o| - 1]), l, o[|o| - 1])
  }

  /** The log block of removing `l` from the clauses of `o`. */
  function BlockEntries(l: Literal, o: seq<ClauseId>): (a: seq<Action>)
    ensures |a| == |o| + 2
    ensures a[0] == RemoveLiteralFromClausesStart && a[|a| - 1] == RemoveLiteralFromClausesEnd(l)
    ensures a[1..|a| - 1] == RemoveLiteralEntries(o)
  {
    [RemoveLiteralFromClausesStart] + RemoveLiteralEntries(o) + [RemoveLiteralFromClausesEnd(l)]
  }

  /** `remove_literal_from_clauses`: when `l` is indexed, deletes it from
      every clause indexed under it, inside a `Start ... End(l)` log block. */
  function RemoveLiteralFromClauses(e: Expression, l: Literal, o: seq<ClauseId>): (r: Expression)
    requires IndexInRange(e)
    requires l in e.literalToClause ==> Enumerates(o, e.literalToClause[l])
    ensures l !in e.literalToClause ==> r == e
    ensures l in e.literalToClause ==> Log(r) == Log(e) + BlockEntries(l, o)
    ensures |r.clauses| == |e.clauses| && r.numEmptyClauses >= e.numEmptyClauses
    ensures r.literalToClause == e.literalToClause && r.assignments == e.assignments
    ensures r.numActiveClauses == e.numActiveClauses && r.variables == e.variables
    ensures r.pureLiterals == e.pureLiterals
  {
    if l !in e.literalToClause then e
    else
      var e1 := e.(actions := Stacks.Push(e.actions, RemoveLiteralFromClausesStart));
      var e2 := RemoveLiteralLoop(e1, l, o);
      assert Log(e1) == Log(e) + [RemoveLiteralFromClausesStart];
      BlockLog(Log(e), Log(e2), l, o);
      e2.(actions := Stacks.Push(e2.actions, RemoveLiteralFromClausesEnd(l)))
  }

  /** The log of a block, closed by its end entry. */
  lemma BlockLog(log: seq<Action>, mid: seq<Action>, l: Literal, o: seq<ClauseId>)
    requires mid == log + [RemoveLiteralFromClausesStart] + RemoveLiteralEntries(o)
    ensures mid + [RemoveLiteralFromClausesEnd(l)] == log + BlockEntries(l, o)
  {
  }

  /** How many of the clauses `o` lists are left empty by removing `l`
      from each of them. */
  function Emptied(cs: seq<Clause>, l: Literal, o: seq<ClauseId>): (n: nat)
    requires forall i | 0 <= i < |o| :: o[i] < |cs|
    ensures n <= |o|
    decreases |o|
  {
    if |o| == 0 then 0
    else Emptied(cs, l, o[..|o| - 1]) + (if Len(Remove(cs[o[|o| - 1]], l)) == 0 then 1 else 0)
  }

  /** The removal loop over distinct clauses deletes `l` from each visited
      clause, and the empty counter grows by exactly the number of visited
      clauses left empty. */
  lemma {:induction false} RemoveLiteralLoopEffect(e: Expression, l: Literal, o: seq<ClauseId>)
    requires forall i | 0 <= i < |o| :: o[i] < |e.clauses|
    requires forall i, j | 0 <= i < j < |o| :: o[i] != o[j]
    ensures forall i | 0 <= i < |o| :: RemoveLiteralLoop(e, l, o).clauses[o[i]] == Remove(e.clauses[o[i]], l)
    ensures RemoveLiteralLoop(e, l, o).numEmptyClauses == e.numEmptyClauses + Emptied(e.clauses, l, o)
    decreases |o|
  {
    if |o| > 0 {
      var o', c := o[..|o| - 1], o[|o| - 1];
      RemoveLiteralLoopEffect(e, l, o');
      var r' := RemoveLiteralLoop(e, l, o');
      LastNotEarlier(o);
      assert r'.clauses[c] == e.clauses[c];
      var r := RemoveLiteralStep(r', l, c);
      assert r.clauses == r'.clauses[c := Remove(e.clauses[c], l)];
      forall i | 0 <= i < |o|
        ensures r.clauses[o[i]] == Remove(e.clauses[o[i]], l)
      {
        if i < |o| - 1 {
          assert o[i] == o'[i];
        }
      }
    }
  }

  /** In a list without repeats the last id is none of the earlier ones. */
  lemma LastNotEarlier(o: seq<ClauseId>)
    requires |o| > 0 && forall i, j | 0 <= i < j < |o| :: o[i] != o[j]
    ensures o[|o| - 1] !in o[..|o| - 1]
    ensures forall i | 0 <= i < |o| - 1 :: o[i] != o[|o| - 1]
  {
    var p := o[..|o| - 1];
    forall i | 0 <= i < |p|
      ensures p[i] != o[|o| - 1]
    {
      assert p[i] == o[i];
    }
  }

  /** `remove_literal_from_clauses` of an indexed literal deletes it from
      every clause indexed under it and leaves the other clauses alone; the
      empty counter grows by the number of those clauses left empty. */
  lemma RemoveLiteralFromClausesEffect(e: Expression, l: Literal, o: seq<ClauseId>)
    requires IndexInRange(e) && l in e.literalToClause && Enumerates(o, e.literalToClause[l])
    ensures var r := RemoveLiteralFromClauses(e, l, o);
      && (forall c | 0 <= c < |e.clauses| ::
            r.clauses[c] == if c in e.literalToClause[l] then Remove(e.clauses[c], l) else e.clauses[c])
      && r.numEmptyClauses == e.numEmptyClauses + Emptied(e.clauses, l, o)
  {
    var e1 := e.(actions := Stacks.Push(e.actions, RemoveLiteralFromClausesStart));
    RemoveLiteralLoopEffect(e1, l, o);
    var r := RemoveLiteralFromClauses(e, l, o);
    forall c | 0 <= c < |e.clauses|
      ensures r.clauses[c] == if c in e.literalToClause[l] then Remove(e.clauses[c], l) else e.clauses[c]
    {
      if c in e.literalToClause[l] {
        var i :| 0 <= i < |o| && o[i] == c;
      }
    }
  }

  /** The orders in which `assign_variable` visits the clauses indexed
      under the satisfied literal and under the falsified one. */
  predicate AssignOrders(e: Expression, v: Variable, value: bool, o1: seq<ClauseId>, o2: seq<ClauseId>) {
    && (LiteralOf(v, value) in e.literalToClause ==> Enumerates(o1, e.literalToClause[LiteralOf(v, value)]))
    && (Negate(LiteralOf(v, value)) in e.literalToClause ==> Enumerates(o2, e.literalToClause[Negate(LiteralOf(v, value))]))
  }

  /** The first two effects of `assign_variable`: the value is recorded
      and the assignment is logged. */
  function RecordAssignment(e: Expression, v: Variable, value: bool): (r: Expression)
    ensures r.assignments == e.assignments[v := value]
    ensures Log(r) == Log(e) + [Action.AssignVariable(v)]
    ensures r == e.(assignments := r.assignments, actions := r.actions)
  {
    e.(assignments := e.assignments[v := value],
       actions := Stacks.Push(e.actions, Action.AssignVariable(v)))
  }

  /** `assign_variable`: records the value and logs it, removes the clauses
      the now-true literal satisfies, deletes the now-false literal from the
      clauses indexed under it, and clears both polarities from the pure set. */
  function AssignVariable(e: Expression, v: Variable, value: bool, o1: seq<ClauseId>, o2: seq<ClauseId>): (r: Expression)
    requires Wf(e)
    requires AssignOrders(e, v, value, o1, o2)
    ensures r.assignments == e.assignments[v := value]
    ensures r.literalToClause == e.literalToClause && r.variables == e.variables
    ensures |r.clauses| == |e.clauses| && r.numEmptyClauses >= e.numEmptyClauses
  {
    var lit := LiteralOf(v, value);
    var e1 := RecordAssignment(e, v, value);
    var e2 := RemoveClausesWithLiteral(e1, lit, o1);
    var e3 := RemoveLiteralFromClauses(e2, Negate(lit), o2);
    e3.(pureLiterals := e3.pureLiterals - {lit, Negate(lit)})
  }

  /** The log after `assign_variable`: the assignment, one removal per
      clause indexed under the true literal, then the bracketed block of
      literal removals for the false one. */
  lemma AssignVariableLog(e: Expression, v: Variable, value: bool, o1: seq<ClauseId>, o2: seq<ClauseId>)
    requires Wf(e) && AssignOrders(e, v, value, o1, o2)
    ensures var lit := LiteralOf(v, value);
      Log(AssignVariable(e, v, value, o1, o2))
        == Log(e) + [Action.AssignVariable(v)]
           + (if lit in e.literalToClause then RemoveClauseEntries(o1) else [])
           + (if Negate(lit) in e.literalToClause then BlockEntries(Negate(lit), o2) else [])
  {
    var lit := LiteralOf(v, value);
    var e1 := RecordAssignment(e, v, value);
    var e2 := RemoveClausesWithLiteral(e1, lit, o1);
    var e3 := RemoveLiteralFromClauses(e2, Negate(lit), o2);
    assert Log(e2) == Log(e1) + (if lit in e.literalToClause then RemoveClauseEntries(o1) else []);
    assert Log(e3) == Log(e2) + (if Negate(lit) in e.literalToClause then BlockEntries(Negate(lit), o2) else []);
    assert Log(AssignVariable(e, v, value, o1, o2)) == Log(e3);
  }

  /** `assign_variable` lowers the active counter once per clause indexed
      under the true literal, and leaves neither polarity pure. */
  lemma AssignVariableCounters(e: Expression, v: Variable, value: bool, o1: seq<ClauseId>, o2: seq<ClauseId>)
    requires Wf(e) && AssignOrders(e, v, value, o1, o2)
    ensures var lit := LiteralOf(v, value);
      AssignVariable(e, v, value, o1, o2).numActiveClauses
        == e.numActiveClauses - (if lit in e.literalToClause then |o1| else 0)
    ensures AssignVariable(e, v, value, o1, o2).pureLiterals
        == e.pureLiterals - {LiteralOf(v, value), Negate(LiteralOf(v, value))}
  {
  }

  /** `assign_variable` deletes the now-false literal from exactly the
      clauses indexed under it, and the empty counter grows by the number
      of those clauses left empty. */
  lemma AssignVariableClauses(e: Expression, v: Variable, value: bool, o1: seq<ClauseId>, o2: seq<ClauseId>)
    requires Wf(e) && AssignOrders(e, v, value, o1, o2)
    ensures var nl := Negate(LiteralOf(v, value));
      var r := AssignVariable(e, v, value, o1, o2);
      && (forall c | 0 <= c < |e.clauses| ::
            r.clauses[c] == if nl in e.literalToClause && c in e.literalToClause[nl] then Remove(e.clauses[c], nl) else e.clauses[c])
      && r.numEmptyClauses == e.numEmptyClauses + (if nl in e.literalToClause then Emptied(e.clauses, nl, o2) else 0)
  {
    var lit := LiteralOf(v, value);
    var e1 := RecordAssignment(e, v, value);
    var e2 := RemoveClausesWithLiteral(e1, lit, o1);
    assert e2.clauses == e.clauses && e2.literalToClause == e.literalToClause;
    assert e2.numEmptyClauses == e.numEmptyClauses;
    if Negate(lit) in e.literalToClause {
      RemoveLiteralFromClausesEffect(e2, Negate(lit), o2);
    }
  }

  /** `unassign_variable`. */
  function UnassignVariable(e: Expression, v: Variable): (r: Expression)
    ensures v !in r.assignments
    ensures forall w | w != v :: (w in r.assignments <==> w in e.assignments)
    ensures forall w | w in e.assignments && w != v :: r.assignments[w] == e.assignments[w]
    ensures r == e.(assignments := r.assignments)
  {
    e.(assignments := e.assignments - {v})
  }

  /** `get_action_state`: the current length of the undo log. */
  function GetActionState(e: Expression): (s: ActionState)
    ensures s == |Log(e)|
  {
    Stacks.Len(e.actions)
  }

  /** `a` is an initial part of `b`. */
  predicate IsPrefix(a: seq<Action>, b: seq<Action>) {
    |a| <= |b| && b[..|a|] == a
  }

  lemma PrefixTransitive(a: seq<Action>, b: seq<Action>, c: seq<Action>)
    requires IsPrefix(a, b) && IsPrefix(b, c)
    ensures IsPrefix(a, c)
  {
    assert c[..|a|] == c[..|b|][..|a|];
  }

  /** Drops the newest log entry. */
  function PopAction(e: Expression): (r: Expression)
    requires |Log(e)| > 0
    ensures Log(r) == Log(e)[..|Log(e)| - 1]
    ensures r == e.(actions := r.actions)
  {
    e.(actions := Stacks.Pop(e.actions).1)
  }

  /** The per-literal loop of `enable_clause`: records clause `c` under each
      literal again, re-deciding purity when `c` is the only clause recorded. */
  function EnableLiterals(e: Expression, lits: seq<Literal>, c: ClauseId): (r: Expression)
    requires forall l | l in lits :: l in e.literalToClause
    ensures r == e.(literalToClause := r.literalToClause, pureLiterals := r.pureLiterals)
    ensures r.literalToClause.Keys == e.literalToClause.Keys
    decreases |lits|
  {
    if |lits| == 0 then e
    else
      var l := lits[0];
      var m := e.literalToClause[l := e.literalToClause[l] + {c}];
      var e1 := e.(literalToClause := m);
      var e2 := if |m[l]| == 1 then CheckPureLiteral(e1, l) else e1;
      EnableLiterals(e2, lits[1..], c)
  }

  /** `enable_clause` adds `c` to the index entry of exactly its literals. */
  lemma {:induction false} EnableLiteralsAt(e: Expression, lits: seq<Literal>, c: ClauseId, k: Literal)
    requires forall l | l in lits :: l in e.literalToClause
    ensures Entry(EnableLiterals(e, lits, c).literalToClause, k) == Entry(e.literalToClause, k) + (if k in lits then {c} else {})
    decreases |lits|
  {
    if |lits| > 0 {
      var l := lits[0];
      var m := e.literalToClause[l := e.literalToClause[l] + {c}];
      var e1 := e.(literalToClause := m);
      var e2 := if |m[l]| == 1 then CheckPureLiteral(e1, l) else e1;
      EnableLiteralsAt(e2, lits[1..], c, k);
      assert k in lits <==> k == l || k in lits[1..];
    }
  }

  /** What `enable_clause` needs: the id is in range (the source reads it
      unchecked) and every literal of the clause is indexed (it unwraps). */
  predicate EnableOk(e: Expression, c: ClauseId) {
    c < |e.clauses| && forall l | l in e.clauses[c].literals :: l in e.literalToClause
  }

  /** `enable_clause`: undoes `remove_clause` on the counter and the unit set
      and records the clause under its literals again. */
  function EnableClause(e: Expression, c: ClauseId): (r: Expression)
    requires EnableOk(e, c)
    ensures r.numActiveClauses == e.numActiveClauses + 1
    ensures r.unitClauses == e.unitClauses + (if Len(e.clauses[c]) == 1 then {c} else {})
    ensures r.literalToClause.Keys == e.literalToClause.Keys
    ensures r.clauses == e.clauses && r.actions == e.actions && r.assignments == e.assignments
    ensures r.numEmptyClauses == e.numEmptyClauses && r.variables == e.variables
  {
    var e1 := e.(numActiveClauses := e.numActiveClauses + 1,
                 unitClauses := if Len(e.clauses[c]) == 1 then e.unitClauses + {c} else e.unitClauses);
    EnableLiterals(e1, e.clauses[c].literals, c)
  }

  /** `enable_clause` adds `c` to the index entry of exactly the clause's
      literals. */
  lemma EnableClauseAt(e: Expression, c: ClauseId, k: Literal)
    requires EnableOk(e, c)
    ensures Entry(EnableClause(e, c).literalToClause, k) == Entry(e.literalToClause, k) + (if k in e.clauses[c].literals then {c} else {})
  {
    var e1 := e.(numActiveClauses := e.numActiveClauses + 1,
                 unitClauses := if Len(e.clauses[c]) == 1 then e.unitClauses + {c} else e.unitClauses);
    EnableLiteralsAt(e1, e.clauses[c].literals, c, k);
  }

  /** What one `RemoveLiteralFromClause(c)` entry of a block needs to be
      undone without a panic. */
  predicate ReinsertOk(e: Expression, l: Literal, c: ClauseId) {
    && c < |e.clauses|
    && l in e.literalToClause
    && (Len(e.clauses[c]) == 0 ==> e.numEmptyClauses > 0)
  }

  /** Undoes one literal removal: appends `l` to clause `c` again, moves
      the counters and the unit set back, and records `c` under `l`. */
  function ReinsertLiteral(e: Expression, l: Literal, c: ClauseId): (r: Expression)
    requires ReinsertOk(e, l, c)
    ensures r.clauses == e.clauses[c := Insert(e.clauses[c], l)]
    ensures Len(e.clauses[c]) == 0 ==> r.numEmptyClauses == e.numEmptyClauses - 1 && c in r.unitClauses
    ensures Len(e.clauses[c]) != 0 ==> r.numEmptyClauses == e.numEmptyClauses
    ensures Len(e.clauses[c]) == 1 ==> c !in r.unitClauses
    ensures r.unitClauses - {c} == e.unitClauses - {c}
    ensures Entry(r.literalToClause, l) == Entry(e.literalToClause, l) + {c}
    ensures r.literalToClause.Keys == e.literalToClause.Keys
    ensures forall k | k != l :: Entry(r.literalToClause, k) == Entry(e.literalToClause, k)
    ensures r == e.(clauses := r.clauses, numEmptyClauses := r.numEmptyClauses,
                    unitClauses := r.unitClauses, literalToClause := r.literalToClause)
  {
    var clause := Insert(e.clauses[c], l);
    var index := e.literalToClause[l := e.literalToClause[l] + {c}];
    assert Entry(index, l) == Entry(e.literalToClause, l) + {c};
    assert forall k | k != l :: Entry(index, k) == Entry(e.literalToClause, k);
    e.(clauses := e.clauses[c := clause],
       numEmptyClauses := if Len(clause) == 1 then e.numEmptyClauses - 1 else e.numEmptyClauses,
       unitClauses := if Len(clause) == 1 then e.unitClauses + {c}
                      else if Len(clause) == 2 then e.unitClauses - {c}
                      else e.unitClauses,
       literalToClause := index)
  }

  /** The inner loop of `restore_action_state` after popping
      `RemoveLiteralFromClausesEnd(l)`: pops and undoes literal removals
      until the block's start entry. An empty log, an out-of-range id, a
      counter that would go below zero, or any other entry stops with a
      panic. */
  function UndoBlock(e: Expression, l: Literal): (r: Result<Expression>)
    requires l in e.literalToClause
    ensures r.Success? ==> |Log(r.value)| < |Log(e)| && IsPrefix(Log(r.value), Log(e))
    ensures r.Success? ==> r.value.assignments == e.assignments && |r.value.clauses| == |e.clauses|
    ensures r.Success? ==> r.value.literalToClause.Keys == e.literalToClause.Keys
    decreases |Log(e)|
  {
    if Stacks.IsEmpty(e.actions) then Failure("called `Option::unwrap()` on a `None` value")
    else
      var e1 := PopAction(e);
      match Stacks.Peek(e.actions)
      case RemoveLiteralFromClause(c) =>
        if !ReinsertOk(e1, l, c) then Failure("clause id out of range or empty-clause counter underflow")
        else UndoBlock(ReinsertLiteral(e1, l, c), l)
      case RemoveLiteralFromClausesStart => Success(e1)
      case _ => Failure("Did not encounter a start literal!")
  }

  /** The outcome of `restore_action_state`: the log cut back to the saved
      length, the loop left by its `break` on a stray entry (which has
      been popped), or a panic. */
  datatype Restored = Restored(e: Expression) | Halted(e: Expression) | Panicked(message: string)

  /** `restore_action_state`: pops and undoes log entries until the log is
      no longer than `state`. */
  function Restore(e: Expression, state: ActionState): (r: Restored)
    ensures r.Restored? ==> |Log(r.e)| <= state
    ensures !r.Panicked? ==> IsPrefix(Log(r.e), Log(e))
    ensures |Log(e)| <= state ==> r == Restored(e)
    decreases |Log(e)|
  {
    if Stacks.Len(e.actions) <= state then Restored(e)
    else
      var e1 := PopAction(e);
      assert IsPrefix(Log(e1), Log(e));
      match Stacks.Peek(e.actions)
      case RemoveClause(c) =>
        if EnableOk(e1, c) then
          var x := EnableClause(e1, c);
          var r := Restore(x, state);
          RestoredPrefix(r, Log(x), Log(e));
          r
        else Panicked("clause id out of range or literal not indexed")
      case RemoveLiteralFromClausesEnd(l) =>
        if l !in e1.literalToClause then Panicked("called `Option::unwrap()` on a `None` value")
        else
          var u := UndoBlock(e1, l);
          if u.Success? then
            PrefixTransitive(Log(u.value), Log(e1), Log(e));
            var r := Restore(u.value, state);
            RestoredPrefix(r, Log(u.value), Log(e));
            r
          else Panicked(u.message)
      case AssignVariable(v) =>
        var x := UnassignVariable(e1, v);
        var r := Restore(x, state);
        RestoredPrefix(r, Log(x), Log(e));
        r
      case _ => Halted(e1)
  }

  /** Chains the prefix promise of a recursive `Restore` call. */
  lemma RestoredPrefix(r: Restored, mid: seq<Action>, log: seq<Action>)
    requires !r.Panicked? ==> IsPrefix(Log(r.e), mid)
    requires IsPrefix(mid, log)
    ensures !r.Panicked? ==> IsPrefix(Log(r.e), log)
  {
    if !r.Panicked? {
      PrefixTransitive(Log(r.e), mid, log);
    }
  }

  /** One step of `restore_action_state` on a clause-removal entry. */
  lemma RestoreAtRemove(z: Expression, c: ClauseId, state: ActionState)
    requires |Log(z)| > state && Stacks.Peek(z.actions) == Action.RemoveClause(c)
    requires EnableOk(PopAction(z), c)
    ensures Restore(z, state) == Restore(EnableClause(PopAction(z), c), state)
  {
  }

  /** One step of `restore_action_state` on a block end entry. */
  lemma RestoreAtBlockEnd(z: Expression, n: Literal, state: ActionState)
    requires |Log(z)| > state && Stacks.Peek(z.actions) == RemoveLiteralFromClausesEnd(n)
    requires n in PopAction(z).literalToClause && UndoBlock(PopAction(z), n).Success?
    ensures Restore(z, state) == Restore(UndoBlock(PopAction(z), n).value, state)
  {
  }

  /** One step of `restore_action_state` on an assignment entry. */
  lemma RestoreAtAssign(z: Expression, v: Variable, state: ActionState)
    requires |Log(z)| > state && Stacks.Peek(z.actions) == Action.AssignVariable(v)
    ensures Restore(z, state) == Restore(UnassignVariable(PopAction(z), v), state)
  {
  }

  /** One step of the block undo on a literal-removal entry. */
  lemma UndoBlockAtRemoval(x: Expression, l: Literal, c: ClauseId)
    requires l in x.literalToClause && |Log(x)| > 0 && Stacks.Peek(x.actions) == RemoveLiteralFromClause(c)
    requires ReinsertOk(PopAction(x), l, c)
    ensures UndoBlock(x, l) == UndoBlock(ReinsertLiteral(PopAction(x), l, c), l)
    ensures Log(ReinsertLiteral(PopAction(x), l, c)) == Log(x)[..|Log(x)| - 1]
  {
  }

  /** `is_satisfied`: the active counter is zero. */
  predicate IsSatisfied(e: Expression) {
    e.numActiveClauses == 0
  }

  /** `is_unsatisfiable`: some clause has lost all its literals. */
  predicate IsUnsatisfiable(e: Expression) {
    e.numEmptyClauses > 0
  }

  /** `is_inference_possible`: no empty clause, some active clause, and a
      unit clause or a pure literal to act on. */
  predicate IsInferencePossible(e: Expression) {
    e.numEmptyClauses == 0 && e.numActiveClauses > 0 && (e.pureLiterals != {} || e.unitClauses != {})
  }

  /** A freshly built expression counts every clause active and none
      empty: it is satisfied exactly when it has no clause, and it is never
      unsatisfiable, even when one of its clauses is empty. */
  lemma StartCounters(cs: seq<Clause>)
    ensures IsSatisfied(FromClauses(cs)) <==> |cs| == 0
    ensures !IsUnsatisfiable(FromClauses(cs))
    ensures IsInferencePossible(FromClauses(cs)) ==> |cs| > 0
  {
  }

  /** Clause `c` is `(l)` or already empty, so it has no literal once `l`
      is deleted (`RemoveLeavesEmpty`). */
  predicate LeftEmpty(cs: seq<Clause>, l: Literal, c: ClauseId) {
    c < |cs| && (cs[c].literals == [l] || cs[c].literals == [])
  }

  /** Deleting `l` leaves a clause with no literal exactly when the clause
      is `(l)` or already empty. */
  lemma RemoveLeavesEmpty(cl: Clause, l: Literal)
    ensures Len(Remove(cl, l)) == 0 <==> cl.literals == [l] || cl.literals == []
  {
    RemoveProperties(cl, l);
    if cl.literals == [l] {
      assert Contains(cl, l);
    }
    if Len(Remove(cl, l)) == 0 && Contains(cl, l) {
      var k :| 0 <= k < |cl.literals| && cl.literals[k] == l;
      assert cl.literals == [l];
    }
  }

  /** Some clause among the ids `o` is left empty by deleting `l`. */
  predicate SomeLeftEmpty(cs: seq<Clause>, l: Literal, o: seq<ClauseId>) {
    exists i :: 0 <= i < |o| && LeftEmpty(cs, l, o[i])
  }

  /** The counter of removed literals that leave a clause empty is
      positive exactly when some visited clause is left empty. */
  lemma {:induction false} EmptiedPositive(cs: seq<Clause>, l: Literal, o: seq<ClauseId>)
    requires forall i | 0 <= i < |o| :: o[i] < |cs|
    ensures Emptied(cs, l, o) > 0 <==> SomeLeftEmpty(cs, l, o)
    decreases |o|
  {
    if |o| > 0 {
      var p := o[..|o| - 1];
      EmptiedPositive(cs, l, p);
      SomeLeftEmptySnoc(cs, l, o);
      RemoveLeavesEmpty(cs[o[|o| - 1]], l);
    }
  }

  /** Some of `o` is left empty exactly when some of its initial part is,
      or its last id is. */
  lemma SomeLeftEmptySnoc(cs: seq<Clause>, l: Literal, o: seq<ClauseId>)
    requires |o| > 0
    ensures SomeLeftEmpty(cs, l, o) <==> SomeLeftEmpty(cs, l, o[..|o| - 1]) || LeftEmpty(cs, l, o[|o| - 1])
  {
    var p := o[..|o| - 1];
    if SomeLeftEmpty(cs, l, o) {
      var i :| 0 <= i < |o| && LeftEmpty(cs, l, o[i]);
      if i < |p| {
        assert p[i] == o[i];
      }
    }
    if SomeLeftEmpty(cs, l, p) {
      var i :| 0 <= i < |p| && LeftEmpty(cs, l, p[i]);
      assert o[i] == p[i];
    }
  }

  /** `assign_variable` makes the expression unsatisfiable exactly when it
      already was, or when deleting the falsified literal leaves some clause
      recorded under it with no literal. */
  lemma ConflictOnAssign(e: Expression, v: Variable, value: bool, o1: seq<ClauseId>, o2: seq<ClauseId>)
    requires Wf(e) && AssignOrders(e, v, value, o1, o2)
    ensures var nl := Negate(LiteralOf(v, value));
      IsUnsatisfiable(AssignVariable(e, v, value, o1, o2)) <==>
        || IsUnsatisfiable(e)
        || (nl in e.literalToClause && exists i :: 0 <= i < |o2| && LeftEmpty(e.clauses, nl, o2[i]))
  {
    AssignVariableClauses(e, v, value, o1, o2);
    var nl := Negate(LiteralOf(v, value));
    if nl in e.literalToClause {
      EmptiedPositive(e.clauses, nl, o2);
    }
  }

  /** The orders `assign_variable` needs when it makes `lit` true. */
  predicate LiteralOrders(e: Expression, lit: Literal, o1: seq<ClauseId>, o2: seq<ClauseId>) {
    AssignOrders(e, ToVariable(lit), lit > 0, o1, o2)
  }

  lemma LiteralOfSign(lit: Literal)
    ensures LiteralOf(ToVariable(lit), lit > 0) == lit
  {
  }

  /** `remove_unit_clause`: when the unit set is non-empty, takes one of its
      clauses (`c`, standing for the hash set's first element), makes its
      first literal true and reports the clause. Reading the first literal
      of an empty clause panics. */
  function RemoveUnitClause(e: Expression, c: ClauseId, o1: seq<ClauseId>, o2: seq<ClauseId>): (r: Result<(Option<ClauseId>, Expression)>)
    requires Wf(e)
    requires e.unitClauses != {} ==> c in e.unitClauses
    requires e.unitClauses != {} && Len(e.clauses[c]) > 0 ==> LiteralOrders(e, e.clauses[c].literals[0], o1, o2)
    ensures e.unitClauses == {} ==> r == Success((None, e))
    ensures e.unitClauses != {} ==> (r.Failure? <==> Len(e.clauses[c]) == 0)
    ensures r.Success? && e.unitClauses != {} ==> r.value.0 == Some(c)
    ensures r.Success? && e.unitClauses != {} ==>
      var l := e.clauses[c].literals[0];
      r.value.1 == AssignVariable(e, ToVariable(l), l > 0, o1, o2)
  {
    if e.unitClauses == {} then Success((None, e))
    else if Len(e.clauses[c]) == 0 then Failure("index out of bounds: the len is 0 but the index is 0")
    else
      var l := e.clauses[c].literals[0];
      Success((Some(c), AssignVariable(e, ToVariable(l), l > 0, o1, o2)))
  }

  /** `remove_pure_literal`: when the pure set is non-empty, makes one of its
      literals (`l`, standing for the hash set's first element) true and
      reports it. */
  function RemovePureLiteral(e: Expression, l: Literal, o1: seq<ClauseId>, o2: seq<ClauseId>): (r: (Option<Literal>, Expression))
    requires Wf(e)
    requires e.pureLiterals != {} ==> l in e.pureLiterals && LiteralOrders(e, l, o1, o2)
    ensures e.pureLiterals == {} ==> r == (None, e)
    ensures e.pureLiterals != {} ==> r.0 == Some(l) && r.1 == AssignVariable(e, ToVariable(l), l > 0, o1, o2)
  {
    if e.pureLiterals == {} then (None, e)
    else (Some(l), AssignVariable(e, ToVariable(l), l > 0, o1, o2))
  }

  /** `construct_assignment`: the current assignments, with every other
      variable of the formula set to true. */
  function ConstructAssignment(e: Expression): (a: Assignment)
    ensures a.Keys == e.assignments.Keys + e.variables
    ensures forall v | v in e.assignments :: a[v] == e.assignments[v]
    ensures forall v | v in e.variables && v !in e.assignments :: a[v]
  {
    map v | v in e.assignments.Keys + e.variables :: if v in e.assignments then e.assignments[v] else true
  }

  /** The inner loop of `is_satisfied_by` over one clause: unassigned
      variables are skipped, and the scan stops at the first literal the
      assignment makes true. */
  function ClauseSatisfiedBy(lits: seq<Literal>, a: Assignment): (b: bool)
    ensures b <==> exists l :: l in lits && LiteralTrue(a, l)
  {
    if |lits| == 0 then false
    else
      var v := ToVariable(lits[0]);
      assert forall k :: k in lits <==> k == lits[0] || k in lits[1..];
      if v !in a then ClauseSatisfiedBy(lits[1..], a)
      else if a[v] == (lits[0] > 0) then
        assert LiteralTrue(a, lits[0]);
        true
      else ClauseSatisfiedBy(lits[1..], a)
  }

  /** `is_satisfied_by`: every clause has a literal the (possibly partial)
      assignment makes true. */
  function IsSatisfiedBy(e: Expression, a: Assignment): (b: bool)
    ensures b <==> Satisfies(a, e.clauses)
  {
    SatisfiedFrom(e.clauses, a, 0)
  }

  /** The outer loop of `is_satisfied_by`, from clause `i` on. */
  function SatisfiedFrom(cs: seq<Clause>, a: Assignment, i: nat): (b: bool)
    requires i <= |cs|
    ensures b <==> forall j | i <= j < |cs| :: SatisfiesClause(a, cs[j])
    decreases |cs| - i
  {
    if i == |cs| then true
    else if !ClauseSatisfiedBy(cs[i].literals, a) then false
    else SatisfiedFrom(cs, a, i + 1)
  }
}

=== FILE: heuristics.dfy ===
/** The branch heuristics: which variable to guess, and which value to try
    first, once no more inference is possible. Each scans a hash container
    whose iteration order is a parameter. */
module Heuristics {
  import opened Wrappers
  import opened Cnf
  import opened Expressions

  /** `l` may be chosen by the literal-count heuristic: it is indexed, some
      clause is recorded under it, and its variable is unassigned. */
  predicate Eligible(e: Expression, l: Literal) {
    l in e.literalToClause && e.literalToClause[l] != {} && ToVariable(l) !in e.assignments
  }

  /** The number of clauses recorded under either polarity of `v`. */
  function Occurrences(e: Expression, v: Variable): nat {
    |Entry(e.literalToClause, v as int)| + |Entry(e.literalToClause, -(v as int))|
  }

  /** Both polarities of every unassigned variable are indexed (the source
      unwraps both index reads). */
  predicate EntriesPresent(e: Expression) {
    forall w | w in e.variables && w !in e.assignments ::
      (w as int) in e.literalToClause && -(w as int) in e.literalToClause
  }

  /** Under the representation invariant every variable has both index
      entries and no variable is zero. */
  lemma WfEntries(e: Expression)
    requires Wf(e)
    ensures EntriesPresent(e) && 0 !in e.variables
  {
    forall w | w in e.variables
      ensures (w as int) in e.literalToClause && -(w as int) in e.literalToClause && w != 0
    {
      var l :| l in e.literalToClause && ToVariable(l) == w;
      assert Negate(l) in e.literalToClause;
    }
  }

  /** `get_most_literal_occurances`: the unassigned literal recorded under
      the most clauses (the first such in `ks` on ties). Literal zero is the
      "none found" marker, and finding none panics. */
  method MostLiteralOccurrences(e: Expression, ks: seq<Literal>) returns (r: Result<(Variable, bool)>)
    requires Enumerates(ks, e.literalToClause.Keys)
    ensures r.Success? ==> Eligible(e, LiteralOf(r.value.0, r.value.1))
    ensures r.Success? ==> forall k | Eligible(e, k) ::
      |e.literalToClause[k]| <= |e.literalToClause[LiteralOf(r.value.0, r.value.1)]|
    ensures 0 !in e.literalToClause ==> (r.Failure? <==> forall k | k in e.literalToClause :: !Eligible(e, k))
  {
    var maxOccurrences := 0;
    var best: Literal := 0;
    for i := 0 to |ks|
      invariant maxOccurrences == 0 || (Eligible(e, best) && maxOccurrences == |e.literalToClause[best]|)
      invariant forall j | 0 <= j < i && Eligible(e, ks[j]) :: 0 < |e.literalToClause[ks[j]]| <= maxOccurrences
      invariant best != 0 ==> maxOccurrences > 0
    {
      var l := ks[i];
      if e.literalToClause[l] != {} && ToVariable(l) !in e.assignments {
        var occurrences := |e.literalToClause[l]|;
        if occurrences > maxOccurrences {
          maxOccurrences := occurrences;
          best := l;
        }
      }
    }
    if best != 0 {
      LiteralOfSign(best);
      return Success((ToVariable(best), best > 0));
    }
    return Failure("No branch variable found");
  }

  /** `get_most_variable_occurances`: the unassigned variable with the most
      clauses recorded under its two literals (the first such in `vs` on
      ties), to be tried true first. Variable zero is the "none found"
      marker; a missing index entry or finding none panics. */
  method MostVariableOccurrences(e: Expression, vs: seq<Variable>) returns (r: Result<(Variable, bool)>)
    requires Enumerates(vs, e.variables)
    ensures r.Success? ==> r.value.1 && r.value.0 != 0
    ensures r.Success? ==> r.value.0 in e.variables && r.value.0 !in e.assignments
    ensures r.Success? ==> forall w | w in e.variables && w !in e.assignments :: Occurrences(e, w) <= Occurrences(e, r.value.0)
    ensures !EntriesPresent(e) ==> r.Failure?
    ensures EntriesPresent(e) && 0 !in e.variables ==>
      (r.Failure? <==> forall w | w in e.variables && w !in e.assignments :: Occurrences(e, w) == 0)
  {
    var maxOccurrences := 0;
    var best: Variable := 0;
    for i := 0 to |vs|
      invariant forall j | 0 <= j < i && vs[j] !in e.assignments ::
        (vs[j] as int) in e.literalToClause && -(vs[j] as int) in e.literalToClause
      invariant maxOccurrences == 0 || (best in e.variables && best !in e.assignments && maxOccurrences == Occurrences(e, best))
      invariant forall j | 0 <= j < i && vs[j] !in e.assignments :: Occurrences(e, vs[j]) <= maxOccurrences
      invariant best != 0 ==> maxOccurrences > 0
    {
      var v := vs[i];
      if v !in e.assignments {
        var positive := v as int;
        if positive !in e.literalToClause || -positive !in e.literalToClause {
          return Failure("called `Option::unwrap()` on a `None` value");
        }
        var occurrences := |e.literalToClause[positive]| + |e.literalToClause[-positive]|;
        if occurrences > maxOccurrences {
          maxOccurrences := occurrences;
          best := v;
        }
      }
    }
    if best != 0 {
      return Success((best, true));
    }
    return Failure("No branch variable found");
  }

  /** `get_lexicographically_maximizing_literal`, with its scoring left
      out: `pick` stands for the unassigned variable the scoring ends with.
      The variable is tried true first when its positive literal is
      recorded under more clauses. Every unassigned variable's two entries
      are unwrapped, and with no unassigned variable the final read is out
      of bounds. */
  function MinimizeClauseLength(e: Expression, pick: Variable): (r: Result<(Variable, bool)>)
    requires (exists w | w in e.variables :: w !in e.assignments) ==> pick in e.variables && pick !in e.assignments
    ensures r.Success? ==> r.value.0 in e.variables && r.value.0 !in e.assignments
    ensures r.Success? ==> (r.value.1 <==> |Entry(e.literalToClause, pick as int)| > |Entry(e.literalToClause, -(pick as int))|)
    ensures r.Failure? <==> !EntriesPresent(e) || forall w | w in e.variables :: w in e.assignments
  {
    if !EntriesPresent(e) then Failure("called `Option::unwrap()` on a `None` value")
    else if forall w | w in e.variables :: w in e.assignments then Failure("index out of bounds: the len is 0 but the index is 0")
    else Success((pick, |e.literalToClause[pick as int]| > |e.literalToClause[-(pick as int)]|))
  }

  /** The iteration orders and the scoring outcome `get_branch_variable`
      depends on. */
  predicate BranchOrders(e: Expression, ks: seq<Literal>, vs: seq<Variable>, pick: Variable) {
    && Enumerates(ks, e.literalToClause.Keys)
    && Enumerates(vs, e.variables)
    && ((exists w | w in e.variables :: w !in e.assignments) ==> pick in e.variables && pick !in e.assignments)
  }

  /** `get_branch_variable`: dispatches on the expression's heuristic. On a
      well-formed expression the variable is an unassigned variable of the
      formula, and with every variable assigned it panics. */
  method GetBranchVariable(e: Expression, ks: seq<Literal>, vs: seq<Variable>, pick: Variable) returns (r: Result<(Variable, bool)>)
    requires Wf(e) && BranchOrders(e, ks, vs, pick)
    ensures r.Success? ==> r.value.0 in e.variables && r.value.0 !in e.assignments
    ensures (forall w | w in e.variables :: w in e.assignments) ==> r.Failure?
  {
    WfEntries(e);
    match e.heuristic
    case MostLiteralOccurrences =>
      r := MostLiteralOccurrences(e, ks);
      if r.Success? {
        var l := LiteralOf(r.value.0, r.value.1);
        assert r.value.0 == ToVariable(l);
      }
    case MostVariableOccurrences =>
      r := MostVariableOccurrences(e, vs);
    case MinimizeClauseLength =>
      r := MinimizeClauseLength(e, pick);
  }
}

=== FILE: invariants.dfy ===
/** Every operation of the expression keeps its representation invariant,
    and assigning an unassigned variable keeps the literal occurrences that
    backtracking relies on. */
module Invariants {
  import opened Wrappers
  import opened Cnf
  import opened Expressions

  /** The parts of the invariant that depend only on the index, the
      variables and the number of clauses. */
  ghost predicate IndexWf(e: Expression) {
    IndexInRange(e) && PolaritiesIndexed(e) && VariablesIndexed(e)
  }

  lemma IndexWfFrame(a: Expression, b: Expression)
    requires IndexWf(a)
    requires b.literalToClause == a.literalToClause && b.variables == a.variables && |b.clauses| == |a.clauses|
    ensures IndexWf(b)
  {
  }

  lemma WfFrame(a: Expression, b: Expression)
    requires Wf(a)
    requires b.literalToClause == a.literalToClause && b.variables == a.variables
    requires b.clauses == a.clauses && b.unitClauses == a.unitClauses
    ensures Wf(b)
  {
    IndexWfFrame(a, b);
  }

  lemma RemoveClausesWf(e: Expression, o: seq<ClauseId>)
    requires Wf(e)
    requires forall i | 0 <= i < |o| :: o[i] < |e.clauses|
    ensures Wf(RemoveClauses(e, o))
  {
    IndexWfFrame(e, RemoveClauses(e, o));
  }

  lemma StepClausesIndexed(e: Expression, l: Literal, c: ClauseId)
    requires ClausesIndexed(e) && c < |e.clauses|
    ensures ClausesIndexed(RemoveLiteralStep(e, l, c))
  {
    var r := RemoveLiteralStep(e, l, c);
    forall d, k | 0 <= d < |r.clauses| && k in r.clauses[d].literals
      ensures k in r.literalToClause && d in r.literalToClause[k]
    {
      RemoveMembership(e.clauses[c], l, k);
      assert k in e.clauses[d].literals;
    }
  }

  lemma StepUnits(e: Expression, l: Literal, c: ClauseId)
    requires UnitsAreUnit(e) && c < |e.clauses|
    ensures UnitsAreUnit(RemoveLiteralStep(e, l, c))
  {
  }

  lemma RemoveLiteralStepWf(e: Expression, l: Literal, c: ClauseId)
    requires Wf(e) && c < |e.clauses|
    ensures Wf(RemoveLiteralStep(e, l, c))
  {
    StepClausesIndexed(e, l, c);
    StepUnits(e, l, c);
    IndexWfFrame(e, RemoveLiteralStep(e, l, c));
  }

  lemma {:induction false} RemoveLiteralLoopWf(e: Expression, l: Literal, o: seq<ClauseId>)
    requires Wf(e)
    requires forall i | 0 <= i < |o| :: o[i] < |e.clauses|
    ensures Wf(RemoveLiteralLoop(e, l, o))
    decreases |o|
  {
    if |o| > 0 {
      RemoveLiteralLoopWf(e, l, o[..|o| - 1]);
      RemoveLiteralStepWf(RemoveLiteralLoop(e, l, o[..|o| - 1]), l, o[|o| - 1]);
    }
  }

  lemma RemoveLiteralFromClausesWf(e: Expression, l: Literal, o: seq<ClauseId>)
    requires Wf(e)
    requires l in e.literalToClause ==> Enumerates(o, e.literalToClause[l])
    ensures Wf(RemoveLiteralFromClauses(e, l, o))
  {
    if l in e.literalToClause {
      var e1 := e.(actions := Stacks.Push(e.actions, RemoveLiteralFromClausesStart));
      WfFrame(e, e1);
      RemoveLiteralLoopWf(e1, l, o);
      var e2 := RemoveLiteralLoop(e1, l, o);
      WfFrame(e2, RemoveLiteralFromClauses(e, l, o));
    }
  }

  /** `assign_variable` keeps the representation invariant. */
  lemma AssignVariableWf(e: Expression, v: Variable, value: bool, o1: seq<ClauseId>, o2: seq<ClauseId>)
    requires Wf(e) && AssignOrders(e, v, value, o1, o2)
    ensures Wf(Expressions.AssignVariable(e, v, value, o1, o2))
  {
    var lit := LiteralOf(v, value);
    var e1 := RecordAssignment(e, v, value);
    WfFrame(e, e1);
    var e2 := RemoveClausesWithLiteral(e1, lit, o1);
    if lit in e1.literalToClause {
      RemoveClausesWf(e1, o1);
    }
    RemoveLiteralFromClausesWf(e2, Negate(lit), o2);
    var e3 := RemoveLiteralFromClauses(e2, Negate(lit), o2);
    WfFrame(e3, Expressions.AssignVariable(e, v, value, o1, o2));
  }

  lemma EnableClauseIndex(e: Expression, c: ClauseId)
    requires IndexWf(e) && ClausesIndexed(e) && EnableOk(e, c)
    ensures IndexWf(EnableClause(e, c)) && ClausesIndexed(EnableClause(e, c))
  {
    var r := EnableClause(e, c);
    forall l, d | l in r.literalToClause && d in r.literalToClause[l]
      ensures d < |r.clauses|
    {
      EnableClauseAt(e, c, l);
    }
    forall d, l | 0 <= d < |r.clauses| && l in r.clauses[d].literals
      ensures l in r.literalToClause && d in r.literalToClause[l]
    {
      EnableClauseAt(e, c, l);
    }
  }

  /** `enable_clause` keeps the representation invariant. */
  lemma EnableClauseWf(e: Expression, c: ClauseId)
    requires Wf(e) && EnableOk(e, c)
    ensures Wf(EnableClause(e, c))
  {
    EnableClauseIndex(e, c);
  }

  /** Undoing one literal removal keeps the representation invariant. */
  lemma ReinsertLiteralWf(e: Expression, l: Literal, c: ClauseId)
    requires Wf(e) && ReinsertOk(e, l, c)
    ensures Wf(ReinsertLiteral(e, l, c))
  {
    var r := ReinsertLiteral(e, l, c);
    forall k, d | k in r.literalToClause && d in r.literalToClause[k]
      ensures d < |r.clauses|
    {
      assert d in Entry(r.literalToClause, k);
    }
    forall d, k | 0 <= d < |r.clauses| && k in r.clauses[d].literals
      ensures k in r.literalToClause && d in r.literalToClause[k]
    {
      if d == c && k == l {
        assert c in Entry(r.literalToClause, l);
      } else {
        assert k in e.clauses[d].literals;
        assert d in Entry(e.literalToClause, k);
      }
    }
    IndexWfFrame(e, r.(literalToClause := e.literalToClause));
  }

  /** A successful undo of a literal-removal block keeps the invariant. */
  lemma {:induction false} UndoBlockWf(e: Expression, l: Literal)
    requires Wf(e) && l in e.literalToClause
    ensures UndoBlock(e, l).Success? ==> Wf(UndoBlock(e, l).value)
    decreases |Log(e)|
  {
    if !Stacks.IsEmpty(e.actions) {
      var e1 := PopAction(e);
      WfFrame(e, e1);
      match Stacks.Peek(e.actions)
      case RemoveLiteralFromClause(c) =>
        if ReinsertOk(e1, l, c) {
          ReinsertLiteralWf(e1, l, c);
          UndoBlockWf(ReinsertLiteral(e1, l, c), l);
        }
      case _ =>
    }
  }

  /** `restore_action_state` keeps the representation invariant unless it
      panics. */
  lemma {:induction false} RestoreWf(e: Expression, state: ActionState)
    requires Wf(e)
    ensures !Restore(e, state).Panicked? ==> Wf(Restore(e, state).e)
    decreases |Log(e)|
  {
    if Stacks.Len(e.actions) > state {
      var e1 := PopAction(e);
      WfFrame(e, e1);
      match Stacks.Peek(e.actions)
      case RemoveClause(c) =>
        if EnableOk(e1, c) {
          EnableClauseWf(e1, c);
          RestoreWf(EnableClause(e1, c), state);
        }
      case RemoveLiteralFromClausesEnd(l) =>
        if l in e1.literalToClause {
          UndoBlockWf(e1, l);
          if UndoBlock(e1, l).Success? {
            RestoreWf(UndoBlock(e1, l).value, state);
          }
        }
      case AssignVariable(v) =>
        WfFrame(e1, UnassignVariable(e1, v));
        RestoreWf(UnassignVariable(e1, v), state);
      case _ =>
    }
  }

  /** Removing `l` from clauses keeps every other literal in place. */
  lemma {:induction false} RemoveLiteralLoopKeeps(e: Expression, l: Literal, o: seq<ClauseId>, c: ClauseId, k: Literal)
    requires forall i | 0 <= i < |o| :: o[i] < |e.clauses|
    requires c < |e.clauses| && k != l && k in e.clauses[c].literals
    ensures k in RemoveLiteralLoop(e, l, o).clauses[c].literals
    decreases |o|
  {
    if |o| > 0 {
      var e1 := RemoveLiteralLoop(e, l, o[..|o| - 1]);
      RemoveLiteralLoopKeeps(e, l, o[..|o| - 1], c, k);
      RemoveMembership(e1.clauses[o[|o| - 1]], l, k);
    }
  }

  lemma RemoveLiteralFromClausesKeeps(e: Expression, l: Literal, o: seq<ClauseId>, c: ClauseId, k: Literal)
    requires IndexInRange(e)
    requires l in e.literalToClause ==> Enumerates(o, e.literalToClause[l])
    requires c < |e.clauses| && k != l && k in e.clauses[c].literals
    ensures k in RemoveLiteralFromClauses(e, l, o).clauses[c].literals
  {
    if l in e.literalToClause {
      var e1 := e.(actions := Stacks.Push(e.actions, RemoveLiteralFromClausesStart));
      RemoveLiteralLoopKeeps(e1, l, o, c, k);
    }
  }

  /** Assigning `v` keeps every literal of another variable in place. */
  lemma AssignVariableKeeps(e: Expression, v: Variable, value: bool, o1: seq<ClauseId>, o2: seq<ClauseId>, c: ClauseId, k: Literal)
    requires Wf(e) && AssignOrders(e, v, value, o1, o2)
    requires c < |e.clauses| && k in e.clauses[c].literals && ToVariable(k) != v
    ensures k in Expressions.AssignVariable(e, v, value, o1, o2).clauses[c].literals
  {
    var lit := LiteralOf(v, value);
    var e2 := RemoveClausesWithLiteral(RecordAssignment(e, v, value), lit, o1);
    RemoveLiteralFromClausesKeeps(e2, Negate(lit), o2, c, k);
  }

  /** Assigning an unassigned variable keeps every literal of the other
      unassigned variables in the clauses indexed under it. */
  lemma AssignVariableInv(e: Expression, v: Variable, value: bool, o1: seq<ClauseId>, o2: seq<ClauseId>)
    requires Wf(e) && Inv(e) && v !in e.assignments
    requires AssignOrders(e, v, value, o1, o2)
    ensures Inv(Expressions.AssignVariable(e, v, value, o1, o2))
  {
    var r := Expressions.AssignVariable(e, v, value, o1, o2);
    forall l, c | l in r.literalToClause && c in r.literalToClause[l] && ToVariable(l) !in r.assignments && c < |r.clauses|
      ensures l in r.clauses[c].literals
    {
      assert l in e.clauses[c].literals;
      AssignVariableKeeps(e, v, value, o1, o2, c, l);
    }
  }

  /** Under the invariant a unit candidate always has a literal, so the
      index read of `remove_unit_clause` never panics. */
  lemma RemoveUnitClauseSucceeds(e: Expression, c: ClauseId, o1: seq<ClauseId>, o2: seq<ClauseId>)
    requires Wf(e)
    requires e.unitClauses != {} ==> c in e.unitClauses
    requires e.unitClauses != {} && Len(e.clauses[c]) > 0 ==> LiteralOrders(e, e.clauses[c].literals[0], o1, o2)
    ensures RemoveUnitClause(e, c, o1, o2).Success?
    ensures Wf(RemoveUnitClause(e, c, o1, o2).value.1)
  {
    if e.unitClauses != {} {
      var l := e.clauses[c].literals[0];
      AssignVariableWf(e, ToVariable(l), l > 0, o1, o2);
    }
  }
}

=== FILE: log_shape.dfy ===
/** The shape of the undo log. Every operation appends whole entries: a
    clause removal, an assignment, or a bracketed block of literal removals.
    On a log of that shape, restoring to a length at an entry boundary
    never meets a stray block entry, so it either panics or cuts the log
    back to exactly that length. */
module LogShape {
  import opened Cnf
  import opened Expressions

  /** The last position at or before `j` that is not a literal-removal
      entry, or -1. */
  function BlockStart(log: seq<Action>, j: int): (k: int)
    requires -1 <= j < |log|
    ensures -1 <= k <= j
    ensures forall i | k < i <= j :: log[i].RemoveLiteralFromClause?
    ensures k >= 0 ==> !log[k].RemoveLiteralFromClause?
    decreases j + 1
  {
    if j < 0 then -1
    else if log[j].RemoveLiteralFromClause? then BlockStart(log, j - 1)
    else j
  }

  /** The log is a sequence of whole entries: clause removals, assignments,
      and `Start, RemoveLiteralFromClause*, End` blocks. */
  predicate Parses(log: seq<Action>)
    decreases |log|
  {
    if |log| == 0 then true
    else match log[|log| - 1]
      case RemoveClause(_) => Parses(log[..|log| - 1])
      case AssignVariable(_) => Parses(log[..|log| - 1])
      case RemoveLiteralFromClausesEnd(_) =>
        var k := BlockStart(log, |log| - 2);
        k >= 0 && log[k].RemoveLiteralFromClausesStart? && Parses(log[..k])
      case _ => false
  }

  /** A log that parses never ends inside a block. */
  lemma ParsesLast(log: seq<Action>)
    requires Parses(log) && |log| > 0
    ensures !log[|log| - 1].RemoveLiteralFromClausesStart? && !log[|log| - 1].RemoveLiteralFromClause?
  {
  }

  lemma ParsesEntry(log: seq<Action>, a: Action)
    requires Parses(log) && (a.RemoveClause? || a.AssignVariable?)
    ensures Parses(log + [a])
  {
    assert (log + [a])[..|log|] == log;
  }

  lemma {:induction false} ParsesRemovals(log: seq<Action>, o: seq<ClauseId>)
    requires Parses(log)
    ensures Parses(log + RemoveClauseEntries(o))
    decreases |o|
  {
    if |o| == 0 {
      assert log + RemoveClauseEntries(o) == log;
    } else {
      var o' := o[..|o| - 1];
      ParsesRemovals(log, o');
      ParsesEntry(log + RemoveClauseEntries(o'), Action.RemoveClause(o[|o| - 1]));
      assert log + RemoveClauseEntries(o) == log + RemoveClauseEntries(o') + [Action.RemoveClause(o[|o| - 1])];
    }
  }

  /** Scanning back over literal-removal entries stops at the first other
      entry. */
  lemma {:induction false} BlockStartAt(s: seq<Action>, a: nat, j: int)
    requires a <= j < |s| || j == a - 1
    requires a < |s| && !s[a].RemoveLiteralFromClause?
    requires forall i | a < i <= j :: s[i].RemoveLiteralFromClause?
    ensures j >= a ==> BlockStart(s, j) == a
    decreases j + 1
  {
    if j > a {
      BlockStartAt(s, a, j - 1);
    }
  }

  lemma ParsesBlock(log: seq<Action>, l: Literal, o: seq<ClauseId>)
    requires Parses(log)
    ensures Parses(log + BlockEntries(l, o))
  {
    var s := log + BlockEntries(l, o);
    assert forall i | |log| < i <= |s| - 2 :: s[i] == BlockEntries(l, o)[i - |log|];
    BlockStartAt(s, |log|, |s| - 2);
    assert s[..|log|] == log;
  }

  /** `assign_variable` appends whole entries. */
  lemma AssignVariableParses(e: Expression, v: Variable, value: bool, o1: seq<ClauseId>, o2: seq<ClauseId>)
    requires Wf(e) && AssignOrders(e, v, value, o1, o2) && Parses(Log(e))
    ensures Parses(Log(Expressions.AssignVariable(e, v, value, o1, o2)))
  {
    AssignVariableLog(e, v, value, o1, o2);
    var lit := LiteralOf(v, value);
    var a1 := Log(e) + [Action.AssignVariable(v)];
    ParsesEntry(Log(e), Action.AssignVariable(v));
    var a2 := a1 + (if lit in e.literalToClause then RemoveClauseEntries(o1) else []);
    if lit in e.literalToClause {
      ParsesRemovals(a1, o1);
    } else {
      assert a2 == a1;
    }
    if Negate(lit) in e.literalToClause {
      ParsesBlock(a2, Negate(lit), o2);
    } else {
      assert a2 + [] == a2;
    }
  }

  /** Undoing a block whose entries follow a start entry at `k` ends with
      the log cut back to `k`. */
  lemma {:induction false} UndoBlockCuts(x: Expression, l: Literal, k: nat)
    requires l in x.literalToClause && k < |Log(x)| && Log(x)[k].RemoveLiteralFromClausesStart?
    requires forall i | k < i < |Log(x)| :: Log(x)[i].RemoveLiteralFromClause?
    ensures UndoBlock(x, l).Success? ==> Log(UndoBlock(x, l).value) == Log(x)[..k]
    decreases |Log(x)|
  {
    var last := Stacks.Peek(x.actions);
    if last.RemoveLiteralFromClause? && ReinsertOk(PopAction(x), l, last.clauseId) {
      UndoBlockCutsStep(x, l, k, last.clauseId);
      UndoBlockCuts(ReinsertLiteral(PopAction(x), l, last.clauseId), l, k);
    }
  }

  /** One step of `UndoBlockCuts`: undoing a literal removal keeps the
      start entry and the removal entries after it, one fewer. */
  lemma UndoBlockCutsStep(x: Expression, l: Literal, k: nat, c: ClauseId)
    requires l in x.literalToClause && k < |Log(x)| && Log(x)[k].RemoveLiteralFromClausesStart?
    requires forall i | k < i < |Log(x)| :: Log(x)[i].RemoveLiteralFromClause?
    requires Stacks.Peek(x.actions) == RemoveLiteralFromClause(c) && ReinsertOk(PopAction(x), l, c)
    ensures var x2 := ReinsertLiteral(PopAction(x), l, c);
      && UndoBlock(x, l) == UndoBlock(x2, l)
      && l in x2.literalToClause && k < |Log(x2)| && Log(x2)[k].RemoveLiteralFromClausesStart?
      && (forall i | k < i < |Log(x2)| :: Log(x2)[i].RemoveLiteralFromClause?)
      && Log(x2)[..k] == Log(x)[..k]
      && |Log(x2)| < |Log(x)|
  {
    UndoBlockAtRemoval(x, l, c);
    var x2 := ReinsertLiteral(PopAction(x), l, c);
    assert Log(x2)[..k] == Log(x)[..k];
  }

  /** A prefix that parses ends at an entry boundary, so it cannot end
      strictly inside the block that ends the log. */
  lemma BoundaryBeforeBlock(log: seq<Action>, state: nat)
    requires Parses(log) && |log| > 0 && log[|log| - 1].RemoveLiteralFromClausesEnd?
    requires state < |log| && Parses(log[..state])
    ensures 0 <= state <= BlockStart(log, |log| - 2)
  {
    var k := BlockStart(log, |log| - 2);
    assert k >= 0;
    if state > k {
      ParsesLast(log[..state]);
    }
  }

  /** The block that ends a parsing log: where it starts, and that the
      prefix before it parses and contains the boundary `state`. */
  lemma BlockEndShapeLog(log: seq<Action>, state: nat)
    requires Parses(log) && |log| > 0 && log[|log| - 1].RemoveLiteralFromClausesEnd?
    requires state < |log| && Parses(log[..state])
    ensures var k := BlockStart(log, |log| - 2); var log1 := log[..|log| - 1];
      && 0 <= state <= k < |log1|
      && log1[k].RemoveLiteralFromClausesStart?
      && (forall i | k < i < |log1| :: log1[i].RemoveLiteralFromClause?)
      && Parses(log1[..k])
      && log1[..k][..state] == log[..state]
  {
    var k := BlockStart(log, |log| - 2);
    assert k >= 0 && log[k].RemoveLiteralFromClausesStart? && Parses(log[..k]);
    BoundaryBeforeBlock(log, state);
    assert log[..|log| - 1][..k] == log[..k];
  }

  /** `BlockEndShapeLog` for the log of an expression. */
  lemma BlockEndShape(e: Expression, state: ActionState, l: Literal)
    requires Parses(Log(e)) && state < |Log(e)| && Parses(Log(e)[..state])
    requires Stacks.Peek(e.actions) == RemoveLiteralFromClausesEnd(l)
    ensures var k := BlockStart(Log(e), |Log(e)| - 2);
      && 0 <= state <= k < |Log(PopAction(e))|
      && Log(PopAction(e))[k].RemoveLiteralFromClausesStart?
      && (forall i | k < i < |Log(PopAction(e))| :: Log(PopAction(e))[i].RemoveLiteralFromClause?)
      && Parses(Log(PopAction(e))[..k])
      && Log(PopAction(e))[..k][..state] == Log(e)[..state]
  {
    BlockEndShapeLog(Log(e), state);
  }

  /** The block-end case of `RestoreCuts`. */
  lemma {:induction false} RestoreCutsBlock(e: Expression, state: ActionState, l: Literal)
    requires Parses(Log(e)) && state < |Log(e)| && Parses(Log(e)[..state])
    requires Stacks.Peek(e.actions) == RemoveLiteralFromClausesEnd(l)
    ensures !Restore(e, state).Halted?
    ensures Restore(e, state).Restored? ==> Log(Restore(e, state).e) == Log(e)[..state]
    decreases |Log(e)|, 0
  {
    var e1 := PopAction(e);
    var k := BlockStart(Log(e), |Log(e)| - 2);
    BlockEndShape(e, state, l);
    if l in e1.literalToClause && UndoBlock(e1, l).Success? {
      UndoBlockCuts(e1, l, k);
      RestoreAtBlockEnd(e, l, state);
      RestoreCuts(UndoBlock(e1, l).value, state);
    }
  }

  /** On a log that parses, restoring to a length whose prefix also parses
      never stops at a stray entry, and unless it panics it cuts the log
      back to exactly that length. */
  lemma {:induction false} RestoreCuts(e: Expression, state: ActionState)
    requires Parses(Log(e)) && state <= |Log(e)| && Parses(Log(e)[..state])
    ensures !Restore(e, state).Halted?
    ensures Restore(e, state).Restored? ==> Log(Restore(e, state).e) == Log(e)[..state]
    decreases |Log(e)|, 1
  {
    var log := Log(e);
    var n := |log|;
    if n > state {
      var e1 := PopAction(e);
      assert Log(e1)[..state] == log[..state];
      match Stacks.Peek(e.actions)
      case RemoveClause(c) =>
        if EnableOk(e1, c) {
          RestoreAtRemove(e, c, state);
          RestoreCuts(EnableClause(e1, c), state);
        }
      case AssignVariable(v) =>
        RestoreAtAssign(e, v, state);
        RestoreCuts(UnassignVariable(e1, v), state);
      case RemoveLiteralFromClausesEnd(l) =>
        RestoreCutsBlock(e, state, l);
      case RemoveLiteralFromClausesStart =>
        ParsesLast(log);
      case RemoveLiteralFromClause(_) =>
        ParsesLast(log);
    }
  }
}

=== FILE: solver.dfy ===
/** The model check applied to a solution, and the top-level solve that
    runs the search and optionally checks its answer. */
module Solver {
  import opened Wrappers
  import opened Cnf
  import opened Expressions
  import opened LogShape
  import opened Dpll

  /** Every variable of every clause has a value. */
  predicate Covers(a: Assignment, cs: seq<Clause>) {
    forall i, l | 0 <= i < |cs| && l in cs[i].literals :: ToVariable(l) in a
  }

  /** The message of a panic on a missing key of the assignment map. */
  const MissingKey := "key not found in assignment"

  /** The inner loop of `verify_assignment` over one clause: stops at the
      first literal the assignment makes true; reading the value of a
      missing variable panics. */
  function CheckClause(lits: seq<Literal>, a: Assignment): (r: Result<bool>)
    ensures r.Success? ==> (r.value <==> exists l :: l in lits && LiteralTrue(a, l))
    ensures (forall l | l in lits :: ToVariable(l) in a) ==> r.Success?
    ensures r.Failure? ==> r.message == MissingKey && exists l :: l in lits && ToVariable(l) !in a
  {
    if |lits| == 0 then Success(false)
    else
      assert forall k :: k in lits <==> k == lits[0] || k in lits[1..];
      var v := ToVariable(lits[0]);
      if v !in a then Failure(MissingKey)
      else if a[v] == (lits[0] > 0) then
        assert LiteralTrue(a, lits[0]);
        Success(true)
      else CheckClause(lits[1..], a)
  }

  /** The outer loop of `verify_assignment`, from clause `i` on. */
  function CheckFrom(cs: seq<Clause>, a: Assignment, i: nat): (r: Result<bool>)
    requires i <= |cs|
    ensures r.Success? ==> (r.value <==> forall j | i <= j < |cs| :: SatisfiesClause(a, cs[j]))
    ensures (forall j, l | i <= j < |cs| && l in cs[j].literals :: ToVariable(l) in a) ==> r.Success?
    ensures r.Failure? ==> r.message == MissingKey
    decreases |cs| - i
  {
    if i == |cs| then Success(true)
    else
      var c := CheckClause(cs[i].literals, a);
      if c.Failure? then Failure(c.message)
      else if !c.value then Success(false)
      else CheckFrom(cs, a, i + 1)
  }

  /** `verify_assignment`: whether every clause of the expression has a
      literal the assignment makes true. An assignment that covers the
      clauses' variables never panics. */
  function VerifyAssignment(e: Expression, a: Assignment): (r: Result<bool>)
    ensures r.Success? ==> (r.value <==> Satisfies(a, e.clauses))
    ensures Covers(a, e.clauses) ==> r.Success?
    ensures r.Failure? ==> r.message == MissingKey
  {
    CheckFrom(e.clauses, a, 0)
  }

  /** With no clauses every assignment verifies. */
  lemma VerifyEmpty(a: Assignment)
    ensures VerifyAssignment(New(), a) == Success(true)
  {
  }

  /** The clause built by `insert_checked` of two different literals. */
  lemma TwoLiterals(l1: Literal, l2: Literal)
    requires l1 != l2
    ensures InsertChecked(InsertChecked(NewClause(), l1), l2) == Clause([l1, l2])
  {
    assert InsertChecked(NewClause(), l1) == Clause([l1]);
  }

  /** `(1 or -2)` under `{1: true, 2: false}` verifies. */
  lemma VerifySatisfied(e: Expression)
    requires e.clauses == [InsertChecked(InsertChecked(NewClause(), 1), -2)]
    ensures VerifyAssignment(e, map[1 := true, 2 := false]) == Success(true)
  {
    TwoLiterals(1, -2);
    assert CheckFrom([Clause([1, -2])], map[1 := true, 2 := false], 0) == Success(true);
  }

  /** `(1 or 2)` under `{1: false, 2: false}` does not. */
  lemma VerifyUnsatisfied(e: Expression)
    requires e.clauses == [InsertChecked(InsertChecked(NewClause(), 1), 2)]
    ensures VerifyAssignment(e, map[1 := false, 2 := false]) == Success(false)
  {
    TwoLiterals(1, 2);
    assert CheckFrom([Clause([1, 2])], map[1 := false, 2 := false], 0) == Success(false);
  }

  /** `(1 or 2) and (-3 or -4)` under `{1, 2: false; 3, 4: true}`: the
      first clause is falsified, so the check fails. */
  lemma VerifyUnsatisfiedMultiple(e: Expression)
    requires e.clauses == [InsertChecked(InsertChecked(NewClause(), 1), 2), InsertChecked(InsertChecked(NewClause(), -3), -4)]
    ensures VerifyAssignment(e, map[1 := false, 2 := false, 3 := true, 4 := true]) == Success(false)
  {
    TwoLiterals(1, 2);
    TwoLiterals(-3, -4);
    var a := map[1 := false, 2 := false, 3 := true, 4 := true];
    assert CheckClause([2], a) == Success(false);
    assert CheckClause([1, 2], a) == Success(false);
    assert CheckFrom([Clause([1, 2]), Clause([-3, -4])], map[1 := false, 2 := false, 3 := true, 4 := true], 0) == Success(false);
  }

  /** `(1 or -2) and (3 or -4)` under `{1, 3: true; 2, 4: false}` verifies. */
  lemma VerifySatisfiedMultiple(e: Expression)
    requires e.clauses == [InsertChecked(InsertChecked(NewClause(), 1), -2), InsertChecked(InsertChecked(NewClause(), 3), -4)]
    ensures VerifyAssignment(e, map[1 := true, 2 := false, 3 := true, 4 := false]) == Success(true)
  {
    TwoLiterals(1, -2);
    TwoLiterals(3, -4);
    var a := map[1 := true, 2 := false, 3 := true, 4 := false];
    var cs := [Clause([1, -2]), Clause([3, -4])];
    CheckHead(cs[0].literals, a, 1);
    CheckHead(cs[1].literals, a, 3);
    CheckNext(cs, a, 1);
    CheckNext(cs, a, 0);
  }

  /** A clause whose first literal is true passes the check. */
  lemma CheckHead(lits: seq<Literal>, a: Assignment, v: Variable)
    requires |lits| > 0 && 0 < v && lits[0] == v as int && v in a && a[v]
    ensures CheckClause(lits, a) == Success(true)
  {
  }

  /** A passing clause hands the check on to the next one. */
  lemma CheckNext(cs: seq<Clause>, a: Assignment, i: nat)
    requires i < |cs| && CheckClause(cs[i].literals, a) == Success(true)
    ensures CheckFrom(cs, a, i) == CheckFrom(cs, a, i + 1)
  {
  }

  /** A search that sent its answer: `Some` or `None`. */
  predicate Answered(o: Outcome) {
    o.Sat? || o.Unsat?
  }

  /** The message of `expect` on a failed `recv`. */
  const NoResult := "Could not receive result from solver."

  /** What `recv` in `solve` gives back. `first` is the outcome of the
      literal-count search; `second` is that of the clause-length search
      when two threads run. A panicking search thread drops its sender
      without sending. With one thread, `solve` itself still holds the
      second sender, so `recv` never fails and a panic leaves it blocked:
      no answer, which the model writes `OutOfFuel`. With two threads
      both senders live in the search threads, so `recv` fails only when
      both have panicked; when both answer, `pick` says which came first.
      A search that runs out of fuel is one that has not answered. */
  function Receive(first: Outcome, second: Option<Outcome>, pick: bool): (r: Outcome)
    ensures Answered(r) <==> Answered(first) || (second.Some? && Answered(second.value))
    ensures Answered(r) ==> r == first || (second.Some? && r == second.value)
    ensures Answered(first) && (second.None? || !Answered(second.value)) ==> r == first
    ensures r.Panic? <==> second.Some? && first.Panic? && second.value.Panic?
    ensures r.Panic? ==> r.message == NoResult
    ensures r.OutOfFuel? <==> !Answered(r) && !r.Panic?
  {
    match second
    case None => if Answered(first) then first else OutOfFuel
    case Some(o) =>
      if Answered(first) && Answered(o) then (if pick then first else o)
      else if Answered(first) then first
      else if Answered(o) then o
      else if first.Panic? && o.Panic? then Panic(NoResult)
      else OutOfFuel
  }

  /** With one thread a panic of the search never reaches the caller:
      `solve` waits for ever. */
  lemma OneThreadPanicBlocks(m: string, pick: bool)
    ensures Receive(Panic(m), None, pick) == OutOfFuel
  {
  }

  /** With two threads, one panicking search leaves the answer to the
      other. */
  lemma OtherThreadAnswers(m: string, o: Outcome, pick: bool)
    requires Answered(o)
    ensures Receive(Panic(m), Some(o), pick) == o && Receive(o, Some(Panic(m)), pick) == o
  {
  }

  /** `solve`: runs the literal-count search on a copy of the expression
      and, with two threads, the clause-length search on another; `recv`
      takes an answer as `Receive` says, and with `verify` a `Some`
      answer that fails the check panics. A checked answer satisfies
      every clause; without the check, `solve` panics only when two
      searches both panic. */
  method Solve(e: Expression, useMultipleThreads: bool, verify: bool, fuel: nat) returns (r: Outcome)
    requires Wf(e) && Parses(Log(e))
    ensures verify && r.Sat? ==> Satisfies(r.assignment, e.clauses)
    ensures !verify && r.Panic? ==> useMultipleThreads && r.message == NoResult
    ensures !useMultipleThreads && r.Panic? ==> verify && r.message != NoResult
  {
    var maxLiterals := e.(heuristic := MostLiteralOccurrences);
    assert Log(maxLiterals) == Log(e);
    var first, _ := SolveDpll(maxLiterals, fuel);
    var second: Option<Outcome> := None;
    if useMultipleThreads {
      var minClauseLen := e.(heuristic := MinimizeClauseLength);
      assert Log(minClauseLen) == Log(e);
      var o, _ := SolveDpll(minClauseLen, fuel);
      second := Some(o);
    }
    var pick: bool :| true;
    var solution := Receive(first, second, pick);
    if solution.Sat? && verify {
      var check := VerifyAssignment(e, solution.assignment);
      if check.Failure? {
        return Panic(check.message);
      }
      if !check.value {
        return Panic("Solution is invalid!");
      }
    }
    return solution;
  }
}

=== FILE: stack.dfy ===
/** The vector-backed stack used as the solver's undo log. */
module Stacks {
  import opened Wrappers

  /** The top of the stack is the last element of `items`. */
  datatype Stack<T> = Stack(items: seq<T>)

  /** `Stack::new`; the capacity argument only pre-allocates and is dropped. */
  function New<T>(): (s: Stack<T>)
    ensures Len(s) == 0 && IsEmpty(s)
  {
    Stack([])
  }

  function Len<T>(s: Stack<T>): nat {
    |s.items|
  }

  function IsEmpty<T>(s: Stack<T>): (b: bool)
    ensures b <==> Len(s) == 0
  {
    |s.items| == 0
  }

  function Push<T>(s: Stack<T>, v: T): (r: Stack<T>)
    ensures Len(r) == Len(s) + 1
    ensures !IsEmpty(r) && Peek(r) == v
    ensures r.items[..Len(s)] == s.items
  {
    Stack(s.items + [v])
  }

  /** `Stack::peek` unwraps the last element, so the stack must be non-empty. */
  function Peek<T>(s: Stack<T>): (v: T)
    requires !IsEmpty(s)
    ensures v == s.items[Len(s) - 1]
  {
    s.items[|s.items| - 1]
  }

  /** Returns the popped value (if any) and the remaining stack. */
  function Pop<T>(s: Stack<T>): (r: (Option<T>, Stack<T>))
    ensures IsEmpty(s) ==> r.0 == None && r.1 == s
    ensures !IsEmpty(s) ==> r.0 == Some(Peek(s)) && Push(r.1, Peek(s)) == s
    ensures !IsEmpty(s) ==> Len(r.1) == Len(s) - 1 && r.1.items == s.items[..Len(s) - 1]
  {
    if |s.items| == 0 then (None, s)
    else (Some(s.items[|s.items| - 1]), Stack(s.items[..|s.items| - 1]))
  }

  function Contains<T(==)>(s: Stack<T>, v: T): (b: bool)
    ensures b <==> exists i :: 0 <= i < Len(s) && s.items[i] == v
  {
    v in s.items
  }

  /** Popping right after a push gives back the pushed value and the
      stack as it was. */
  lemma PopAfterPush<T>(s: Stack<T>, v: T)
    ensures Pop(Push(s, v)) == (Some(v), s)
  {
    assert Push(s, v).items[..Len(s)] == s.items;
  }

  lemma ContainsAfterPush<T>(s: Stack<T>, v: T, w: T)
    ensures Contains(Push(s, v), v)
    ensures Contains(Push(s, v), w) <==> Contains(s, w) || w == v
  {
    assert Push(s, v).items[Len(s)] == v;
    if Contains(Push(s, v), w) && w != v {
      var i :| 0 <= i < Len(Push(s, v)) && Push(s, v).items[i] == w;
      assert i < Len(s);
      assert s.items[i] == w;
    }
    if Contains(s, w) {
      var i :| 0 <= i < Len(s) && s.items[i] == w;
      assert Push(s, v).items[i] == w;
    }
  }

  /** `len` counts every item, and is zero exactly when the stack holds
      no value. */
  lemma LenCounts<T>(s: Stack<T>)
    ensures Len(s) == |multiset(s.items)|
    ensures Len(s) == 0 <==> forall v :: !Contains(s, v)
  {
    if Len(s) > 0 {
      assert s.items[0] in s.items;
      assert Contains(s, s.items[0]);
    }
  }

  lemma PopEmpty<T>(s: Stack<T>)
    requires IsEmpty(s)
    ensures Pop(s) == (None, s) && IsEmpty(Pop(s).1)
  {
  }
}

=== FILE: wrappers.dfy ===
/** Option and Result, the two failure-carrying shapes the model returns. */
module Wrappers {

  datatype Option<+T> = None | Some(value: T)

  /** `Failure` stands for a Rust panic (an `unwrap` of nothing, a failed
      parse, an index out of range): the computation stops with a message. */
  datatype Result<+T> = Success(value: T) | Failure(message: string)
}
